=== FILE: README.md ===
# Bada — a verified model of the beach app's decision logic

Bada is a Swedish bathing-water app. Its Express backend proxies the HaV
(Havs- och vattenmyndigheten) bathing-water API and keeps per-user
favorites in MongoDB behind bearer-token authentication. Its React frontend
lists beaches, shows their details and lets a signed-in user keep and order
favorites. This project models the deterministic decisions inside both
halves as pure Dafny functions over immutable data, and proves what they
promise.

The time (`now`), the upstream replies, the database and every foreign
library are parameters of these functions. That covers the network, jwt,
bcrypt, zod's email check and error report, the `ObjectId` casts of the favorites routes, `encodeURIComponent`,
`Date.toISOString`, `Intl.Collator`, dnd-kit's `arrayMove`, `formatDate`
and the distance computation.

One module per source file:

| module | file | models |
|---|---|---|
| `Js` | js.dfy | numbers, JSON values, truthiness, `?.`, object spread, `String(n)` |
| `ObjectId` | object_id.dfy | the 24-digit hexadecimal text of a MongoDB `ObjectId` and its cast |
| `Strings` | strings.dfy | JS string `<`, `includes`, `startsWith`, `trim`, `toLowerCase`, `split`/`join` |
| `Arrays` | arrays.dfy | `filter`, `indexOf`, `find`, `some`, `slice(0, n)` |
| `Cache` | cache.dfy | backend/src/lib/cache.ts |
| `Hav` | hav.dfy | backend/src/lib/hav.ts and its compiled build backend/dist/lib/hav.js |
| `BeachesRoute` | beaches_route.dfy | backend/src/routes/beaches.ts and its compiled build backend/dist/routes/beaches.js |
| `FavoriteModel` | favorite_model.dfy | backend/src/models/Favorite.ts |
| `FavoritesRoute` | favorites_route.dfy | backend/src/routes/favorites.ts |
| `FavoritesRouteDist` | favorites_route_dist.dfy | backend/dist/routes/favorites.js |
| `AuthMiddleware` | auth_middleware.dfy | backend/src/middleware/auth.ts |
| `AuthRoute` | auth_route.dfy | backend/src/routes/auth.ts over backend/src/models/User.ts |
| `App` | app.dfy | backend/src/index.ts |
| `QualityClass` | quality_class.dfy | the pill classes shared by the three quality mappers |
| `FavoritesPage` | favorites_page.dfy | frontend/src/pages/FavoritesPage.tsx |
| `DetailPage` | detail_page.dfy | frontend/src/pages/BeachDetailPage.tsx |
| `DetailCard` | detail_card.dfy | frontend/src/components/BeachDetailPage.tsx |
| `BeachesList` | beaches_list.dfy | frontend/src/components/BeachesList.tsx |
| `BeachTypes` | beach_types.dfy | frontend/src/types/beaches.ts |
| `BeachesApi` | beaches_api.dfy | frontend/src/api/beaches.ts |
| `Quality` | quality.dfy | frontend/src/utils/quality.ts |
| `Algal` | algal.dfy | frontend/src/utils/algal.ts |
| `ApiClient` | api_client.dfy | frontend/src/api/client.ts |
| `AuthStore` | auth_store.dfy | frontend/src/store/auth.ts |
| `UseBeachDetails` | use_beach_details.dfy | frontend/src/api/useBeachDetails.ts |

The three stateful parts are small state machines stepped by pure
transition functions:

- the expiring cache is a map from key to value and expiry;
- the favorites collection is a sequence of documents plus the next fresh id;
- the client's token store is the token plus a storage map.

Where the backend ships two diverging versions of a route (the TypeScript
source and the compiled build in `dist`), both are modelled. Lemmas state
where they agree and where they differ. The API description in
backend/src/swagger.ts:459-500 documents `PATCH /favorites/reorder`, but
no router registers that route, and the frontend imports
`useReorderFavorites` from frontend/src/api/favorites.ts, which does not
define it. The
model follows the routes that exist, so it has only the client-side order
and a parameter saying whether the reorder request succeeded.

## Model

| member | source | states |
|---|---|---|
| `Js.NatToString` | backend/src/lib/hav.ts:37 | `String(n)` of a non-negative integer is a non-empty run of decimal digits, of at least two digits from 10 on |
| `Js.NatToStringInjective` | backend/src/lib/hav.ts:37 | distinct integers render as distinct decimal strings, so a status in an error message identifies the status |
| `Js.Setting` | backend/src/lib/hav.ts:8-9 | `A \|\| B \|\| ""` over two environment variables is the first that is set and non-empty, else empty; it gives the v2 base (`HAV_V2_BASE`, `HAV_V2_BASE_URL`) and the CORS setting (`CORS_ORIGIN`, `ALLOWED_ORIGIN`, backend/src/index.ts:17-21) |
| `Js.Property` | frontend/src/api/client.ts:35 | `value?.[name]` is present exactly when the value is an object with that own field, and is then that field |
| `Js.Spread` | backend/src/routes/beaches.ts:39 | `{ ...j }` copies an object's own fields, nothing from null, booleans and numbers, and one indexed entry per element of an array or character of a string |
| `Strings.LeTotalOrder` | backend/src/lib/hav.ts:73 | the JS string order the date sort compares with is reflexive, antisymmetric, transitive and total |
| `Strings.ContainsIffOccurs` | frontend/src/components/BeachesList.tsx:52 | `h.includes(n)` holds exactly when `n` occurs in `h` at some offset |
| `Strings.Trim` | backend/src/index.ts:23 | `trim()` returns a contiguous slice with only whitespace cut on either side, no whitespace at its ends, and is empty exactly when the text is all whitespace |
| `Strings.TrimIdempotent` | frontend/src/components/BeachesList.tsx:47 | trimming a trimmed text changes nothing |
| `Strings.TrimNoop` | backend/src/index.ts:23 | a text without surrounding whitespace is its own trim |
| `Strings.ToLower` | frontend/src/pages/FavoritesPage.tsx:32 | `toLowerCase()` keeps the length and lowers each character on its own |
| `Strings.ToLowerNoop` | backend/src/index.ts:68 | a text with no upper-case letter is its own lower-case form, so lower-case route paths match themselves |
| `Strings.ToLowerIdempotent` | frontend/src/components/BeachesList.tsx:47 | lower-casing a lower-cased text changes nothing |
| `Strings.LowerTrimCommute` | frontend/src/utils/algal.ts:9 | lower-casing then trimming (algal lookups) equals trimming then lower-casing (list search) |
| `Strings.Split` | backend/src/middleware/auth.ts:13 | `split(sep)` yields at least one piece and no piece contains the separator |
| `Strings.JoinSplit` | backend/src/middleware/auth.ts:13 | joining the pieces of a split with the separator gives the text back |
| `Strings.SplitJoin` | backend/src/index.ts:22 | splitting a join of separator-free pieces gives exactly those pieces |
| `Arrays.Filter` | frontend/src/pages/FavoritesPage.tsx:76 | `filter(p)` keeps exactly the elements passing `p`, never more of any element than there were |
| `Arrays.FilterIsSubsequence` | frontend/src/components/BeachesList.tsx:50 | a filter's result is a subsequence of its input: order kept, nothing repeated |
| `Arrays.FilterCounts` | frontend/src/pages/FavoritesPage.tsx:258 | an element the filter passes keeps every one of its occurrences |
| `Arrays.FilterConcat` | frontend/src/pages/FavoritesPage.tsx:75-76 | filtering a concatenation is concatenating the filtered parts |
| `Arrays.FilterCommute` | frontend/src/components/BeachesList.tsx:48-62 | two filters applied one after the other may be applied in either order |
| `Arrays.IndexOf` | frontend/src/pages/FavoritesPage.tsx:144-146 | `indexOf(x)` is -1 exactly when `x` is absent, else the first position holding `x` |
| `Arrays.Find` | frontend/src/pages/BeachDetailPage.tsx:57 | `find(p)` is absent exactly when no element passes, else the first element that passes |
| `Arrays.AnyIffExists` | frontend/src/api/useBeachDetails.ts:23-24 | `some(p)` holds exactly when some element passes `p` |
| `Arrays.Take` | frontend/src/components/BeachesList.tsx:160 | `slice(0, n)` is the first `min(n, length)` elements, unchanged |
| `Cache.New` | backend/src/lib/cache.ts:3-6 | a new cache has an empty store and keeps the default time-to-live it was given |
| `Cache.Shared` | backend/src/lib/cache.ts:23 | the shared instance starts empty with a 60-second default |
| `Cache.Get` | backend/src/lib/cache.ts:8-16 | a hit exactly when the key is stored and `now` has not passed its expiry (equal is live), returning the stored value; a read past expiry deletes that key and nothing else; any other read leaves the cache unchanged |
| `Cache.Set` | backend/src/lib/cache.ts:18-20 | the key is stored with the value and expiry `now + ttl`, the instance default when `ttl` is omitted; every other key keeps its entry |
| `Cache.GetMissing` | backend/src/lib/cache.ts:9-10 | reading a key never set misses and changes nothing |
| `Cache.SetThenGet` | backend/src/lib/cache.ts:11-19 | after `set(k, v, ttl)` at `t`, every read of `k` up to and including `t + ttl` returns `v` and leaves the cache alone |
| `Cache.ExpiredStaysGone` | backend/src/lib/cache.ts:11-14 | a read after expiry misses and evicts the key, so every later read misses too |
| `Cache.SetOverwrites` | backend/src/lib/cache.ts:18-20 | the second `set` of a key wins, value and expiry both |
| `Cache.OtherKeysUntouched` | backend/src/lib/cache.ts:8-20 | `get` and `set` of one key leave the presence and entry of every other key unchanged |
| `Cache.SharedDefault` | backend/src/lib/cache.ts:18-23 | on the shared instance an omitted time-to-live expires 60 000 ms after the write |
| `Hav.Key` | backend/src/lib/hav.ts:19-25 | the cache key of a v1 path is `hav:v1:` followed by the path |
| `Hav.KeyInjective` | backend/src/lib/hav.ts:19-25 | distinct paths never share a cache entry |
| `Hav.HavGet` | backend/src/lib/hav.ts:24-41 | in both versions a live truthy cached value is returned with no request; otherwise `base + path` is fetched; a success is returned unchanged and cached under the key until `arrival + ttl` (five minutes by default); a non-ok status throws the version's own message, a broken request its error, and neither writes anything |
| `Hav.FalsyCachedValueRefetched` | backend/src/lib/hav.ts:26-29 | a live but falsy cached value counts as a miss and the upstream is asked again |
| `Hav.SecondCallHitsCache` | backend/src/lib/hav.ts:24-41 | after a successful truthy fetch, the same request before expiry is answered from the cache with the same payload and no request |
| `Hav.V1ErrorMessagesDiffer` | backend/dist/lib/hav.js:28 | the compiled `HaV v1 error <status> <text>` never equals the source's `HaV API error: <status> <text>` |
| `Hav.V1BuildsDifferOnlyInMessage` | backend/dist/lib/hav.js:9-33 | the two versions of `havGet` fetch and cache alike and succeed together; their outcomes differ exactly when the upstream was asked and answered a non-ok status |
| `Hav.V2Base` | backend/dist/lib/hav.js:4 | the source's v2 base is `HAV_V2_BASE \|\| HAV_V2_BASE_URL \|\| ""`; the build's is `HAV_V2_BASE` when set, even empty, else the public HaV v2 URL |
| `Hav.V2BasesAgree` | backend/src/lib/hav.ts:8-9 | the versions pick the same v2 base exactly when `HAV_V2_BASE` is non-empty, or unset with `HAV_V2_BASE_URL` equal to the build's default, or empty with no non-empty fallback |
| `Hav.HavV2Get` | backend/src/lib/hav.ts:44-59 | the source throws `HAV_V2_BASE not configured` before any request when its base is empty, the build never does; otherwise `base + path` is fetched and the call succeeds exactly when the reply does, with its body; a non-ok status throws the version's message, with the body text only in the source |
| `Hav.Dates` | backend/src/lib/hav.ts:70-72 | the dates kept are exactly the present, non-empty `takenAt` values |
| `Hav.SortDescending` | backend/src/lib/hav.ts:73 | the sort is a permutation of the dates, greatest first by the JS string order |
| `Hav.HeadIsGreatest` | backend/src/lib/hav.ts:73 | the head of a descending permutation is at least every date |
| `Hav.LatestTakenAt` | backend/src/lib/hav.ts:69-75 | the result is null exactly when no result has a non-empty `takenAt` (a missing `results` counts as none); otherwise it is one of those dates and no other is greater |
| `Hav.GetLatestSampleDate` | backend/src/lib/hav.ts:62-76 | in both versions one v2 request for the id's results path; its failure propagates, its success yields the latest date of the document |
| `BeachesRoute.List` | backend/src/routes/beaches.ts:12-20 | `GET /beaches` answers the cached v1 feature listing unchanged, fetching it on a miss and caching a success for five minutes; a failed fetch is passed on with the client's message (the status text, or the network error's) and leaves the cache as the lookup left it |
| `BeachesRoute.Merge` | backend/src/routes/beaches.ts:38-41 | the response is an object with the detail's own fields and `latestSampleDate` set last, replacing any field of that name |
| `BeachesRoute.Detail` | backend/src/routes/beaches.ts:28-45 | source version: a v1 failure fails the request; a v2 failure yields `latestSampleDate: null`; otherwise the v2 date is merged into the v1 detail |
| `BeachesRoute.SourceAlwaysAsksV2` | backend/src/routes/beaches.ts:33-36 | in the source version the v2 request is the same whatever v1 answers |
| `BeachesRoute.SourceV2FailureDegrades` | backend/src/routes/beaches.ts:35-41 | when v1 succeeds and v2 fails or is unconfigured, the request still succeeds with `latestSampleDate: null` |
| `BeachesRoute.Truncate` | backend/dist/routes/beaches.js:31 | the millisecond count a `Date` keeps is the number truncated toward zero |
| `BeachesRoute.IsoOfEpoch` | backend/dist/routes/beaches.js:31 | `new Date(ms).toISOString()` throws exactly when the time lies beyond the 8.64e15 ms `Date` range, else formats the truncated time |
| `BeachesRoute.V1SampleMs` | backend/dist/routes/beaches.js:29-30 | the detail's own sample time is used exactly when `sampleDate` is a finite number |
| `BeachesRoute.DetailDist` | backend/dist/routes/beaches.js:22-48 | compiled version on the compiled client: a v1 failure fails the request and v2 is not asked; a finite `sampleDate` is converted and v2 is not asked; otherwise v2 is asked at the build's base and its failure leaves the date null |
| `BeachesRoute.VersionsAgreeWithoutSampleDate` | backend/dist/routes/beaches.js:33-43 | with `HAV_V2_BASE` non-empty and no usable `sampleDate`, both versions give the same response, cache and requests |
| `BeachesRoute.UnsetV2BaseDiverges` | backend/dist/lib/hav.js:4 | with neither v2 variable set, the source answers `latestSampleDate: null` without asking v2, while the build asks the public HaV v2 URL and reports the latest date found there |
| `BeachesRoute.V1FailureFailsBoth` | backend/dist/routes/beaches.js:45-47 | a v1 failure fails both versions with the same cache and the build asks nothing of v2; the errors are equal exactly when the reply was not a non-ok status |
| `FavoriteModel.Create` | backend/src/models/Favorite.ts:3-19 | an owner that does not cast to an `ObjectId`, or an empty beach id, fails validation with Mongoose's message naming each failing path, the owner's first; a beach the cast owner already holds is a duplicate key; otherwise one document is appended that stores the cast owner, with a fresh id, order 0 and both timestamps `now` |
| `FavoriteModel.CreatePreservesValid` | backend/src/models/Favorite.ts:19 | an insert keeps ids unique, keeps (user, beach) pairs unique and keeps the required fields present |
| `FavoriteModel.FindOneAndDelete` | backend/src/routes/favorites.ts:76 | removes one document the filter matches and returns it, or changes nothing when none matches |
| `FavoriteModel.DeletePreservesValid` | backend/src/models/Favorite.ts:5-19 | a removal keeps the collection valid |
| `FavoriteModel.AtMostOneMatch` | backend/src/models/Favorite.ts:19 | in a valid collection an id, or a user and beach pair, identifies at most one document |
| `FavoritesRoute.ParseCreate` | backend/src/routes/favorites.ts:9-12 | a body is accepted exactly when it is an object with a non-empty `beachId` string and, if present, a `note` string of at most 500 characters; the parse keeps those two fields |
| `FavoritesRoute.ParseIgnoresOtherFields` | backend/src/routes/favorites.ts:42-49 | no other body field affects the parse, so the owner always comes from the token |
| `FavoritesRoute.Add` | backend/src/routes/favorites.ts:38-66 | 400 `InvalidBody` for a bad body, with the flattened schema error as `details`; 201 with the new document (the cast owner, the note or `""`) exactly when the caller's id casts and its owner does not hold the beach; 409 `AlreadyFavorited` exactly when it does; exactly when the id does not cast, the validation error `Favorite validation failed: userId: Cast to ObjectId failed …` is rethrown; nothing changes unless 201 |
| `FavoritesRoute.SortForListing` | backend/src/routes/favorites.ts:31 | the listing sort is a permutation ordered by `order` ascending, then `createdAt` descending |
| `FavoritesRoute.OwnedBy` | backend/src/routes/favorites.ts:30 | `find({ userId })`, once the id has cast, keeps every document of that owner, as often as stored, and none of anyone else |
| `FavoritesRoute.List` | backend/src/routes/favorites.ts:25-35 | throws the cast error exactly when the caller's id is not an `ObjectId`; otherwise 200 with exactly the documents of the owner it casts to, sorted by order ascending then newest first |
| `FavoritesRoute.DeleteById` | backend/src/routes/favorites.ts:69-80 | a path id that is not an `ObjectId` throws, then a caller id that is not one; otherwise `{ ok: true }` exactly when a document has that id and belongs to the owner the caller's id casts to, and exactly that document goes; 404 `NotFound` changes nothing; other owners' documents are never touched |
| `FavoritesRoute.DeleteMatching` | backend/src/routes/favorites.ts:76-78 | `{ ok: true }` exactly when some document matches the filter, one matching document removed and the rest kept; otherwise 404 and no change |
| `FavoritesRoute.RoutesPreserveValid` | backend/src/routes/favorites.ts:38-80 | adding and deleting keep the collection valid |
| `FavoritesRoute.AddTwiceConflicts` | backend/src/routes/favorites.ts:58-62 | repeating a successful add answers 409 `AlreadyFavorited` and changes nothing |
| `FavoritesRoute.AddedIsListed` | backend/src/routes/favorites.ts:29-57 | a created favorite appears in its creator's list and in the list of no caller whose id casts to another owner |
| `FavoritesRoute.AddThenDeleteRestores` | backend/src/routes/favorites.ts:52-78 | deleting a just-added favorite by its id succeeds and restores the documents |
| `FavoritesRoute.DeleteTwiceNotFound` | backend/src/routes/favorites.ts:76-77 | a second delete of the same id is 404 and changes nothing |
| `FavoritesRoute.MalformedSubjectThrows` | backend/src/routes/favorites.ts:29-76 | a token subject that is not an `ObjectId` makes listing and deleting throw the cast error, and adding a valid body throw the validation error naming the subject; nothing changes |
| `FavoritesRoute.OwnerIsTheCastId` | backend/src/models/Favorite.ts:5-10 | two subjects that cast to the same `ObjectId` list, add and delete alike, and once one has added a beach the other's add of it is 409 `AlreadyFavorited` |
| `FavoritesRoute.SignedSubjectIsOwner` | backend/src/routes/favorites.ts:29-30 | the subject a login signs casts back to the user's id, so that user's list is exactly their documents and an add never throws and files the new document under them |
| `FavoritesRouteDist.DeleteByIdChecked` | backend/dist/routes/favorites.js:56-68 | 400 `MissingId` for an empty id, 400 `InvalidId` for a malformed one, both before any lookup; otherwise the delete scoped to the cast owner; it throws exactly when the id is well-formed and the caller's id is not an `ObjectId` |
| `FavoritesRouteDist.CheckedDeleteAgrees` | backend/dist/routes/favorites.js:59-64 | for a well-formed id the build answers as the source; for a malformed one it answers 400 where the source throws |
| `FavoritesRouteDist.DeleteByBeach` | backend/dist/routes/favorites.js:70-77 | a caller id that is not an `ObjectId` throws; otherwise `{ ok: true }` exactly when the owner it casts to holds the beach, removing that favorite, else 404; documents of other owners or beaches are untouched |
| `FavoritesRouteDist.DeleteByBeachFrees` | backend/dist/routes/favorites.js:72-76 | a delete by beach keeps the collection valid, and afterwards the owner a castable caller id names no longer holds the beach |
| `FavoritesRouteDist.DistRoutesPreserveValid` | backend/dist/routes/favorites.js:56-77 | both delete routes of the build keep the collection valid |
| `AuthMiddleware.RequireAuth` | backend/src/middleware/auth.ts:8-26 | `NoAuthHeader` exactly when the header is missing or empty; `InvalidAuthHeader` exactly when the first space-separated piece is not `Bearer` or the second is empty; `InvalidToken` exactly when that second piece does not verify; otherwise the user is the verified payload |
| `AuthMiddleware.BearerHeaderJudgedByToken` | backend/src/middleware/auth.ts:13-22 | `Bearer <token>` followed by any further pieces is judged by the token alone |
| `AuthMiddleware.AcceptedHeaderShape` | backend/src/middleware/auth.ts:13-17 | an accepted header is `Bearer`, one space, a non-empty space-free token that verifies to the user, then anything |
| `AuthMiddleware.DoubleSpaceRejected` | backend/src/middleware/auth.ts:13-15 | `Bearer` followed by two spaces is rejected as malformed before the token is looked at |
| `ObjectId.ToString` | backend/src/routes/auth.ts:52 | `String(user._id)` is 24 lower-case hexadecimal digits |
| `ObjectId.Parse` | backend/src/models/Favorite.ts:5-6 | a string casts to an id exactly when it is 24 hexadecimal digits of either case, and the id is below 2^96 |
| `ObjectId.ToStringRoundTrip` | backend/src/routes/auth.ts:52 | the written form of an id casts back to the id |
| `ObjectId.ToStringInjective` | backend/src/routes/auth.ts:52 | distinct ids are written differently |
| `ObjectId.SameIdIffSameDigits` | backend/src/models/Favorite.ts:5-6 | two strings cast to the same id exactly when their digits agree up to letter case |
| `AuthRoute.ParseCreds` | backend/src/routes/auth.ts:11-14 | credentials are accepted exactly when `email` is a string the email check accepts and `password` is a string of at least 8 characters |
| `AuthRoute.FindByEmail` | backend/src/routes/auth.ts:26 | `findOne({ email })` finds a stored user with that email exactly when one exists |
| `AuthRoute.Register` | backend/src/routes/auth.ts:17-33 | 400 `InvalidBody` with the flattened schema error as `details`; 409 `EmailInUse` exactly when the email is taken, changing nothing; else one user is stored with the cost-12 hash of the password and the answer is 201 |
| `AuthRoute.RegisterPreservesValid` | backend/src/models/User.ts:5 | registration keeps emails unique |
| `AuthRoute.Login` | backend/src/routes/auth.ts:36-57 | 400 `InvalidBody` with the flattened schema error as `details`; 401 `InvalidCredentials` exactly when the email is unknown or the password does not match; else a token signed for 7 days over `{ sub, email }` whose subject is the user's id as 24 lower-case hexadecimal digits |
| `AuthRoute.LoginFailuresIndistinguishable` | backend/src/routes/auth.ts:45-49 | an unknown email and a wrong password give the same response |
| `AuthRoute.RegisterThenLogin` | backend/src/routes/auth.ts:29-56 | logging in with the body just registered yields a token whose subject is the new user's id in hexadecimal and casts back to that id |
| `App.TrimAll` | backend/src/index.ts:23 | every piece is trimmed, in place |
| `App.NonEmpty` | backend/src/index.ts:24 | `filter(Boolean)` keeps exactly the non-empty pieces |
| `App.AllowedOrigins` | backend/src/index.ts:17-24 | the allowlist is exactly the non-empty trimmed comma-separated pieces of the setting; no entry is empty or holds a comma |
| `App.AllowlistRoundTrip` | backend/src/index.ts:17-24 | clean entries joined by commas into `CORS_ORIGIN` come back as exactly those entries |
| `App.UnconfiguredAllowlistEmpty` | backend/src/index.ts:17-24 | with neither variable set the allowlist is empty |
| `App.CorsDecision` | backend/src/index.ts:27-32 | allowed exactly when there is no origin, the allowlist is empty, or the origin equals an entry; otherwise `Not allowed by CORS` |
| `App.PaddedOriginRejected` | backend/src/index.ts:23-30 | an origin starting with whitespace is rejected by any non-empty allowlist |
| `App.ErrorReply` | backend/src/index.ts:78-92 | always 500 `InternalServerError`; the message is included exactly when not in production and the thrown value is an `Error` |
| `App.ProductionHidesMessages` | backend/src/index.ts:86-90 | in production every thrown value gets the same reply |
| `App.CorsRejectionReply` | backend/src/index.ts:86-90 | a CORS rejection reaches the handler as an `Error`: 500, with `Not allowed by CORS` outside production |
| `App.Dispatch` | backend/src/index.ts:56-68 | a request goes to the first registered route whose method matches (`HEAD` also matching `GET`) and whose path matches ignoring letter case and one trailing slash, or to none |
| `App.DispatchSkips` | backend/src/index.ts:56-68 | removing a route the request does not match leaves its dispatch unchanged |
| `App.Serve` | backend/src/index.ts:62-77 | an unmatched request gets the 404; an unguarded route serves it; a guarded route serves it only after `requireAuth` accepts, with the user |
| `App.MeRequestMatchesNoOther` | backend/src/routes/auth.ts:8-61 | a request that matches `/api/auth/me` matches no other auth or protected endpoint |
| `App.MeIsUnguardedAsRegistered` | backend/src/index.ts:62-68 | as registered, every request matching `GET /api/auth/me` is served by the auth router's unguarded placeholder, whatever header it carries |
| `App.MeIsGuardedAsIntended` | backend/src/routes/auth.ts:59-61 | with the guarded route first, a request matching `GET /api/auth/me` is served exactly when `requireAuth` accepts, with its claims, and with no header it is `NoAuthHeader` |
| `App.MeAnswersHead` | backend/src/index.ts:68 | `HEAD /api/auth/me` reaches the route as `GET` does |
| `App.MeToleratesTrailingSlash` | backend/src/index.ts:68 | `/api/auth/me/` reaches the route |
| `App.MeIgnoresCase` | backend/src/index.ts:68 | `/API/auth/me` reaches the route |
| `App.OtherRoutesUnchanged` | backend/src/index.ts:62-68 | the reordering changes the dispatch of no request that does not match `/api/auth/me` |
| `QualityClass.Rank` | frontend/src/utils/quality.ts:2-6 | codes 1, 2, 3 and 4 are exactly excellent, good, sufficient and poor, and 5, ranked last, exactly unknown |
| `QualityClass.NumberOrText` | frontend/src/pages/BeachDetailPage.tsx:96 | `classification ?? text` is the number when there is one, else the text |
| `QualityClass.RatedAsUnique` | frontend/src/pages/FavoritesPage.tsx:26-30 | a number names exactly one class |
| `QualityClass.BestMentionUnique` | frontend/src/pages/FavoritesPage.tsx:33-38 | a text has exactly one best-ranked mentioned class |
| `QualityClass.TablesAgreeWithoutEnglish` | frontend/src/components/BeachDetailPage.tsx:27-31 | on texts without `excellent` and `good`, the card's and the pages' keyword tables name the same classes |
| `QualityClass.MentionsPair` | frontend/src/pages/FavoritesPage.tsx:35-37 | a class with one or two keywords is mentioned exactly when one of them occurs |
| `FavoritesPage.ByCode` | frontend/src/pages/FavoritesPage.tsx:26-30 | a number 1-4 names its class and every other number, including fractions, NaN and infinities, is unknown |
| `FavoritesPage.ByText` | frontend/src/pages/FavoritesPage.tsx:32-38 | the class is the best-ranked one whose keyword occurs in the text, else unknown |
| `FavoritesPage.QualityClassOf` | frontend/src/pages/FavoritesPage.tsx:25-39 | numbers by their code, strings by their lower-cased keywords, a missing value unknown |
| `FavoritesPage.Enrich` | frontend/src/pages/FavoritesPage.tsx:100-108 | a favorite shows `locationName` else its beach id, `locationArea` else empty; the classification is the number when there is one, else the text, and absent exactly when both are; the text is the classification text else `Unknown` |
| `FavoritesPage.PillClass` | frontend/src/pages/FavoritesPage.tsx:243 | the pill is the class of the classification, falling back to the displayed text |
| `FavoritesPage.NotLoadedEntry` | frontend/src/pages/FavoritesPage.tsx:104-107 | before its details arrive a favorite shows its beach id, no municipality, `Unknown` and the unknown pill |
| `FavoritesPage.UnknownNamesNoClass` | frontend/src/pages/FavoritesPage.tsx:33-38 | the fallback text `unknown` holds no keyword |
| `FavoritesPage.InitialSortBy` | frontend/src/pages/FavoritesPage.tsx:52-56 | the stored sort mode, unchecked, else `name` |
| `FavoritesPage.InitialOrder` | frontend/src/pages/FavoritesPage.tsx:62-69 | a stored order that parses, else empty, including when parsing throws |
| `FavoritesPage.Reconcile` | frontend/src/pages/FavoritesPage.tsx:73-76 | the reconciled order holds every current favorite and nothing else |
| `FavoritesPage.ReconcileSplits` | frontend/src/pages/FavoritesPage.tsx:74-76 | the reconciled order is the stored order without gone ids, followed by the new favorites in list order |
| `FavoritesPage.ReconcileKeepsOrder` | frontend/src/pages/FavoritesPage.tsx:74-76 | stored ids keep their relative order, and the new ids follow in favorites order |
| `FavoritesPage.ReconcileIdempotent` | frontend/src/pages/FavoritesPage.tsx:77-79 | reconciling a reconciled order changes nothing |
| `FavoritesPage.ReconcileEffect` | frontend/src/pages/FavoritesPage.tsx:71-80 | no update while favorites load; otherwise an update exactly when reconciliation changes the order, to the reconciled order |
| `FavoritesPage.ReconcileSettles` | frontend/src/pages/FavoritesPage.tsx:77-79 | after one update the effect makes no further update |
| `FavoritesPage.ReconcileFixed` | frontend/src/pages/FavoritesPage.tsx:73-79 | an order holding exactly the current favorites is already reconciled |
| `FavoritesPage.DisplayIds` | frontend/src/pages/FavoritesPage.tsx:114-132 | nothing while loading; in custom mode with an order, the order restricted to current favorites, in order; otherwise the collator sort, by name for `name` and by municipality for any other mode |
| `FavoritesPage.CustomModeShowsReconciledOrder` | frontend/src/pages/FavoritesPage.tsx:118-120 | a reconciled order is displayed as it is |
| `FavoritesPage.EmptyCustomOrderSortsByMunicipality` | frontend/src/pages/FavoritesPage.tsx:118-129 | custom mode with an empty order falls back to the municipality sort |
| `FavoritesPage.DragEnd` | frontend/src/pages/FavoritesPage.tsx:139-149 | a drop moves anything exactly when the mode is custom, the target exists and differs, and both ids are in the order; it then moves from the dragged id's index to the target's |
| `FavoritesPage.AfterPersist` | frontend/src/pages/FavoritesPage.tsx:148-157 | a failed reorder request rolls back to the pre-drag order; a successful one keeps the new order |
| `FavoritesPage.RemoveFromOrder` | frontend/src/pages/FavoritesPage.tsx:258 | a removal drops exactly that id; every other id keeps its place and count |
| `FavoritesPage.RemoveMatchesReconcile` | frontend/src/pages/FavoritesPage.tsx:254-258 | after a removal the next reconciliation with the refetched favorites changes nothing |
| `DetailPage.QualityClassOf` | frontend/src/pages/BeachDetailPage.tsx:13-37 | the `switch` names classes 1-4 and unknown for any other number; strings by lower-cased keywords; a missing value unknown |
| `DetailPage.AgreesWithFavoritesPage` | frontend/src/pages/BeachDetailPage.tsx:13-37 | the detail page's `switch` and the favorites page's list lookup pick the same class for every input |
| `DetailPage.ExistingFavorite` | frontend/src/pages/BeachDetailPage.tsx:57 | absent exactly when no listed favorite has this beach id, else a listed favorite with it |
| `DetailPage.IsFavIff` | frontend/src/pages/BeachDetailPage.tsx:57-58 | `isFav` holds exactly when some listed favorite has this beach id |
| `DetailPage.HandleFavoriteClick` | frontend/src/pages/BeachDetailPage.tsx:102-113 | without a token the click goes to login and nothing else; with one, it removes the existing favorite of this beach if there is one, else adds |
| `DetailPage.ClickToggles` | frontend/src/pages/BeachDetailPage.tsx:109-113 | a second click undoes the first: after an add the refreshed list holds the beach and the click removes; after a remove the list filtered of that beach makes the click add |
| `DetailPage.HeadingOf` | frontend/src/pages/BeachDetailPage.tsx:92-100 | title else `Beach`, municipality else empty, quality text else `Okänd`, pill from the number else the text, and the sample label `—` when the date is missing or empty |
| `DetailPage.PillMatchesFavoriteCard` | frontend/src/pages/BeachDetailPage.tsx:96-98 | once details are loaded, a favorite's card on the favorites page and the beach's own page show the same pill |
| `DetailPage.OkandNamesNoClass` | frontend/src/pages/BeachDetailPage.tsx:96 | the detail page's fallback text `Okänd` names no class |
| `DetailCard.QualityClassOf` | frontend/src/components/BeachDetailPage.tsx:9-33 | numbers by code; other values lower-cased, with English `excellent` and `good` also recognised |
| `DetailCard.ByText` | frontend/src/components/BeachDetailPage.tsx:26-32 | the best-ranked class with a Swedish or English keyword in the text, else unknown |
| `DetailCard.AgreesWithPagesWithoutEnglish` | frontend/src/components/BeachDetailPage.tsx:26-31 | on numbers, a missing value and texts without the English keywords the card and the pages agree |
| `DetailCard.EnglishLabelDiverges` | frontend/src/components/BeachDetailPage.tsx:28 | the label `Good quality` is good on the card and unknown on the pages |
| `DetailCard.Name` | frontend/src/components/BeachDetailPage.tsx:79 | the name is `locationName`, else the NUTS code |
| `DetailCard.Area` | frontend/src/components/BeachDetailPage.tsx:80 | the area is `locationArea`, else `—` |
| `DetailCard.Pill` | frontend/src/components/BeachDetailPage.tsx:81-104 | the pill is the class of the number, else of the text or the empty text |
| `DetailCard.PillText` | frontend/src/components/BeachDetailPage.tsx:106 | the pill text is the non-empty classification text, else `Okänd kvalitet` |
| `DetailCard.LatestRating` | frontend/src/components/BeachDetailPage.tsx:86-89 | the latest rating is the first entry of a non-empty rating array, else absent |
| `DetailCard.History` | frontend/src/components/BeachDetailPage.tsx:160-164 | at most five history rows: the first entries of the rating array, unchanged |
| `DetailCard.LatestHeadsHistory` | frontend/src/components/BeachDetailPage.tsx:86-164 | there is a latest rating exactly when the history is non-empty, and it heads the history |
| `BeachesList.Items` | frontend/src/components/BeachesList.tsx:30-43 | nothing before the data; without a position the data as it is; with one, every beach exactly as often as in the data, each with its own distance, nearest first when every distance is finite |
| `BeachesList.EveryBeachListed` | frontend/src/components/BeachesList.tsx:30-43 | every beach of the data is among the items, with its distance once a position is known |
| `BeachesList.SearchFilter` | frontend/src/components/BeachesList.tsx:47-54 | an empty query keeps every item; otherwise an item stays exactly when its lower-cased name and municipality contain the query |
| `BeachesList.SearchIsFilter` | frontend/src/components/BeachesList.tsx:48-53 | the empty-query shortcut is the same as filtering with the empty query |
| `BeachesList.SearchKeepsOrder` | frontend/src/components/BeachesList.tsx:50 | the search result is a subsequence of the items |
| `BeachesList.SearchIgnoresCaseAndPadding` | frontend/src/components/BeachesList.tsx:47 | lower-casing or trimming the search text changes no result |
| `BeachesList.RadiusFilter` | frontend/src/components/BeachesList.tsx:57-62 | without a position nothing is dropped; with one, an item stays exactly when it has no distance or one of at most 10 km |
| `BeachesList.FiltersCommute` | frontend/src/components/BeachesList.tsx:48-62 | search and radius filter may be applied in either order |
| `BeachesList.RadiusHidesOnlyFarBeaches` | frontend/src/components/BeachesList.tsx:58-61 | with a position a listed beach is hidden exactly when it is out of radius |
| `BeachesList.Cards` | frontend/src/components/BeachesList.tsx:160 | at most 50 cards, the first filtered items unchanged |
| `BeachesList.ViewOf` | frontend/src/components/BeachesList.tsx:69-160 | loading first, then the error with its message or `Please try again.`, then no beaches exactly when the data is empty, then the listing of all filtered points and the first cards |
| `BeachesList.ListingNeverEmpty` | frontend/src/components/BeachesList.tsx:100-111 | a listing always has a card, and no-matches shows exactly when beaches exist but none passes the filters |
| `BeachTypes.Coordinate` | frontend/src/types/beaches.ts:35 | destructuring `coordinates ?? []` gives an entry exactly when the array is long enough |
| `BeachTypes.FeatureToSummary` | frontend/src/types/beaches.ts:34-44 | a summary exactly when both coordinates are numbers; it carries NUTSKOD, NAMN and KMN_NAMN, with the first coordinate as `lng` and the second as `lat` |
| `BeachTypes.SummaryRoundTrip` | frontend/src/types/beaches.ts:35-42 | a summary read back from its own feature is the same summary: no swapped coordinates |
| `BeachTypes.FeatureRoundTrip` | frontend/src/types/beaches.ts:35-42 | a converted feature's properties and first two coordinates are recovered from its summary |
| `BeachTypes.IncompleteFeatureDropped` | frontend/src/types/beaches.ts:35-36 | a missing point or a missing or non-numeric coordinate gives null |
| `BeachesApi.RequestUrl` | frontend/src/api/beaches.ts:11 | the URL is the base (`undefined` when unset) followed by the path |
| `BeachesApi.BeachPath` | frontend/src/api/beaches.ts:26 | a beach's detail path is `/beaches/` followed by its id |
| `BeachesApi.BeachUrlInjective` | frontend/src/api/beaches.ts:25-27 | distinct ids are requested at distinct URLs |
| `BeachesApi.ApiGet` | frontend/src/api/beaches.ts:9-14 | a non-2xx status throws `API error <status>`; otherwise the body is returned |
| `BeachesApi.ApiErrorNamesStatus` | frontend/src/api/beaches.ts:12 | two failures throw the same message only for the same status |
| `BeachesApi.Summaries` | frontend/src/api/beaches.ts:19-21 | there are never more summaries than features |
| `BeachesApi.SummariesMembers` | frontend/src/api/beaches.ts:19-21 | the summaries are exactly the conversions of the convertible features |
| `BeachesApi.SummariesConcat` | frontend/src/api/beaches.ts:19-21 | conversion works feature by feature, keeping the features' order |
| `BeachesApi.SummariesOfFeatures` | frontend/src/api/beaches.ts:19-21 | the features built from a list of summaries convert back to that list |
| `BeachesApi.PointlessFeaturesDropped` | frontend/src/api/beaches.ts:19-21 | features without a point yield no beaches |
| `BeachesApi.FetchBeaches` | frontend/src/api/beaches.ts:17-22 | a failed status throws; otherwise the converted features with nulls dropped |
| `Quality.TableCode` | frontend/src/utils/quality.ts:12-18 | the table has an entry exactly for the numbers 1, 2, 3 and 4 |
| `Quality.GetQualityLabel` | frontend/src/utils/quality.ts:8-21 | never empty; codes 1-4 give their label in the language, anything else `Okänd` or `Unknown` |
| `Quality.GetQualityLabelDefault` | frontend/src/utils/quality.ts:10 | without a language the Swedish label, and `Okänd` off the table |
| `Quality.CodeOfLabel` | frontend/src/utils/quality.ts:12-17 | the inverse of the table: the code whose label it is, or none |
| `Quality.LabelRoundTrip` | frontend/src/utils/quality.ts:12-20 | a label names its code back, and the fallback names none |
| `Quality.LabelsDistinct` | frontend/src/utils/quality.ts:12-17 | the four labels of a language are distinct |
| `Algal.Lookup` | frontend/src/utils/algal.ts:6-22 | corrected lookup: a key exactly when the text is non-empty and its normal form is a table key with a non-empty value, and then that value |
| `Algal.GetAlgalStatusKey` | frontend/src/utils/algal.ts:6-22 | null for a missing or empty text; a key exactly when the normalised text is in the algal table, and then the table's value for it |
| `Algal.GetEuMotiveKey` | frontend/src/utils/algal.ts:29-43 | the same over the four-entry EU-motive table, answering that table's value |
| `Algal.TablesWellFormed` | frontend/src/utils/algal.ts:12-19 | neither table has an empty key or an empty value |
| `Algal.LookupAsWritten` | frontend/src/utils/algal.ts:21 | as written: an inherited `Object.prototype` member exactly when the normal form is an inherited name and no key, else what the corrected lookup answers |
| `Algal.AsWrittenAgreesOffPrototype` | frontend/src/utils/algal.ts:21 | away from the inherited names the as-written and corrected lookups agree |
| `Algal.InheritedNameLeaks` | frontend/src/utils/algal.ts:21 | a normal inherited name that is no key leaks through as written and is null when corrected |
| `Algal.ConstructorLeaksStatus` | frontend/src/utils/algal.ts:21 | the status text `constructor` yields the inherited constructor as written and null when corrected |
| `Algal.ConstructorLeaksMotive` | frontend/src/utils/algal.ts:42 | the EU motive `constructor` does the same |
| `Algal.NormalFixed` | frontend/src/utils/algal.ts:9 | a text with no upper-case letter and no surrounding whitespace is already normal |
| `Algal.CaseInsensitive` | frontend/src/utils/algal.ts:9 | a text and its lower-cased form get the same key |
| `Algal.WhitespaceInsensitive` | frontend/src/utils/algal.ts:9 | a text and its trimmed form get the same key |
| `Algal.OwnKeyFound` | frontend/src/utils/algal.ts:12-21 | every normal table key is found under itself |
| `Algal.MattligAlias` | frontend/src/utils/algal.ts:16-17 | the garbled and the plain spelling of `måttlig blomning` give the same key |
| `ApiClient.Url` | frontend/src/api/client.ts:14 | a path starting with `http` is used as it is; otherwise the base (`undefined` when unset) is prefixed; the URL always ends with the path |
| `ApiClient.UrlIdempotent` | frontend/src/api/client.ts:14 | against an absolute base every URL is absolute and feeding it back changes nothing |
| `ApiClient.Headers` | frontend/src/api/client.ts:16-23 | the keys are the caller's, `Content-Type` and, with a truthy token, `Authorization`; the content type defaults to JSON; caller values pass through; `Authorization` is `Bearer <token>` and wins |
| `ApiClient.ClientHeaderPassesGuard` | frontend/src/api/client.ts:21-23 | the header the client sends is judged by the backend's guard on the token alone |
| `ApiClient.NoTokenNoAuthorization` | frontend/src/api/client.ts:16-23 | without a token, or with an empty one, no `Authorization` is added |
| `ApiClient.ErrorCause` | frontend/src/api/client.ts:35 | the error's message source is a truthy `body.error`, else the status text |
| `ApiClient.HandleResponse` | frontend/src/api/client.ts:28-44 | an error exactly when the status is not 2xx, carrying the status and body; `undefined` exactly for 204; otherwise the parsed body, or a rejection when it does not parse |
| `ApiClient.BackendErrorCodeReachesCaller` | frontend/src/api/client.ts:28-38 | the backend's `{ error: code }` becomes the error's message; without a body the status text does |
| `AuthStore.Init` | frontend/src/store/auth.ts:13-19 | the first token is the stored `bada_token` when there is a window and a stored value, else null |
| `AuthStore.SetToken` | frontend/src/store/auth.ts:20-27 | the token becomes `t`; a truthy `t` is stored, a falsy one removes the key; no other key changes |
| `AuthStore.ClearToken` | frontend/src/store/auth.ts:28-31 | the key is removed and the token becomes null; no other key changes |
| `AuthStore.UpdatesKeepSynced` | frontend/src/store/auth.ts:20-35 | both updates keep memory and storage in step; signed in after `setToken(t)` exactly when `t` is truthy, and never after `clearToken` |
| `AuthStore.ReloadRestoresSession` | frontend/src/store/auth.ts:13-31 | a reload after `setToken` restores the same authentication, and the same token when truthy; after `clearToken` it is signed out |
| `AuthStore.NoWindowStartsSignedOut` | frontend/src/store/auth.ts:13-16 | without a window nothing is hydrated |
| `UseBeachDetails.LastFill` | frontend/src/api/useBeachDetails.ts:15-19 | the last index below `n` whose id is the given one and whose query has data, and none after it |
| `UseBeachDetails.BeachDetails` | frontend/src/api/useBeachDetails.ts:5-26 | no ids gives an empty map and no flags; an id is in the map exactly when some index with that non-empty id has data, mapping to the last such data; `isLoading` and `isError` hold exactly when some query is loading or errored |
| `UseBeachDetails.FilledFromRequested` | frontend/src/api/useBeachDetails.ts:16-18 | every id in the map is a requested non-empty id whose query has data |
| `UseBeachDetails.LaterDuplicateWins` | frontend/src/api/useBeachDetails.ts:18 | of two filled queries for one id the later one is kept |

## Left out

- Network, database and process wiring. The model covers no `fetch`, Mongoose, `connectDB`, server start-up, health or db-check route, or debug route. Upstream replies and database contents are inputs; the collections are modelled stores.
- Foreign libraries are parameters: jwt `sign`/`verify`, bcrypt `hash`/`compare`, zod's email check, `ObjectId` cast and `isValid`, `encodeURIComponent`, the `Date` formatting of `toISOString`, `Intl.Collator` sorting, dnd-kit's `arrayMove`, `formatDate` and the distance computation.
- Concurrency is out: every request runs alone. The model has no `Promise.all` interleaving, cache stampede, register check-then-create race, or react-query scheduling.
- Strings are sequences of Unicode scalar values, not UTF-16 code units. String order and zod's length limits differ from the code's only for characters outside the Basic Multilingual Plane.
- `toLowerCase` is modelled for ASCII and Latin-1 letters only.
- Numbers are exact reals. The floating-point distance is a parameter, and so is the sort by distance.
- `BeachesList.Items`: the sort is a parameter that must rearrange its input and, when every distance is finite, put the nearest beach first, as `Array.prototype.sort` does with a consistent comparator. With a NaN or infinite distance the comparator is inconsistent, and the model states only that the items are rearranged. The order of beaches at equal distance is not stated.
- BeachesList.tsx reads `b.lon` of summaries that carry `lng`. The distance function is a parameter, so the model says nothing about what it computes from. frontend/src/utils/geo.ts is not part of this model.
- `FavoritesRoute.Add`: the cast error in the validation message is modelled without the ` because of "…"` suffix that recent Mongoose versions append to name the BSON error class. That suffix depends on the Mongoose and bson versions, which no file modelled here fixes.
- `AuthRoute.Login`: user ids come from a counter, so the model can hand out an id of more than twelve bytes, which no `ObjectId` has. `String(id)` then shows the low twelve bytes, and the round trip back to the id is stated only for ids below 2^96.
- The favorites routes keep the `ObjectId` cast a parameter. On 24-character strings it is `ObjectId.Parse`. A 12-character string, which the cast reads as twelve raw bytes, is not modelled.
- The `details` of a 400 `InvalidBody` reply is zod's flattened error report, a parameter of `FavoritesRoute.Add`, `AuthRoute.Register` and `AuthRoute.Login`. Its field messages come from zod and are not modelled. The compiled favorites route reports the tree form of the same error instead (backend/dist/routes/favorites.js:36). Otherwise the compiled add route is the source's, so it is `FavoritesRoute.Add` with the tree report passed in.
- `FavoritesPage.InitialOrder`: a stored order that is valid JSON but not an array of strings is not modelled. The source casts the parsed value without checking it.
- `FavoriteModel.Create`: a missing owner is not modelled, because the verified claims always carry a string subject. A token without `sub` would fail with the `required` validator's message instead.
- `FavoritesRoute.List`: it states order and contents, not which of two documents equal on both sort keys comes first, because MongoDB promises no order for ties.
- `ApiClient.HandleResponse`: the error keeps the message source as a JSON value. It does not model `new Error(...)` converting a non-string `body.error` to a string.
- `ApiClient.Headers`: header names are compared exactly, not case-insensitively as `fetch` does. The `fetch` options other than headers are not modelled.
- `Hav.HavGet`: the `User-Agent` and `Accept` request headers are not modelled. Neither are the start-up checks that throw when `HAV_BASE_URL` or `HAV_USER_AGENT` is unset.
- `BeachesApi.Summaries`: its own contract only bounds the length. Membership, order and the round trip are the lemmas listed with it.
- The favorites page's sort-mode and order writes to local storage are left out. They are plain writes of the state the model computes.
- The JSON text comparison of orders is modelled as equality of the string arrays.
- The favorites page's remove mutation and the favorites queries are left out. So are query invalidation, refetching, `staleTime` and the `enabled` flag of the detail queries.
- A server-side reorder of favorites is left out: no router registers the `PATCH /favorites/reorder` route that backend/src/swagger.ts:459-500 documents, and no file defines the hook the frontend calls. The request's success is a parameter of `FavoritesPage.AfterPersist`.
- `updatedAt` is set on create only: no route updates a favorite.
- The compiled copies of the cache, the middleware and the models behave as their sources and are modelled once. The compiled upstream client, beaches routes and favorites routes differ and are modelled alongside their sources.
- The compiled backend/dist/index.js and backend/dist/routes/auth.js are not part of this model. The compiled entry point mounts only the health router, reads only `ALLOWED_ORIGIN` and answers every error without a message. The compiled auth router has no `/me` placeholder, connects to the database in each handler and answers its own errors with 500 `InternalServerError`.
- `Hav.LatestTakenAt`: the v2 body is taken to be well-typed. A `results` that is not an array, an element that is null, or a non-string `takenAt` would throw or compare differently in the code, and the model does not cover that.
- Express 5 is assumed: an async route handler that rejects is taken to reach the error handler, which Express 5 does and Express 4 does not. None of the files modelled here fixes the Express version. Under Express 4 the handlers at backend/src/routes/favorites.ts:28, :41 and :72, including the rethrow at :63, and those at backend/src/routes/auth.ts:17 and :36 would leave the request unanswered on an error, so the 500 replies the model gives for them would not happen. backend/src/routes/beaches.ts:17-18 and :42-43 pass their errors to `next` and are answered under both versions. backend/server.js:46 registers the path `*`, which Express 5's path syntax rejects; that file is not part of this model.
- `App.Dispatch`: paths are matched literally apart from letter case and one trailing slash. Percent-decoding and repeated slashes are not modelled.
- React rendering, styling and i18n are left out. So is the map, with the exact markup of each list state.

## Findings

| source | as written | input that shows it | evidently intended | confidence | as-written member | corrected member |
|---|---|---|---|---|---|---|
| frontend/src/utils/algal.ts:21 | `mapping[normalized] \|\| null` on an object literal also reads members inherited from `Object.prototype` | the algal status or EU motive text `constructor` (or `__proto__`) yields the `Object` constructor function instead of a key or null | a translation key for a table entry and null for every other text | medium, not executed | `Algal.ConstructorLeaksStatus` | `Algal.GetAlgalStatusKey` |
| backend/src/index.ts:62-68 | in the TypeScript source only, the auth router, whose `GET /me` is an unguarded placeholder, is mounted before the guarded `GET /api/auth/me`, so the guarded handler is unreachable | `GET /api/auth/me` with no `Authorization` header is answered by the placeholder instead of 401 `NoAuthHeader` | the route behind `requireAuth`, as the placeholder's comment at backend/src/routes/auth.ts:61 says | high, not executed | `App.MeIsUnguardedAsRegistered` | `App.MeIsGuardedAsIntended` |

The as-written algal lookup is `Algal.LookupAsWritten`. `Algal.ConstructorLeaksMotive` shows the same discrepancy for the EU motive. `Algal.AsWrittenAgreesOffPrototype` shows that the two lookups differ only there. The rest of the model uses the corrected `Algal.Lookup`, `Algal.GetAlgalStatusKey` and `Algal.GetEuMotiveKey`. The registered route table is `App.AuthRoutesAsRegistered` and the intended one is `App.AuthRoutesIntended`. `App.OtherRoutesUnchanged` shows that the reordering affects no other request.

=== FILE: algal.dfy ===
/** The translation keys of the algal-bloom status and the EU motive of a
    beach (frontend/src/utils/algal.ts). Both look the lower-cased, trimmed
    text up in a fixed table and answer `null` for anything else.

    The table is a plain object literal, so `mapping[normalized]` also
    reads the members every object inherits from `Object.prototype`. Two
    of their names are already lower case and survive the normalisation:
    `constructor` and `__proto__`. For those texts the lookup answers a
    function or an object instead of a key or `null`. `LookupAsWritten`
    models that lookup; `Lookup`, used everywhere else, reads the table's
    own keys only, as the `string | null` result type intends. */
module Algal {
  import opened Js
  import opened Strings

  /** The algal-bloom table; `måttlig` is listed both in a garbled
      spelling and as plain `mattlig`. */
  const AlgalKeys: map<string, string> := map[
    "ingen blomning" := "algalStatus.ingenBlomning",
    "blomning" := "algalStatus.blomning",
    "kraftig blomning" := "algalStatus.kraftigBlomning",
    "m\U{221A}\U{2022}ttlig blomning" := "algalStatus.mattligBlomning",
    "mattlig blomning" := "algalStatus.mattligBlomning",
    "lindrig blomning" := "algalStatus.lindrigBlomning"]

  /** The EU-motive table. */
  const EuMotiveKeys: map<string, string> := map[
    "stor badbelastning" := "euMotive.storBadbelastning",
    "badbelastning" := "euMotive.badbelastning",
    "tradition" := "euMotive.tradition",
    "turistattraktion" := "euMotive.turistattraktion"]

  /** The names an object literal inherits from `Object.prototype`. */
  const InheritedNames: set<string> := {
    "constructor", "__proto__", "hasOwnProperty", "isPrototypeOf",
    "propertyIsEnumerable", "toLocaleString", "toString", "valueOf",
    "__defineGetter__", "__defineSetter__", "__lookupGetter__", "__lookupSetter__"}

  /** `text.toLowerCase().trim()`. */
  function Normalize(text: string): string {
    Trim(ToLower(text))
  }

  /** A table that lookups can use: no empty key (the empty text is
      turned away before the lookup) and no empty value (`|| null` would
      turn it into `null`). */
  predicate WellFormed(table: map<string, string>) {
    "" !in table && forall k :: k in table ==> table[k] != ""
  }

  /** The corrected lookup: `null` for a missing or empty text, else the
      own entry of the normalised text when there is a non-empty one. */
  function Lookup(table: map<string, string>, text: Option<string>): (r: Option<string>)
    ensures r.Some? <==> StrTruthy(text) && Normalize(text.value) in table && table[Normalize(text.value)] != ""
    ensures r.Some? ==> r.value == table[Normalize(text.value)] && r.value in table.Values
  {
    if !StrTruthy(text) then None
    else
      var n := Normalize(text.value);
      if n in table && table[n] != "" then Some(table[n]) else None
  }

  /** `getAlgalStatusKey`. */
  function GetAlgalStatusKey(text: Option<string>): (r: Option<string>)
    ensures !StrTruthy(text) ==> r.None?
    ensures r.Some? <==> StrTruthy(text) && Normalize(text.value) in AlgalKeys
    ensures r.Some? ==> r.value == AlgalKeys[Normalize(text.value)]
  {
    TablesWellFormed();
    Lookup(AlgalKeys, text)
  }

  /** `getEuMotiveKey`. */
  function GetEuMotiveKey(text: Option<string>): (r: Option<string>)
    ensures !StrTruthy(text) ==> r.None?
    ensures r.Some? <==> StrTruthy(text) && Normalize(text.value) in EuMotiveKeys
    ensures r.Some? ==> r.value == EuMotiveKeys[Normalize(text.value)]
  {
    TablesWellFormed();
    Lookup(EuMotiveKeys, text)
  }

  /** What `mapping[normalized] || null` yields as written: a table value,
      or an inherited member (every one of them is a truthy function or
      object). */
  datatype Found = Key(key: string) | InheritedMember(name: string)

  function LookupAsWritten(table: map<string, string>, text: Option<string>): (r: Option<Found>)
    requires WellFormed(table)
    ensures r.Some? && r.value.InheritedMember? <==>
              StrTruthy(text) && Normalize(text.value) !in table && Normalize(text.value) in InheritedNames
    ensures r.Some? && r.value.Key? <==> Lookup(table, text).Some?
    ensures r.Some? && r.value.Key? ==> r.value.key == Lookup(table, text).value
  {
    if !StrTruthy(text) then None
    else
      var n := Normalize(text.value);
      if n in table then Some(Key(table[n]))
      else if n in InheritedNames then Some(InheritedMember(n))
      else None
  }

  /** The two lookups differ only on texts that normalise to an inherited
      name; everywhere else the as-written lookup is the corrected one. */
  lemma AsWrittenAgreesOffPrototype(table: map<string, string>, text: Option<string>)
    requires WellFormed(table)
    requires StrTruthy(text) ==> Normalize(text.value) !in InheritedNames
    ensures LookupAsWritten(table, text) ==
              (match Lookup(table, text) case None => None case Some(k) => Some(Key(k)))
  {
  }

  /** The counterexample: the status text `constructor` yields the inherited
      `Object` constructor, not a key and not `null`, while the corrected
      lookup answers `null`. */
  lemma ConstructorLeaksStatus()
    ensures LookupAsWritten(AlgalKeys, Some("constructor")) == Some(InheritedMember("constructor"))
    ensures GetAlgalStatusKey(Some("constructor")) == None
  {
    ConstructorIsNormal("constructor");
    ConstructorIsNoKey("constructor");
    TablesWellFormed();
    InheritedNameLeaks(AlgalKeys, "constructor");
  }

  /** The same text as an EU motive. */
  lemma ConstructorLeaksMotive()
    ensures LookupAsWritten(EuMotiveKeys, Some("constructor")) == Some(InheritedMember("constructor"))
    ensures GetEuMotiveKey(Some("constructor")) == None
  {
    ConstructorIsNormal("constructor");
    ConstructorIsNoKey("constructor");
    TablesWellFormed();
    InheritedNameLeaks(EuMotiveKeys, "constructor");
  }

  /** Any normal inherited name that is not a key leaks through the
      as-written lookup and is `null` in the corrected one. */
  lemma InheritedNameLeaks(table: map<string, string>, t: string)
    requires WellFormed(table) && t != [] && Normalize(t) == t
    requires t !in table && t in InheritedNames
    ensures LookupAsWritten(table, Some(t)) == Some(InheritedMember(t))
    ensures Lookup(table, Some(t)) == None
  {
  }

  lemma ConstructorIsNormal(t: string)
    requires t == "constructor"
    ensures Normalize(t) == t
  {
    NormalFixed(t);
  }

  /** `constructor` is inherited and is no key of either table: its eleven
      letters match no key's length. */
  lemma ConstructorIsNoKey(t: string)
    requires t == "constructor"
    ensures t in InheritedNames && t !in AlgalKeys && t !in EuMotiveKeys
  {
    assert |t| == 11;
    assert forall k :: k in AlgalKeys ==> |k| != 11;
    assert forall k :: k in EuMotiveKeys ==> |k| != 11;
  }

  lemma TablesWellFormed()
    ensures WellFormed(AlgalKeys) && WellFormed(EuMotiveKeys)
  {
  }

  /** A text with no upper-case letter and no surrounding whitespace is
      already normal. */
  lemma NormalFixed(s: string)
    requires forall i :: 0 <= i < |s| ==> !('A' <= s[i] <= 'Z') && !('À' <= s[i] <= 'Þ')
    requires |s| > 0 ==> !IsWhitespace(s[0]) && !IsWhitespace(s[|s| - 1])
    ensures Normalize(s) == s
  {
    assert ToLower(s) == s;
    TrimNoop(s);
  }

  /** Case does not matter: a text and its lower-cased form get the same
      key. */
  lemma CaseInsensitive(table: map<string, string>, s: string)
    ensures Lookup(table, Some(ToLower(s))) == Lookup(table, Some(s))
  {
    ToLowerIdempotent(s);
  }

  /** Surrounding whitespace does not matter: a text and its trimmed form
      get the same key. */
  lemma WhitespaceInsensitive(table: map<string, string>, s: string)
    requires WellFormed(table)
    ensures Lookup(table, Some(Trim(s))) == Lookup(table, Some(s))
  {
    TrimmedNormal(s);
    EmptyNormal();
    if Trim(s) != [] {
      TrimmedNonEmpty(s);
    }
    SameNormal(table, s, Trim(s));
  }

  lemma TrimmedNormal(s: string)
    ensures Normalize(Trim(s)) == Normalize(s)
  {
    LowerTrimCommute(s);
    TrimIdempotent(ToLower(s));
  }

  lemma EmptyNormal()
    ensures Normalize([]) == []
  {
  }

  lemma TrimmedNonEmpty(s: string)
    requires Trim(s) != []
    ensures s != []
  {
  }

  /** Two non-empty texts with one normal form get the same key, and so
      does the empty text and one that normalises to it. */
  lemma SameNormal(table: map<string, string>, s: string, t: string)
    requires WellFormed(table)
    requires Normalize(t) == Normalize(s)
    requires t == [] ==> Normalize(s) == []
    requires t != [] ==> s != []
    ensures Lookup(table, Some(t)) == Lookup(table, Some(s))
  {
  }

  /** A key that is its own normal form is found under itself. */
  lemma OwnKeyFound(table: map<string, string>, k: string)
    requires WellFormed(table) && k in table && k != [] && Normalize(k) == k
    ensures Lookup(table, Some(k)) == Some(table[k])
  {
  }

  /** Both spellings of `måttlig` the upstream sends give one key. */
  lemma MattligAlias()
    ensures GetAlgalStatusKey(Some("m\U{221A}\U{2022}ttlig blomning")) == Some("algalStatus.mattligBlomning")
    ensures GetAlgalStatusKey(Some("mattlig blomning")) == Some("algalStatus.mattligBlomning")
  {
    GarbledNormal("m\U{221A}\U{2022}ttlig blomning");
    GarbledEntry();
    PlainNormal("mattlig blomning");
    PlainEntry();
    TablesWellFormed();
    OwnKeyFound(AlgalKeys, "m\U{221A}\U{2022}ttlig blomning");
    OwnKeyFound(AlgalKeys, "mattlig blomning");
  }

  lemma GarbledNormal(s: string)
    requires s == "m\U{221A}\U{2022}ttlig blomning"
    ensures Normalize(s) == s && s != []
  {
    NormalFixed(s);
  }

  lemma GarbledEntry()
    ensures "m\U{221A}\U{2022}ttlig blomning" in AlgalKeys
    ensures AlgalKeys["m\U{221A}\U{2022}ttlig blomning"] == "algalStatus.mattligBlomning"
  {
  }

  lemma PlainNormal(s: string)
    requires s == "mattlig blomning"
    ensures Normalize(s) == s && s != []
  {
    NormalFixed(s);
  }

  lemma PlainEntry()
    ensures "mattlig blomning" in AlgalKeys
    ensures AlgalKeys["mattlig blomning"] == "algalStatus.mattligBlomning"
  {
  }
}

=== FILE: api_client.dfy ===
/** The authenticated fetch helper of the frontend
    (frontend/src/api/client.ts): how it builds the URL and the headers
    from the stored token, and how it turns a response into a value or an
    error. The network call itself is left out; the response is an input. */
module ApiClient {
  import opened Js
  import opened Strings
  import AuthMiddleware

  /** `` `${API_BASE}${path}` `` unless the path already starts with
      `http`. An unset base renders as `undefined`. */
  function Url(apiBase: Option<string>, path: string): (url: string)
    ensures StartsWith(path, "http") ==> url == path
    ensures !StartsWith(path, "http") ==> url == apiBase.GetOr("undefined") + path
    ensures |url| >= |path| && url[|url| - |path|..] == path
  {
    if StartsWith(path, "http") then path else apiBase.GetOr("undefined") + path
  }

  /** Against an absolute base every URL is absolute, so feeding a URL
      back in leaves it alone. */
  lemma UrlIdempotent(apiBase: string, path: string)
    requires StartsWith(apiBase, "http")
    ensures StartsWith(Url(Some(apiBase), path), "http")
    ensures Url(Some(apiBase), Url(Some(apiBase), path)) == Url(Some(apiBase), path)
  {
    if !StartsWith(path, "http") {
      assert (apiBase + path)[..4] == apiBase[..4];
    }
  }

  const ContentType: string := "Content-Type"
  const Authorization: string := "Authorization"
  const Json: string := "application/json"

  /** The header object: `Content-Type: application/json`, then the
      caller's headers (which may override it), then
      `Authorization: Bearer <token>` when there is a token. */
  function Headers(caller: Option<map<string, string>>, token: Option<string>): (h: map<string, string>)
    ensures h.Keys == caller.GetOr(map[]).Keys + {ContentType} + (if StrTruthy(token) then {Authorization} else {})
    ensures ContentType !in caller.GetOr(map[]) ==> h[ContentType] == Json
    ensures StrTruthy(token) ==> h[Authorization] == "Bearer " + token.value
    ensures forall k :: k in caller.GetOr(map[]) && (k == Authorization ==> !StrTruthy(token)) ==>
              h[k] == caller.GetOr(map[])[k]
  {
    var base := map[ContentType := Json] + caller.GetOr(map[]);
    if StrTruthy(token) then base[Authorization := "Bearer " + token.value] else base
  }

  /** The header the client sends is the one the backend's guard accepts:
      for any token without spaces, the request is judged by that token
      alone, whatever the caller's own Authorization header said. */
  lemma ClientHeaderPassesGuard(caller: Option<map<string, string>>, token: string,
                                verify: string -> Option<AuthMiddleware.Claims>)
    requires token != "" && ' ' !in token
    ensures Authorization in Headers(caller, Some(token))
    ensures AuthMiddleware.RequireAuth(Some(Headers(caller, Some(token))[Authorization]), verify) ==
              (match verify(token)
               case None => AuthMiddleware.Deny("InvalidToken")
               case Some(c) => AuthMiddleware.Proceed(c))
  {
    var header := Headers(caller, Some(token))[Authorization];
    assert Join(["Bearer", token], ' ') == "Bearer " + token by {
      assert Join(["Bearer", token], ' ') == "Bearer" + [' '] + Join([token], ' ');
    }
    assert ["Bearer", token] + [] == ["Bearer", token];
    AuthMiddleware.BearerHeaderJudgedByToken(token, [], verify);
  }

  /** Without a token no Authorization header is added: the caller's
      headers and the content type are all that is sent. */
  lemma NoTokenNoAuthorization(caller: map<string, string>)
    requires Authorization !in caller
    ensures Authorization !in Headers(Some(caller), None)
    ensures Authorization !in Headers(Some(caller), Some(""))
  {
  }

  /** A response as the client sees it. `body` is the parsed JSON body,
      `None` when the body does not parse. */
  datatype Response = Response(status: nat, statusText: string, body: Option<Json>)

  /** `res.ok`: a 2xx status. */
  predicate Ok(status: nat) {
    200 <= status <= 299
  }

  /** What `apiFetch` settles with: `undefined` for 204, the parsed body,
      the thrown `Error` (its message source, status and details), or the
      rejection of `res.json()` on a body that does not parse. */
  datatype Reply =
    | NoContent
    | Body(json: Json)
    | ApiError(cause: Json, status: nat, details: Json)
    | ParseFailure

  /** `body?.error || res.statusText`. */
  function ErrorCause(body: Option<Json>, statusText: string): (c: Json)
    ensures body.Some? && Property(body.value, "error").Some? && Truthy(Property(body.value, "error").value) ==>
              c == Property(body.value, "error").value
    ensures !(body.Some? && Property(body.value, "error").Some? && Truthy(Property(body.value, "error").value)) ==>
              c == JStr(statusText)
  {
    match body
    case Some(b) =>
      (match Property(b, "error")
       case Some(e) => if Truthy(e) then e else JStr(statusText)
       case None => JStr(statusText))
    case None => JStr(statusText)
  }

  /** `apiFetch` after the request: errors first, then 204, then the body. */
  function HandleResponse(res: Response): (r: Reply)
    ensures r.ApiError? <==> !Ok(res.status)
    ensures r.ApiError? ==> r.status == res.status && r.details == res.body.GetOr(JNull) &&
                            r.cause == ErrorCause(res.body, res.statusText)
    ensures r.NoContent? <==> res.status == 204
    ensures r.Body? <==> Ok(res.status) && res.status != 204 && res.body.Some?
    ensures r.Body? ==> r.json == res.body.value
    ensures r.ParseFailure? <==> Ok(res.status) && res.status != 204 && res.body.None?
  {
    if !Ok(res.status) then ApiError(ErrorCause(res.body, res.statusText), res.status, res.body.GetOr(JNull))
    else if res.status == 204 then NoContent
    else match res.body
      case Some(b) => Body(b)
      case None => ParseFailure
  }

  /** The backend's error bodies `{ "error": code }` reach the caller
      as the error's message; without such a body the status text is used. */
  lemma BackendErrorCodeReachesCaller(status: nat, statusText: string, code: string, others: map<string, Json>)
    requires !Ok(status) && code != ""
    ensures HandleResponse(Response(status, statusText, Some(JObj(others["error" := JStr(code)])))) ==
              ApiError(JStr(code), status, JObj(others["error" := JStr(code)]))
    ensures HandleResponse(Response(status, statusText, None)) == ApiError(JStr(statusText), status, JNull)
  {
  }
}

=== FILE: app.dfy ===
/** The application's own request policy (backend/src/index.ts): the CORS
    origin allowlist and decision, the catch-all 404, the error handler's
    response, and the order in which the authentication routes are
    registered. Environment variables are parameters (`None` when unset). */
module App {
  import opened Js
  import opened Strings
  import AuthMiddleware

  /** `.map(s => s.trim())`. */
  function TrimAll(parts: seq<string>): (ts: seq<string>)
    ensures |ts| == |parts|
    ensures forall i :: 0 <= i < |parts| ==> ts[i] == Trim(parts[i])
  {
    seq(|parts|, i requires 0 <= i < |parts| => Trim(parts[i]))
  }

  /** `.filter(Boolean)` on strings: drop the empty ones, keep the order. */
  function NonEmpty(ts: seq<string>): (r: seq<string>)
    ensures |r| <= |ts|
    ensures forall o :: o in r <==> o in ts && o != ""
    decreases |ts|
  {
    if |ts| == 0 then []
    else if ts[0] != "" then [ts[0]] + NonEmpty(ts[1..])
    else NonEmpty(ts[1..])
  }

  /** The allowlist: the non-empty trims of the comma-separated pieces of
      the setting `CORS_ORIGIN || ALLOWED_ORIGIN || ""`; no entry contains
      a comma. */
  function AllowedOrigins(corsOrigin: Option<string>, allowedOrigin: Option<string>): (r: seq<string>)
    ensures var parts := Split(Setting(corsOrigin, allowedOrigin), ',');
            forall o :: o in r <==> o != "" && exists i :: 0 <= i < |parts| && Trim(parts[i]) == o
    ensures forall i :: 0 <= i < |r| ==> r[i] != "" && ',' !in r[i]
  {
    var parts := Split(Setting(corsOrigin, allowedOrigin), ',');
    var ts := TrimAll(parts);
    forall i | 0 <= i < |parts| ensures ',' !in ts[i] {
      TrimKeepsOut(parts[i], ',');
    }
    var r := NonEmpty(ts);
    assert forall i :: 0 <= i < |r| ==> r[i] in r;
    r
  }

  /** Trimming never adds a character. */
  lemma TrimKeepsOut(s: string, c: char)
    requires c !in s
    ensures c !in Trim(s)
  {
    var r := Trim(s);
    var i, j :| 0 <= i <= j <= |s| && r == s[i..j];
  }

  /** A piece that is non-empty, comma-free and without surrounding
      whitespace: what an allowlist entry written cleanly looks like. */
  predicate CleanEntry(e: string) {
    e != "" && ',' !in e && !IsWhitespace(e[0]) && !IsWhitespace(e[|e| - 1])
  }

  lemma {:induction false} NonEmptyKeepsAll(ts: seq<string>)
    requires forall i :: 0 <= i < |ts| ==> ts[i] != ""
    ensures NonEmpty(ts) == ts
    decreases |ts|
  {
    if |ts| > 0 {
      NonEmptyKeepsAll(ts[1..]);
    }
  }

  lemma EntriesOfClean(parts: seq<string>)
    requires forall i :: 0 <= i < |parts| ==> CleanEntry(parts[i])
    ensures NonEmpty(TrimAll(parts)) == parts
  {
    var ts := TrimAll(parts);
    forall i | 0 <= i < |parts| ensures ts[i] == parts[i] {
      TrimNoop(parts[i]);
    }
    assert ts == parts;
    NonEmptyKeepsAll(parts);
  }

  /** Writing clean entries joined by commas into `CORS_ORIGIN` gives
      exactly those entries back as the allowlist. */
  lemma AllowlistRoundTrip(entries: seq<string>, allowedOrigin: Option<string>)
    requires |entries| >= 1
    requires forall i :: 0 <= i < |entries| ==> CleanEntry(entries[i])
    ensures AllowedOrigins(Some(Join(entries, ',')), allowedOrigin) == entries
  {
    var setting := Join(entries, ',');
    JoinStartsWithHead(entries, ',');
    assert StrTruthy(Some(setting));
    SplitJoin(entries, ',');
    EntriesOfClean(entries);
  }

  lemma {:induction false} JoinStartsWithHead(parts: seq<string>, sep: char)
    requires |parts| >= 1
    ensures |Join(parts, sep)| >= |parts[0]|
    decreases |parts|
  {
    if |parts| > 1 {
      JoinStartsWithHead(parts[1..], sep);
    }
  }

  /** With neither variable set the allowlist is empty. */
  lemma UnconfiguredAllowlistEmpty(corsOrigin: Option<string>, allowedOrigin: Option<string>)
    requires !StrTruthy(corsOrigin) && !StrTruthy(allowedOrigin)
    ensures AllowedOrigins(corsOrigin, allowedOrigin) == []
  {
    assert Split("", ',') == [""];
    assert Trim("") == "";
  }

  datatype CorsVerdict = Allow | Reject(message: string)

  /** `corsOptions.origin`: requests without an `Origin` pass, an empty
      allowlist lets everything pass, otherwise the origin must equal an
      entry exactly. */
  function CorsDecision(origin: Option<string>, allowed: seq<string>): (v: CorsVerdict)
    ensures v.Allow? <==> !StrTruthy(origin) || |allowed| == 0 || origin.value in allowed
    ensures v.Reject? ==> v.message == "Not allowed by CORS"
  {
    if !StrTruthy(origin) then Allow
    else if |allowed| == 0 then Allow
    else if origin.value in allowed then Allow
    else Reject("Not allowed by CORS")
  }

  /** An origin with surrounding whitespace is never in a non-empty
      allowlist, since entries are trimmed. */
  lemma PaddedOriginRejected(origin: string, corsOrigin: Option<string>, allowedOrigin: Option<string>)
    requires |origin| > 0 && IsWhitespace(origin[0])
    requires |AllowedOrigins(corsOrigin, allowedOrigin)| > 0
    ensures CorsDecision(Some(origin), AllowedOrigins(corsOrigin, allowedOrigin)) == Reject("Not allowed by CORS")
  {
  }

  /** The JSON answers of the application layer. */
  datatype Reply = Reply(status: nat, error: string, message: Option<string>)

  /** The catch-all for unmatched routes. */
  const NotFound: Reply := Reply(404, "NotFound", None)

  /** The error handler: always 500 `InternalServerError`; the message is
      included only outside production and only for `Error` instances. */
  function ErrorReply(nodeEnv: Option<string>, err: Thrown): (r: Reply)
    ensures r.status == 500 && r.error == "InternalServerError"
    ensures r.message.Some? <==> nodeEnv != Some("production") && err.ErrorValue?
    ensures r.message.Some? ==> r.message.value == err.message
  {
    var message := if nodeEnv != Some("production") && err.ErrorValue? then Some(err.message) else None;
    Reply(500, "InternalServerError", message)
  }

  /** In production no thrown value's text reaches the client. */
  lemma ProductionHidesMessages(err: Thrown, err': Thrown)
    ensures ErrorReply(Some("production"), err) == ErrorReply(Some("production"), err')
  {
  }

  /** A rejected origin reaches the error handler as an `Error`. */
  lemma CorsRejectionReply(origin: string, allowed: seq<string>, nodeEnv: Option<string>)
    requires CorsDecision(Some(origin), allowed).Reject?
    ensures var e := ErrorValue(CorsDecision(Some(origin), allowed).message);
            ErrorReply(nodeEnv, e).status == 500 &&
            (nodeEnv != Some("production") ==> ErrorReply(nodeEnv, e).message == Some("Not allowed by CORS"))
  {
  }

  // Registration order of the authentication endpoints.

  /** A registered handler: its HTTP method and full path, whether `requireAuth`
      runs before it, and which handler it is. Every path the application
      registers is written in lower case without a trailing slash. */
  datatype Route = Route(verb: string, path: string, guarded: bool, handler: string)

  /** Express's default method matching: the route's own method, and a
      `GET` route also answers `HEAD`. */
  predicate MethodMatches(route: Route, verb: string) {
    route.verb == verb || (verb == "HEAD" && route.verb == "GET")
  }

  /** Express's default path matching (case-insensitive, not strict): the
      request path equals the route's path up to letter case, with one
      trailing slash tolerated. */
  predicate PathMatches(route: Route, path: string) {
    ToLower(path) == route.path || ToLower(path) == route.path + "/"
  }

  predicate Matches(route: Route, verb: string, path: string) {
    MethodMatches(route, verb) && PathMatches(route, path)
  }

  /** The position of the first registered route matching method and
      path, as Express tries them in registration order. */
  function Dispatch(routes: seq<Route>, verb: string, path: string): (k: Option<nat>)
    ensures k.None? <==> forall i :: 0 <= i < |routes| ==> !Matches(routes[i], verb, path)
    ensures k.Some? ==> k.value < |routes| && Matches(routes[k.value], verb, path) &&
                        forall i :: 0 <= i < k.value ==> !Matches(routes[i], verb, path)
    decreases |routes|
  {
    if |routes| == 0 then None
    else if Matches(routes[0], verb, path) then Some(0)
    else
      match Dispatch(routes[1..], verb, path)
      case None => None
      case Some(k) => Some(k + 1)
  }

  /** Dropping a route that does not match leaves the dispatched route
      the same. */
  lemma {:induction false} DispatchSkips(routes: seq<Route>, n: nat, verb: string, path: string)
    requires n < |routes| && !Matches(routes[n], verb, path)
    ensures var rest := routes[..n] + routes[n + 1..];
            var k := Dispatch(routes, verb, path);
            var k' := Dispatch(rest, verb, path);
            k.None? <==> k'.None?
    ensures var rest := routes[..n] + routes[n + 1..];
            var k := Dispatch(routes, verb, path);
            var k' := Dispatch(rest, verb, path);
            k.Some? ==> k'.Some? && routes[k.value] == rest[k'.value]
    decreases n
  {
    var rest := routes[..n] + routes[n + 1..];
    if n > 0 && !Matches(routes[0], verb, path) {
      DispatchSkips(routes[1..], n - 1, verb, path);
      assert rest[1..] == routes[1..][..n - 1] + routes[1..][n..];
    } else if n == 0 {
      assert rest == routes[1..];
    }
  }

  /** What a request to the route table gets: the handler's answer, a
      denial from `requireAuth`, or the 404. */
  datatype Answer = Served(handler: string, user: Option<AuthMiddleware.Claims>) | Denied(error: string) | Unmatched

  function Serve(routes: seq<Route>, verb: string, path: string, header: Option<string>,
                 verify: string -> Option<AuthMiddleware.Claims>): (a: Answer)
    ensures Dispatch(routes, verb, path).None? ==> a == Unmatched
    ensures Dispatch(routes, verb, path).Some? ==>
              var route := routes[Dispatch(routes, verb, path).value];
              && (!route.guarded ==> a == Served(route.handler, None))
              && (route.guarded ==>
                    match AuthMiddleware.RequireAuth(header, verify)
                    case Deny(e) => a == Denied(e)
                    case Proceed(u) => a == Served(route.handler, Some(u)))
  {
    match Dispatch(routes, verb, path)
    case None => Unmatched
    case Some(k) =>
      var route := routes[k];
      if !route.guarded then Served(route.handler, None)
      else match AuthMiddleware.RequireAuth(header, verify)
        case Deny(e) => Denied(e)
        case Proceed(u) => Served(route.handler, Some(u))
  }

  /** The auth router's endpoints, in its registration order; its `/me`
      is an unguarded placeholder. */
  const AuthPing: Route := Route("GET", "/api/auth/ping", false, "auth.ping")
  const AuthRegister: Route := Route("POST", "/api/auth/register", false, "auth.register")
  const AuthLogin: Route := Route("POST", "/api/auth/login", false, "auth.login")
  const AuthMePlaceholder: Route := Route("GET", "/api/auth/me", false, "auth.mePlaceholder")
  const ProtectedPing: Route := Route("GET", "/api/protected/ping", true, "protected.ping")
  const Me: Route := Route("GET", "/api/auth/me", true, "me")

  /** The authentication endpoints as registered: the auth router is
      mounted before the guarded `/api/auth/me`. */
  const AuthRoutesAsRegistered: seq<Route> :=
    [AuthPing, AuthRegister, AuthLogin, AuthMePlaceholder, ProtectedPing, Me]

  /** The guarded `/api/auth/me` registered ahead of the auth router, as the
      placeholder's own comment says it is meant to be. */
  const AuthRoutesIntended: seq<Route> :=
    [Me, AuthPing, AuthRegister, AuthLogin, ProtectedPing]

  /** A request that reaches `/api/auth/me` matches none of the auth
      router's other endpoints. */
  lemma MeRequestMatchesNoOther(verb: string, path: string)
    requires Matches(Me, verb, path)
    ensures !Matches(AuthPing, verb, path) && !Matches(AuthRegister, verb, path) &&
            !Matches(AuthLogin, verb, path) && !Matches(ProtectedPing, verb, path)
  {
    var p := ToLower(path);
    assert |p| == 12 || |p| == 13;
    assert |AuthPing.path| == 14 && |ProtectedPing.path| == 19;
  }

  /** As registered, every request for `/api/auth/me` (`GET` or `HEAD`, in
      any letter case, with or without a trailing slash) is answered by the
      unguarded placeholder whatever it carries: no token is asked for and
      the guarded handler is never reached. */
  lemma MeIsUnguardedAsRegistered(verb: string, path: string, header: Option<string>,
                                  verify: string -> Option<AuthMiddleware.Claims>)
    requires Matches(Me, verb, path)
    ensures Serve(AuthRoutesAsRegistered, verb, path, header, verify) == Served("auth.mePlaceholder", None)
  {
    var reg := AuthRoutesAsRegistered;
    MeRequestMatchesNoOther(verb, path);
    assert Matches(reg[3], verb, path);
    assert !Matches(reg[0], verb, path) && !Matches(reg[1], verb, path) && !Matches(reg[2], verb, path);
  }

  /** With the intended order, a request for `/api/auth/me` is served only
      when its bearer token verifies, and then with its claims. */
  lemma MeIsGuardedAsIntended(verb: string, path: string, header: Option<string>,
                              verify: string -> Option<AuthMiddleware.Claims>)
    requires Matches(Me, verb, path)
    ensures var a := Serve(AuthRoutesIntended, verb, path, header, verify);
            a.Served? <==> AuthMiddleware.RequireAuth(header, verify).Proceed?
    ensures var a := Serve(AuthRoutesIntended, verb, path, header, verify);
            a.Served? ==> a == Served("me", Some(AuthMiddleware.RequireAuth(header, verify).user))
    ensures !StrTruthy(header) ==>
              Serve(AuthRoutesIntended, verb, path, header, verify) == Denied("NoAuthHeader")
  {
    assert Matches(AuthRoutesIntended[0], verb, path);
  }

  /** Express routes `HEAD /api/auth/me` like `GET /api/auth/me`. */
  lemma MeAnswersHead(path: string)
    requires path == "/api/auth/me"
    ensures Matches(Me, "GET", path) && Matches(Me, "HEAD", path)
  {
    MePathIsLower(path);
    assert PathMatches(Me, path);
  }

  /** The registered path is its own lower-case form. */
  lemma MePathIsLower(path: string)
    requires path == Me.path
    ensures ToLower(path) == path
  {
    ToLowerNoop(path);
  }

  /** A trailing slash still reaches `/api/auth/me`. */
  lemma MeToleratesTrailingSlash(path: string)
    requires path == "/api/auth/me/"
    ensures Matches(Me, "GET", path)
  {
    ToLowerNoop(path);
    assert path == Me.path + "/";
  }

  /** Letter case does not matter: `/API/auth/me` reaches `/api/auth/me`. */
  lemma MeIgnoresCase(path: string)
    requires path == "/API/auth/me"
    ensures Matches(Me, "GET", path)
  {
    var lower := ToLower(path);
    assert lower[1] == 'a' && lower[2] == 'p' && lower[3] == 'i';
    assert forall i :: 4 <= i < |path| ==> lower[i] == path[i];
    assert lower == Me.path;
  }

  /** Reordering changes nothing else: every request that does not reach
      `/api/auth/me` is dispatched to the same handler in both tables. */
  lemma OtherRoutesUnchanged(verb: string, path: string)
    requires !Matches(Me, verb, path)
    ensures Dispatch(AuthRoutesAsRegistered, verb, path).None? <==> Dispatch(AuthRoutesIntended, verb, path).None?
    ensures Dispatch(AuthRoutesAsRegistered, verb, path).Some? ==>
              AuthRoutesAsRegistered[Dispatch(AuthRoutesAsRegistered, verb, path).value] ==
              AuthRoutesIntended[Dispatch(AuthRoutesIntended, verb, path).value]
  {
    var core := [AuthPing, AuthRegister, AuthLogin, ProtectedPing];
    RegisteredWithoutMe(verb, path);
    WithoutPlaceholder(verb, path);
    IntendedWithoutMe(verb, path);
    assert SameDispatch(AuthRoutesAsRegistered, core, verb, path);
  }

  /** Two tables send a request to equal routes, or both to none. */
  predicate SameDispatch(a: seq<Route>, b: seq<Route>, verb: string, path: string) {
    && (Dispatch(a, verb, path).None? <==> Dispatch(b, verb, path).None?)
    && (Dispatch(a, verb, path).Some? ==>
          a[Dispatch(a, verb, path).value] == b[Dispatch(b, verb, path).value])
  }

  lemma RegisteredWithoutMe(verb: string, path: string)
    requires !Matches(Me, verb, path)
    ensures SameDispatch(AuthRoutesAsRegistered,
                         [AuthPing, AuthRegister, AuthLogin, AuthMePlaceholder, ProtectedPing], verb, path)
  {
    var reg := AuthRoutesAsRegistered;
    assert [AuthPing, AuthRegister, AuthLogin, AuthMePlaceholder, ProtectedPing] == reg[..5] + reg[6..];
    DispatchSkips(reg, 5, verb, path);
  }

  lemma WithoutPlaceholder(verb: string, path: string)
    requires !Matches(Me, verb, path)
    ensures SameDispatch([AuthPing, AuthRegister, AuthLogin, AuthMePlaceholder, ProtectedPing],
                         [AuthPing, AuthRegister, AuthLogin, ProtectedPing], verb, path)
  {
    var reg' := [AuthPing, AuthRegister, AuthLogin, AuthMePlaceholder, ProtectedPing];
    assert [AuthPing, AuthRegister, AuthLogin, ProtectedPing] == reg'[..3] + reg'[4..];
    DispatchSkips(reg', 3, verb, path);
  }

  lemma IntendedWithoutMe(verb: string, path: string)
    requires !Matches(Me, verb, path)
    ensures SameDispatch(AuthRoutesIntended, [AuthPing, AuthRegister, AuthLogin, ProtectedPing], verb, path)
  {
    var intended := AuthRoutesIntended;
    assert [AuthPing, AuthRegister, AuthLogin, ProtectedPing] == intended[..0] + intended[1..];
    DispatchSkips(intended, 0, verb, path);
  }

}

=== FILE: arrays.dfy ===
/** The `Array.prototype` methods the frontend leans on, over immutable
    sequences: `filter`, `indexOf`, `find`, `some` and `slice(0, n)`, and the
    order-preserving sub-sequence relation they are judged by. */
module Arrays {
  import opened Js

  /** `xs.filter(p)`. */
  function Filter<T(!new)>(xs: seq<T>, p: T -> bool): (r: seq<T>)
    ensures |r| <= |xs|
    ensures forall x :: x in r <==> x in xs && p(x)
    ensures forall i :: 0 <= i < |r| ==> p(r[i])
    ensures multiset(r) <= multiset(xs)
    decreases |xs|
  {
    if |xs| == 0 then []
    else
      assert xs == [xs[0]] + xs[1..];
      (if p(xs[0]) then [xs[0]] else []) + Filter(xs[1..], p)
  }

  /** `a` is `b` with some elements dropped and the rest in their order. */
  ghost predicate Subsequence<T>(a: seq<T>, b: seq<T>)
    decreases |b|
  {
    |a| == 0 ||
    (|b| > 0 && ((a[0] == b[0] && Subsequence(a[1..], b[1..])) || Subsequence(a, b[1..])))
  }

  lemma {:induction false} FilterIsSubsequence<T(!new)>(xs: seq<T>, p: T -> bool)
    ensures Subsequence(Filter(xs, p), xs)
    decreases |xs|
  {
    if |xs| > 0 {
      FilterIsSubsequence(xs[1..], p);
      var r := Filter(xs, p);
      if p(xs[0]) {
        assert r[0] == xs[0] && r[1..] == Filter(xs[1..], p);
      } else {
        assert r == Filter(xs[1..], p);
      }
    }
  }

  /** An element the filter passes keeps every occurrence. */
  lemma {:induction false} FilterCounts<T(!new)>(xs: seq<T>, p: T -> bool)
    ensures forall x :: p(x) ==> multiset(Filter(xs, p))[x] == multiset(xs)[x]
    decreases |xs|
  {
    if |xs| > 0 {
      FilterCounts(xs[1..], p);
      assert xs == [xs[0]] + xs[1..];
    }
  }

  /** Filtering distributes over concatenation. */
  lemma {:induction false} FilterConcat<T(!new)>(a: seq<T>, b: seq<T>, p: T -> bool)
    ensures Filter(a + b, p) == Filter(a, p) + Filter(b, p)
    decreases |a|
  {
    if |a| > 0 {
      assert (a + b)[1..] == a[1..] + b;
      FilterConcat(a[1..], b, p);
    } else {
      assert a + b == b;
    }
  }

  /** A filter every element passes keeps the sequence. */
  lemma {:induction false} FilterKeepsAll<T(!new)>(xs: seq<T>, p: T -> bool)
    requires forall i :: 0 <= i < |xs| ==> p(xs[i])
    ensures Filter(xs, p) == xs
    decreases |xs|
  {
    if |xs| > 0 {
      assert forall i :: 0 <= i < |xs[1..]| ==> p(xs[1..][i]) by {
        forall i | 0 <= i < |xs[1..]| ensures p(xs[1..][i]) {
          assert xs[1..][i] == xs[i + 1];
        }
      }
      FilterKeepsAll(xs[1..], p);
      assert p(xs[0]);
      assert Filter(xs, p) == [xs[0]] + Filter(xs[1..], p);
      assert xs == [xs[0]] + xs[1..];
    }
  }

  /** A filter no element passes empties the sequence. */
  lemma {:induction false} FilterDropsAll<T(!new)>(xs: seq<T>, p: T -> bool)
    requires forall i :: 0 <= i < |xs| ==> !p(xs[i])
    ensures Filter(xs, p) == []
    decreases |xs|
  {
    if |xs| > 0 {
      FilterDropsAll(xs[1..], p);
    }
  }

  /** Two filters applied one after the other commute. */
  lemma {:induction false} FilterCommute<T(!new)>(xs: seq<T>, p: T -> bool, q: T -> bool)
    ensures Filter(Filter(xs, p), q) == Filter(Filter(xs, q), p)
    decreases |xs|
  {
    if |xs| > 0 {
      var x, rest := xs[0], xs[1..];
      FilterCommute(rest, p, q);
      var hp := if p(x) then [x] else [];
      var hq := if q(x) then [x] else [];
      FilterConcat(hp, Filter(rest, p), q);
      FilterConcat(hq, Filter(rest, q), p);
      assert Filter(xs, p) == hp + Filter(rest, p);
      assert Filter(xs, q) == hq + Filter(rest, q);
      assert Filter(hp, q) == Filter(hq, p) by {
        if p(x) && q(x) {
          assert [x][1..] == [];
        }
      }
    }
  }

  /** `xs.indexOf(x)`: the first position of `x`, or -1. */
  function IndexOf<T(==)>(xs: seq<T>, x: T): (r: int)
    ensures r == -1 <==> x !in xs
    ensures r != -1 ==> 0 <= r < |xs| && xs[r] == x
    ensures forall j :: 0 <= j < r ==> xs[j] != x
    decreases |xs|
  {
    if |xs| == 0 then -1
    else if xs[0] == x then 0
    else
      var k := IndexOf(xs[1..], x);
      if k == -1 then -1 else k + 1
  }

  /** The position `xs.find(p)` stops at. */
  function FindIndex<T>(xs: seq<T>, p: T -> bool): (r: Option<nat>)
    ensures r.None? <==> forall i :: 0 <= i < |xs| ==> !p(xs[i])
    ensures r.Some? ==> r.value < |xs| && p(xs[r.value]) &&
                        forall j :: 0 <= j < r.value ==> !p(xs[j])
    decreases |xs|
  {
    if |xs| == 0 then None
    else if p(xs[0]) then Some(0)
    else match FindIndex(xs[1..], p)
      case None => None
      case Some(k) => Some(k + 1)
  }

  /** `xs.find(p)`: the first element passing `p`. */
  function Find<T>(xs: seq<T>, p: T -> bool): (r: Option<T>)
    ensures r.None? <==> forall i :: 0 <= i < |xs| ==> !p(xs[i])
    ensures r.Some? ==> r.value in xs && p(r.value)
    ensures r.Some? ==> exists i :: 0 <= i < |xs| && xs[i] == r.value && p(xs[i]) &&
                                    forall j :: 0 <= j < i ==> !p(xs[j])
  {
    match FindIndex(xs, p)
    case None => None
    case Some(k) => Some(xs[k])
  }

  /** `xs.some(p)`. */
  predicate Any<T>(xs: seq<T>, p: T -> bool)
    decreases |xs|
  {
    |xs| > 0 && (p(xs[0]) || Any(xs[1..], p))
  }

  lemma {:induction false} AnyIffExists<T>(xs: seq<T>, p: T -> bool)
    ensures Any(xs, p) <==> exists i :: 0 <= i < |xs| && p(xs[i])
    decreases |xs|
  {
    if |xs| > 0 {
      AnyIffExists(xs[1..], p);
      if exists i :: 0 <= i < |xs| && p(xs[i]) {
        var i :| 0 <= i < |xs| && p(xs[i]);
        if i > 0 {
          assert xs[1..][i - 1] == xs[i];
        }
      }
    }
  }

  /** `xs.slice(0, n)`. */
  function Take<T>(xs: seq<T>, n: nat): (r: seq<T>)
    ensures |r| <= n && |r| <= |xs|
    ensures |xs| <= n ==> r == xs
    ensures |xs| > n ==> |r| == n
    ensures forall i :: 0 <= i < |r| ==> r[i] == xs[i]
  {
    if |xs| <= n then xs else xs[..n]
  }
}

=== FILE: auth_middleware.dfy ===
/** The bearer-token gate in front of the protected routes
    (backend/src/middleware/auth.ts). It reads the `Authorization` header,
    splits it on single spaces, requires the first piece to be exactly
    `Bearer` and the second to be non-empty, and verifies that second piece
    as a token. This is a narrower reading of section 2.1 of RFC 6750: the
    scheme is case-sensitive and exactly one space must separate it from
    the token. Signature and expiry checking is the parameter `verify`. */
module AuthMiddleware {
  import opened Js
  import opened Strings

  /** The verified token payload the routes read as `req.user`; a claim the
      payload lacks is the empty string. */
  datatype Claims = Claims(sub: string, email: string)

  /** `next()` with the user attached, or a 401 with an error code. */
  datatype Decision = Proceed(user: Claims) | Deny(error: string)

  /** The status every denial carries. */
  const Unauthorized: nat := 401

  /** The header has the shape `Bearer <token>[ <anything>]` once split. */
  predicate BearerShape(parts: seq<string>) {
    |parts| >= 2 && parts[0] == "Bearer" && parts[1] != ""
  }

  /** `requireAuth`: presence, then shape, then verification; the first
      check that fails decides the error code. */
  function RequireAuth(header: Option<string>, verify: string -> Option<Claims>): (d: Decision)
    ensures d == Deny("NoAuthHeader") <==> !StrTruthy(header)
    ensures d == Deny("InvalidAuthHeader") <==>
              StrTruthy(header) && !BearerShape(Split(header.value, ' '))
    ensures d == Deny("InvalidToken") <==>
              StrTruthy(header) && BearerShape(Split(header.value, ' ')) &&
              verify(Split(header.value, ' ')[1]).None?
    ensures d.Proceed? ==> StrTruthy(header) && BearerShape(Split(header.value, ' ')) &&
                           verify(Split(header.value, ' ')[1]) == Some(d.user)
  {
    if !StrTruthy(header) then Deny("NoAuthHeader")
    else
      var parts := Split(header.value, ' ');
      if !BearerShape(parts) then Deny("InvalidAuthHeader")
      else match verify(parts[1])
        case None => Deny("InvalidToken")
        case Some(claims) => Proceed(claims)
  }

  /** Every header of the form `Bearer <token>` followed by any further
      space-separated pieces is judged by its token alone: the trailing
      pieces are ignored. */
  lemma BearerHeaderJudgedByToken(token: string, rest: seq<string>, verify: string -> Option<Claims>)
    requires token != "" && ' ' !in token
    requires forall i :: 0 <= i < |rest| ==> ' ' !in rest[i]
    ensures var header := Join(["Bearer", token] + rest, ' ');
            RequireAuth(Some(header), verify) ==
              (match verify(token) case None => Deny("InvalidToken") case Some(c) => Proceed(c))
  {
    var parts := ["Bearer", token] + rest;
    PiecesWithoutSpaces(token, rest);
    SplitJoin(parts, ' ');
    assert Split(Join(parts, ' '), ' ')[1] == token;
  }

  lemma PiecesWithoutSpaces(token: string, rest: seq<string>)
    requires ' ' !in token
    requires forall i :: 0 <= i < |rest| ==> ' ' !in rest[i]
    ensures forall i :: 0 <= i < |["Bearer", token] + rest| ==> ' ' !in (["Bearer", token] + rest)[i]
  {
    var parts := ["Bearer", token] + rest;
    forall i | 0 <= i < |parts| ensures ' ' !in parts[i] {
      if i >= 2 { assert parts[i] == rest[i - 2]; }
    }
  }

  /** Conversely, an accepted header is `Bearer`, a space, the verified
      token and possibly more space-separated pieces. */
  lemma AcceptedHeaderShape(header: string, verify: string -> Option<Claims>)
    requires RequireAuth(Some(header), verify).Proceed?
    ensures var parts := Split(header, ' ');
            header == Join(["Bearer", parts[1]] + parts[2..], ' ') &&
            parts[1] != "" && ' ' !in parts[1] &&
            verify(parts[1]) == Some(RequireAuth(Some(header), verify).user)
  {
    var parts := Split(header, ' ');
    JoinSplit(header, ' ');
    assert parts == ["Bearer", parts[1]] + parts[2..];
  }

  /** A doubled space leaves an empty second piece, so the header is
      rejected as malformed before the token is looked at. */
  lemma DoubleSpaceRejected(token: string, verify: string -> Option<Claims>)
    requires ' ' !in token
    ensures RequireAuth(Some("Bearer  " + token), verify) == Deny("InvalidAuthHeader")
  {
    var h := "Bearer  " + token;
    var parts := Split(h, ' ');
    SplitJoin(["Bearer", "", token], ' ');
    assert Join(["Bearer", "", token], ' ') == h by {
      assert Join(["Bearer", "", token], ' ') == "Bearer" + [' '] + Join(["", token], ' ');
      assert Join(["", token], ' ') == "" + [' '] + Join([token], ' ');
    }
  }
}

=== FILE: auth_route.dfy ===
/** Registration and login (backend/src/routes/auth.ts) over a user
    collection (backend/src/models/User.ts: a unique email and a password
    hash). Hashing, hash comparison, token signing and the email-format
    check are parameters. */
module AuthRoute {
  import opened Js
  import AuthMiddleware
  import ObjectId

  datatype User = User(id: nat, email: string, passwordHash: string)

  datatype Users = Users(rows: seq<User>, nextId: nat)

  /** Emails are unique and every id was handed out already. */
  predicate Valid(u: Users) {
    && (forall i, j :: 0 <= i < j < |u.rows| ==> u.rows[i].email != u.rows[j].email)
    && (forall i :: 0 <= i < |u.rows| ==> u.rows[i].id < u.nextId)
  }

  const MinPasswordLength: nat := 8
  const BcryptCost: nat := 12
  const TokenLifetime: string := "7d"

  /** The credentials the body schema keeps. */
  datatype Creds = Creds(email: string, password: string)

  /** `zCreds.safeParse(body)`: an object with an `email` string the email
      check accepts and a `password` string of at least 8 characters. */
  function ParseCreds(body: Json, isEmail: string -> bool): (r: Option<Creds>)
    ensures r.Some? <==>
              && body.JObj?
              && "email" in body.fields && body.fields["email"].JStr? && isEmail(body.fields["email"].s)
              && "password" in body.fields && body.fields["password"].JStr?
              && |body.fields["password"].s| >= MinPasswordLength
    ensures r.Some? ==> r.value == Creds(body.fields["email"].s, body.fields["password"].s)
  {
    match body
    case JObj(fs) =>
      if "email" in fs && fs["email"].JStr? && isEmail(fs["email"].s) &&
         "password" in fs && fs["password"].JStr? && |fs["password"].s| >= MinPasswordLength
      then Some(Creds(fs["email"].s, fs["password"].s))
      else None
    case _ => None
  }

  /** `User.findOne({ email })`. */
  function FindByEmail(rows: seq<User>, email: string): (r: Option<User>)
    ensures r.None? <==> forall i :: 0 <= i < |rows| ==> rows[i].email != email
    ensures r.Some? ==> r.value in rows && r.value.email == email
    decreases |rows|
  {
    if |rows| == 0 then None
    else if rows[0].email == email then Some(rows[0])
    else
      var r := FindByEmail(rows[1..], email);
      assert forall i :: 1 <= i < |rows| ==> rows[i] == rows[1..][i - 1];
      r
  }

  /** What the auth routes answer: `{ ok: true }`, `{ token }`,
      `{ error: code }`, or `{ error: "InvalidBody", details }` with the
      schema's report on the rejected body. */
  datatype Body = Ok | Token(token: string) | Failure(error: string) | InvalidBody(details: Json)
  datatype Response = Response(status: nat, body: Body)

  /** `POST /register`: 400 `InvalidBody` with the flattened schema error
      (`flatten`, passed in) as details, 409 `EmailInUse` for a known
      email, else the user is stored with the hash of the password at cost
      12 and the answer is 201. */
  function Register(u: Users, body: Json, isEmail: string -> bool, flatten: Json -> Json,
                    hash: (string, nat) -> string): (r: (Users, Response))
    ensures ParseCreds(body, isEmail).None? ==> r == (u, Response(400, InvalidBody(flatten(body))))
    ensures ParseCreds(body, isEmail).Some? ==>
              var creds := ParseCreds(body, isEmail).value;
              && (r.1 == Response(409, Failure("EmailInUse")) <==> FindByEmail(u.rows, creds.email).Some?)
              && (r.1 == Response(409, Failure("EmailInUse")) ==> r.0 == u)
              && (r.1 != Response(409, Failure("EmailInUse")) ==>
                    && r.1 == Response(201, Ok)
                    && r.0 == Users(u.rows + [User(u.nextId, creds.email, hash(creds.password, BcryptCost))],
                                    u.nextId + 1))
  {
    match ParseCreds(body, isEmail)
    case None => (u, Response(400, InvalidBody(flatten(body))))
    case Some(creds) =>
      if FindByEmail(u.rows, creds.email).Some? then (u, Response(409, Failure("EmailInUse")))
      else
        var user := User(u.nextId, creds.email, hash(creds.password, BcryptCost));
        (Users(u.rows + [user], u.nextId + 1), Response(201, Ok))
  }

  /** Registration keeps emails unique. */
  lemma RegisterPreservesValid(u: Users, body: Json, isEmail: string -> bool, flatten: Json -> Json,
                               hash: (string, nat) -> string)
    requires Valid(u)
    ensures Valid(Register(u, body, isEmail, flatten, hash).0)
  {
  }

  /** `POST /login`: 400 `InvalidBody` with the flattened schema error;
      an unknown email and a wrong password both give the same 401
      `InvalidCredentials`; otherwise a token signed over
      `{ sub: String(user._id), email }`, valid 7 days, whose subject is
      the id in 24 lower-case hexadecimal digits. */
  function Login(u: Users, body: Json, isEmail: string -> bool, flatten: Json -> Json,
                 compare: (string, string) -> bool,
                 sign: (AuthMiddleware.Claims, string) -> string): (r: Response)
    ensures ParseCreds(body, isEmail).None? ==> r == Response(400, InvalidBody(flatten(body)))
    ensures ParseCreds(body, isEmail).Some? ==>
              var creds := ParseCreds(body, isEmail).value;
              var user := FindByEmail(u.rows, creds.email);
              && (r == Response(401, Failure("InvalidCredentials")) <==>
                    user.None? || !compare(creds.password, user.value.passwordHash))
              && (r != Response(401, Failure("InvalidCredentials")) ==>
                    r == Response(200, Token(sign(AuthMiddleware.Claims(ObjectId.ToString(user.value.id), creds.email),
                                                  TokenLifetime))))
  {
    match ParseCreds(body, isEmail)
    case None => Response(400, InvalidBody(flatten(body)))
    case Some(creds) =>
      match FindByEmail(u.rows, creds.email)
      case None => Response(401, Failure("InvalidCredentials"))
      case Some(user) =>
        if !compare(creds.password, user.passwordHash) then Response(401, Failure("InvalidCredentials"))
        else Response(200, Token(sign(AuthMiddleware.Claims(ObjectId.ToString(user.id), creds.email), TokenLifetime)))
  }

  /** A failed login does not reveal whether the email is registered:
      with the same body, an unknown email and a wrong password give the
      same response. */
  lemma LoginFailuresIndistinguishable(u: Users, u': Users, body: Json, isEmail: string -> bool, flatten: Json -> Json,
                                       compare: (string, string) -> bool,
                                       sign: (AuthMiddleware.Claims, string) -> string)
    requires ParseCreds(body, isEmail).Some?
    requires FindByEmail(u.rows, ParseCreds(body, isEmail).value.email).None?
    requires var creds := ParseCreds(body, isEmail).value;
             var user := FindByEmail(u'.rows, creds.email);
             user.Some? && !compare(creds.password, user.value.passwordHash)
    ensures Login(u, body, isEmail, flatten, compare, sign) == Login(u', body, isEmail, flatten, compare, sign)
  {
  }

  /** After registering, logging in with the same body succeeds when the
      comparison accepts the password against its own hash, and the token
      names the new user: its subject casts back to the new user's id. */
  lemma RegisterThenLogin(u: Users, body: Json, isEmail: string -> bool, flatten: Json -> Json,
                          hash: (string, nat) -> string, compare: (string, string) -> bool,
                          sign: (AuthMiddleware.Claims, string) -> string)
    requires Valid(u)
    requires Register(u, body, isEmail, flatten, hash).1 == Response(201, Ok)
    requires forall p :: compare(p, hash(p, BcryptCost))
    ensures var creds := ParseCreds(body, isEmail).value;
            Login(Register(u, body, isEmail, flatten, hash).0, body, isEmail, flatten, compare, sign) ==
              Response(200, Token(sign(AuthMiddleware.Claims(ObjectId.ToString(u.nextId), creds.email), TokenLifetime)))
    ensures u.nextId < ObjectId.Bound ==> ObjectId.Parse(ObjectId.ToString(u.nextId)) == Some(u.nextId)
  {
    var creds := ParseCreds(body, isEmail).value;
    var u' := Register(u, body, isEmail, flatten, hash).0;
    var user := User(u.nextId, creds.email, hash(creds.password, BcryptCost));
    assert u'.rows == u.rows + [user];
    FindAppended(u.rows, user);
    if u.nextId < ObjectId.Bound {
      ObjectId.ToStringRoundTrip(u.nextId);
    }
  }

  /** Looking up the email of a user appended after all others with a
      different email finds that user. */
  lemma {:induction false} FindAppended(rows: seq<User>, user: User)
    requires forall i :: 0 <= i < |rows| ==> rows[i].email != user.email
    ensures FindByEmail(rows + [user], user.email) == Some(user)
    decreases |rows|
  {
    if |rows| > 0 {
      assert (rows + [user])[1..] == rows[1..] + [user];
      FindAppended(rows[1..], user);
    }
  }
}

=== FILE: auth_store.dfy ===
/** The client's token store (frontend/src/store/auth.ts): the token in
    memory and its copy in `localStorage` under `bada_token`. Storage is a
    map passed in and returned; the absence of a `window` (rendering
    outside a browser) is a flag. */
module AuthStore {
  import opened Js

  const TokenKey: string := "bada_token"

  /** The store's token and the browser storage it writes through to. */
  datatype Store = Store(token: Option<string>, storage: map<string, string>)

  /** Memory and storage agree: a stored token is the token in memory,
      and a truthy token in memory is stored. */
  predicate Synced(st: Store) {
    && (TokenKey in st.storage ==> st.token == Some(st.storage[TokenKey]))
    && (StrTruthy(st.token) ==> TokenKey in st.storage)
  }

  /** The first run: the stored token if there is a window and a stored
      value, otherwise `null`. */
  function Init(storage: map<string, string>, hasWindow: bool): (st: Store)
    ensures st.storage == storage
    ensures st.token.Some? <==> hasWindow && TokenKey in storage
    ensures st.token.Some? ==> st.token.value == storage[TokenKey]
    ensures hasWindow ==> Synced(st)
  {
    Store(if hasWindow && TokenKey in storage then Some(storage[TokenKey]) else None, storage)
  }

  /** `setToken(t)`: a truthy token is stored, a falsy one removes the
      key; either way the token in memory becomes `t`. */
  function SetToken(st: Store, t: Option<string>): (st': Store)
    ensures st'.token == t
    ensures StrTruthy(t) ==> st'.storage == st.storage[TokenKey := t.value]
    ensures !StrTruthy(t) ==> st'.storage == st.storage - {TokenKey}
    ensures forall k :: k != TokenKey ==> (k in st'.storage <==> k in st.storage)
    ensures forall k :: k != TokenKey && k in st.storage ==> st'.storage[k] == st.storage[k]
  {
    var storage := if StrTruthy(t) then st.storage[TokenKey := t.value] else st.storage - {TokenKey};
    Store(t, storage)
  }

  /** `clearToken()`: the key is removed and the token becomes `null`. */
  function ClearToken(st: Store): (st': Store)
    ensures st'.token.None? && TokenKey !in st'.storage
    ensures forall k :: k != TokenKey ==> (k in st'.storage <==> k in st.storage)
    ensures forall k :: k != TokenKey && k in st.storage ==> st'.storage[k] == st.storage[k]
  {
    Store(None, st.storage - {TokenKey})
  }

  /** `isAuthenticated()`: the token is truthy. */
  predicate IsAuthenticated(st: Store) {
    StrTruthy(st.token)
  }

  /** Setting a token and clearing it keep memory and storage in step;
      an empty token is kept in memory only, which is signed out all the
      same. */
  lemma UpdatesKeepSynced(st: Store, t: Option<string>)
    requires Synced(st)
    ensures Synced(ClearToken(st))
    ensures Synced(SetToken(st, t))
    ensures IsAuthenticated(SetToken(st, t)) <==> StrTruthy(t)
    ensures !IsAuthenticated(ClearToken(st))
  {
  }

  /** A reload restores the session: after `setToken` the store that a
      fresh page hydrates from storage has the same token and the same
      authentication, and after `clearToken` the fresh page is signed out. */
  lemma ReloadRestoresSession(st: Store, t: Option<string>)
    ensures var after := SetToken(st, t);
            IsAuthenticated(Init(after.storage, true)) == IsAuthenticated(after)
    ensures StrTruthy(t) ==> Init(SetToken(st, t).storage, true).token == t
    ensures !IsAuthenticated(Init(ClearToken(st).storage, true))
  {
  }

  /** Without a window nothing is hydrated, whatever is stored. */
  lemma NoWindowStartsSignedOut(storage: map<string, string>)
    ensures !IsAuthenticated(Init(storage, false))
  {
  }
}

=== FILE: beach_types.dfy ===
/** The frontend's beach shapes (frontend/src/types/beaches.ts): a GeoJSON
    feature of the beach list, the summary the list shows, and the detail
    document of one beach, with the conversion from feature to summary. */
module BeachTypes {
  import opened Js

  /** A feature's `properties`: `NUTSKOD` (the stable beach id), `NAMN`
      and the optional `KMN_NAMN`. */
  datatype Properties = Properties(nutsCode: string, name: string, municipality: Option<string>)

  /** A GeoJSON feature. `coordinates` is `geometry?.coordinates`: `None`
      when the geometry or its coordinates are missing; the entries are
      whatever JSON the upstream sent, in `[lon, lat]` order. */
  datatype Feature = Feature(coordinates: Option<seq<Json>>, properties: Properties)

  /** The list item the UI shows. */
  datatype Summary = Summary(id: string, name: string, municipality: Option<string>, lat: Number, lng: Number)

  /** One year of the rating history. */
  datatype Rating = Rating(qualityRating: Number, qualityRatingText: string, ratingYear: Number)

  /** The detail document of `/beaches/:id`, as far as the pages read it.
      `qualityRating` is `None` when the field is missing or not an array;
      `latestSampleDate` is the field the backend merges in. */
  datatype Detail = Detail(
    nutsCode: string,
    locationName: Option<string>,
    locationArea: Option<string>,
    classification: Option<Number>,
    classificationText: Option<string>,
    qualityRating: Option<seq<Rating>>,
    latestSampleDate: Option<string>)

  /** `const [lng, lat] = f.geometry?.coordinates ?? []`: the first two
      entries, `None` where the array is shorter. */
  function Coordinate(f: Feature, i: nat): (c: Option<Json>)
    requires i < 2
    ensures c.Some? <==> f.coordinates.Some? && i < |f.coordinates.value|
  {
    var cs := f.coordinates.GetOr([]);
    if i < |cs| then Some(cs[i]) else None
  }

  /** `featureToSummary`: `null` unless both coordinates are numbers;
      otherwise the properties under their UI names, with the first
      coordinate as `lng` and the second as `lat`. */
  function FeatureToSummary(f: Feature): (r: Option<Summary>)
    ensures r.Some? <==> Coordinate(f, 0).Some? && Coordinate(f, 0).value.JNum? &&
                         Coordinate(f, 1).Some? && Coordinate(f, 1).value.JNum?
    ensures r.Some? ==> f.coordinates.Some? && |f.coordinates.value| >= 2
    ensures r.Some? ==> r.value == Summary(f.properties.nutsCode, f.properties.name, f.properties.municipality,
                                           f.coordinates.value[1].n, f.coordinates.value[0].n)
  {
    match (Coordinate(f, 0), Coordinate(f, 1))
    case (Some(JNum(lng)), Some(JNum(lat))) =>
      Some(Summary(f.properties.nutsCode, f.properties.name, f.properties.municipality, lat, lng))
    case _ => None
  }

  /** The feature a summary was read from: its id, name and municipality as
      properties and `[lng, lat]` as the point. */
  function ToFeature(s: Summary): Feature {
    Feature(Some([JNum(s.lng), JNum(s.lat)]), Properties(s.id, s.name, s.municipality))
  }

  /** Reading a summary back from its own feature gives the summary: the
      coordinates are not swapped. */
  lemma SummaryRoundTrip(s: Summary)
    ensures FeatureToSummary(ToFeature(s)) == Some(s)
  {
  }

  /** Conversely, a converted feature has its summary's properties and
      point, whatever else it carries after the first two coordinates. */
  lemma FeatureRoundTrip(f: Feature)
    requires FeatureToSummary(f).Some?
    ensures var t := ToFeature(FeatureToSummary(f).value);
            t.properties == f.properties && t.coordinates.value == f.coordinates.value[..2]
  {
  }

  /** A feature with no point, or with a missing or non-numeric
      coordinate, is dropped. */
  lemma IncompleteFeatureDropped(f: Feature)
    requires f.coordinates.None? || |f.coordinates.value| < 2 ||
             !f.coordinates.value[0].JNum? || !f.coordinates.value[1].JNum?
    ensures FeatureToSummary(f).None?
  {
  }
}

=== FILE: beaches_api.dfy ===
/** The public beach API calls of the frontend (frontend/src/api/beaches.ts):
    the URL of a request, the error a failed request throws, and the
    conversion of the feature collection into summaries. The network is
    left out: the response status and body are inputs. */
module BeachesApi {
  import opened Js
  import opened BeachTypes

  /** `` `${base}${path}` ``; an unset base renders as `undefined`. */
  function RequestUrl(base: Option<string>, path: string): (url: string)
    ensures |url| == |base.GetOr("undefined")| + |path|
    ensures url[..|base.GetOr("undefined")|] == base.GetOr("undefined")
    ensures url[|base.GetOr("undefined")|..] == path
  {
    base.GetOr("undefined") + path
  }

  /** The path of one beach's detail: `/beaches/<id>`. */
  function BeachPath(id: string): (path: string)
    ensures |path| == |"/beaches/"| + |id| && path[|"/beaches/"|..] == id
  {
    "/beaches/" + id
  }

  /** Distinct ids are requested at distinct URLs. */
  lemma BeachUrlInjective(base: Option<string>, id: string, id': string)
    requires RequestUrl(base, BeachPath(id)) == RequestUrl(base, BeachPath(id'))
    ensures id == id'
  {
    var b := base.GetOr("undefined");
    var u := RequestUrl(base, BeachPath(id));
    assert u[|b| + 9..] == id;
    assert u[|b| + 9..] == id';
  }

  /** `apiGet`: a non-ok status throws `API error <status>`; otherwise the
      body is returned as it is. */
  function ApiGet(status: nat, body: Json): (r: Outcome<Json>)
    ensures r.Threw? <==> !(200 <= status <= 299)
    ensures r.Threw? ==> r.error == ErrorValue("API error " + NatToString(status))
    ensures r.Value? ==> r.value == body
  {
    if 200 <= status <= 299 then Value(body) else Threw(ErrorValue("API error " + NatToString(status)))
  }

  /** The error message names the status: two failed statuses throw the
      same message only when they are the same status. */
  lemma ApiErrorNamesStatus(status: nat, status': nat, body: Json, body': Json)
    requires ApiGet(status, body).Threw? && ApiGet(status', body').Threw?
    requires ApiGet(status, body).error == ApiGet(status', body').error
    ensures status == status'
  {
    var m := "API error " + NatToString(status);
    var m' := "API error " + NatToString(status');
    assert m[10..] == NatToString(status);
    assert m'[10..] == NatToString(status');
    NatToStringInjective(status, status');
  }

  /** The summary of one feature, as a list of zero or one. */
  function Head(f: Feature): seq<Summary> {
    match FeatureToSummary(f)
    case Some(s) => [s]
    case None => []
  }

  /** `fetchBeaches`: every feature through `featureToSummary`, the
      `null`s dropped, in the features' order. */
  function Summaries(features: seq<Feature>): (r: seq<Summary>)
    ensures |r| <= |features|
    decreases |features|
  {
    if |features| == 0 then [] else Head(features[0]) + Summaries(features[1..])
  }

  /** The summaries are exactly those of the convertible features. */
  lemma {:induction false} SummariesMembers(features: seq<Feature>)
    ensures forall s :: s in Summaries(features) <==> exists f :: f in features && FeatureToSummary(f) == Some(s)
    decreases |features|
  {
    if |features| > 0 {
      SummariesMembers(features[1..]);
      assert forall f :: f in features <==> f == features[0] || f in features[1..];
    }
  }

  /** The conversion works feature by feature: a collection split in two
      converts to the two halves' summaries, one after the other. */
  lemma {:induction false} SummariesConcat(a: seq<Feature>, b: seq<Feature>)
    ensures Summaries(a + b) == Summaries(a) + Summaries(b)
    decreases |a|
  {
    if |a| > 0 {
      assert (a + b)[0] == a[0];
      assert (a + b)[1..] == a[1..] + b;
      SummariesConcat(a[1..], b);
      assert Summaries(a + b) == Head(a[0]) + Summaries(a[1..] + b);
      assert Summaries(a) == Head(a[0]) + Summaries(a[1..]);
    } else {
      assert a + b == b;
    }
  }

  /** The features built from a list of summaries convert back to
      exactly that list, in order. */
  lemma {:induction false} SummariesOfFeatures(ss: seq<Summary>)
    ensures Summaries(seq(|ss|, i requires 0 <= i < |ss| => ToFeature(ss[i]))) == ss
    decreases |ss|
  {
    var fs := seq(|ss|, i requires 0 <= i < |ss| => ToFeature(ss[i]));
    if |ss| > 0 {
      SummaryRoundTrip(ss[0]);
      var rest := seq(|ss| - 1, i requires 0 <= i < |ss| - 1 => ToFeature(ss[1..][i]));
      assert fs[1..] == rest;
      SummariesOfFeatures(ss[1..]);
      assert ss == [ss[0]] + ss[1..];
    }
  }

  /** A collection whose every feature lacks a point yields no beaches. */
  lemma {:induction false} PointlessFeaturesDropped(features: seq<Feature>)
    requires forall i :: 0 <= i < |features| ==> features[i].coordinates.None?
    ensures Summaries(features) == []
    decreases |features|
  {
    if |features| > 0 {
      IncompleteFeatureDropped(features[0]);
      PointlessFeaturesDropped(features[1..]);
    }
  }

  /** `fetchBeaches()` given the answer to `GET /beaches`. */
  function FetchBeaches(status: nat, features: seq<Feature>): (r: Outcome<seq<Summary>>)
    ensures r.Threw? <==> !(200 <= status <= 299)
    ensures r.Threw? ==> r.error == ErrorValue("API error " + NatToString(status))
    ensures r.Value? ==> r.value == Summaries(features)
  {
    if 200 <= status <= 299 then Value(Summaries(features))
    else Threw(ErrorValue("API error " + NatToString(status)))
  }
}

=== FILE: beaches_list.dfy ===
/** The beach list (frontend/src/components/BeachesList.tsx): the items
    with their optional distance, the search filter, the radius filter
    that applies once the user's position is known, the cap on cards and
    the state the list shows. The distance computation and the sort by
    distance are parameters. */
module BeachesList {
  import opened Js
  import opened Strings
  import opened Arrays
  import opened BeachTypes

  /** Beaches farther away than this are hidden once a position is known. */
  const RadiusKm: real := 10.0

  /** At most this many cards are listed. */
  const MaxCards: nat := 50

  /** A listed beach with `_distanceKm`, absent without a position. */
  datatype Item = Item(beach: Summary, distanceKm: Option<Number>)

  /** The beaches with their distances, in the data's order. */
  function WithDistance(bs: seq<Summary>, distance: Summary -> Number): (r: seq<Item>)
    ensures |r| == |bs|
    ensures forall i :: 0 <= i < |bs| ==> r[i] == Item(bs[i], Some(distance(bs[i])))
  {
    seq(|bs|, i requires 0 <= i < |bs| => Item(bs[i], Some(distance(bs[i]))))
  }

  /** The sort key `_distanceKm ?? 0`, for an item whose distance is finite
      or absent. */
  function Km(it: Item): real {
    match it.distanceKm
    case Some(Finite(v)) => v
    case _ => 0.0
  }

  predicate FiniteDistances(items: seq<Item>) {
    forall i :: 0 <= i < |items| ==> items[i].distanceKm.Some? ==> items[i].distanceKm.value.Finite?
  }

  predicate NearestFirst(items: seq<Item>) {
    forall i, j :: 0 <= i < j < |items| ==> Km(items[i]) <= Km(items[j])
  }

  /** What `Array.prototype.sort` with the comparator
      `(a._distanceKm ?? 0) - (b._distanceKm ?? 0)` promises: the result is
      a rearrangement of its input, and, when every distance is a finite
      number (so the comparator is consistent), nearest first. */
  ghost predicate SortsByDistance(sort: seq<Item> -> seq<Item>) {
    && (forall xs :: multiset(sort(xs)) == multiset(xs))
    && (forall xs :: FiniteDistances(xs) ==> NearestFirst(sort(xs)))
  }

  /** `items`: nothing before the data arrives; the data as it is without
      a position; with one, a rearrangement of the beaches each paired with
      its own distance (so every beach as often as in the data), nearest
      first when the distances are finite. */
  function Items(data: Option<seq<Summary>>, hasCoords: bool, distance: Summary -> Number,
                 byDistance: seq<Item> -> seq<Item>): (items: seq<Item>)
    requires SortsByDistance(byDistance)
    ensures data.None? ==> items == []
    ensures data.Some? && !hasCoords ==>
              |items| == |data.value| &&
              forall i :: 0 <= i < |items| ==> items[i] == Item(data.value[i], None)
    ensures data.Some? && hasCoords ==>
              && multiset(items) == multiset(WithDistance(data.value, distance))
              && (forall i :: 0 <= i < |items| ==> items[i].distanceKm == Some(distance(items[i].beach)))
              && ((forall k :: 0 <= k < |data.value| ==> distance(data.value[k]).Finite?) ==> NearestFirst(items))
  {
    match data
    case None => []
    case Some(bs) =>
      var plain := seq(|bs|, i requires 0 <= i < |bs| => Item(bs[i], None));
      if !hasCoords then plain
      else
        var ws := WithDistance(bs, distance);
        var sorted := byDistance(ws);
        assert forall i :: 0 <= i < |sorted| ==> sorted[i].distanceKm == Some(distance(sorted[i].beach)) by {
          forall i | 0 <= i < |sorted| ensures sorted[i].distanceKm == Some(distance(sorted[i].beach)) {
            assert sorted[i] in multiset(ws);
          }
        }
        sorted
  }

  /** No beach is lost: every beach of the data is listed, with its
      distance once a position is known. */
  lemma EveryBeachListed(bs: seq<Summary>, hasCoords: bool, distance: Summary -> Number,
                         byDistance: seq<Item> -> seq<Item>, k: nat)
    requires SortsByDistance(byDistance)
    requires k < |bs|
    ensures var items := Items(Some(bs), hasCoords, distance, byDistance);
            exists i :: 0 <= i < |items| &&
              items[i] == Item(bs[k], if hasCoords then Some(distance(bs[k])) else None)
  {
    var items := Items(Some(bs), hasCoords, distance, byDistance);
    if hasCoords {
      var it := WithDistance(bs, distance)[k];
      assert it in multiset(items);
      var i :| 0 <= i < |items| && items[i] == it;
    } else {
      assert items[k] == Item(bs[k], None);
    }
  }

  /** `q`: the search text trimmed and lower-cased. */
  function Query(search: string): string {
    ToLower(Trim(search))
  }

  /** The text searched: name, a space and the municipality, lower-cased. */
  function Hay(b: Summary): string {
    ToLower(b.name + " " + b.municipality.GetOr(""))
  }

  /** The search predicate for the query `q`. */
  function Matches(q: string): Item -> bool {
    (it: Item) => Contains(Hay(it.beach), q)
  }

  /** `filteredBySearch`: an empty query keeps every item; otherwise the
      items whose text contains the query, in their order. */
  function SearchFilter(items: seq<Item>, search: string): (r: seq<Item>)
    ensures Query(search) == "" ==> r == items
    ensures forall it :: it in r <==> it in items && Contains(Hay(it.beach), Query(search))
    ensures |r| <= |items|
  {
    var q := Query(search);
    if q == "" then
      FilterKeepsAll(items, Matches(q));
      items
    else Filter(items, Matches(q))
  }

  /** The empty-query shortcut changes nothing: every text contains the
      empty string, so the search is always the plain filter. */
  lemma SearchIsFilter(items: seq<Item>, search: string)
    ensures SearchFilter(items, search) == Filter(items, Matches(Query(search)))
  {
    if Query(search) == "" {
      forall it | it in items ensures Matches("")(it) {
        ContainsAt(Hay(it.beach), "", 0);
      }
      FilterKeepsAll(items, Matches(""));
    }
  }

  /** The search keeps the items' order and drops, never repeats. */
  lemma SearchKeepsOrder(items: seq<Item>, search: string)
    ensures Subsequence(SearchFilter(items, search), items)
  {
    SearchIsFilter(items, search);
    FilterIsSubsequence(items, Matches(Query(search)));
  }

  /** Case and surrounding whitespace of the search text do not matter. */
  lemma SearchIgnoresCaseAndPadding(items: seq<Item>, search: string)
    ensures SearchFilter(items, ToLower(search)) == SearchFilter(items, search)
    ensures SearchFilter(items, Trim(search)) == SearchFilter(items, search)
  {
    calc {
      Query(ToLower(search));
      ToLower(Trim(ToLower(search)));
      { LowerTrimCommute(search); }
      ToLower(ToLower(Trim(search)));
      { ToLowerIdempotent(Trim(search)); }
      Query(search);
    }
    TrimIdempotent(search);
  }

  /** `typeof d === "number" ? d <= RADIUS_KM : true`: an item without a
      distance stays; `NaN` and `+Infinity` do not pass. */
  predicate WithinRadius(d: Option<Number>) {
    match d
    case None => true
    case Some(Finite(v)) => v <= RadiusKm
    case Some(NaN) => false
    case Some(Infinity(negative)) => negative
  }

  function Near(it: Item): bool {
    WithinRadius(it.distanceKm)
  }

  /** `filtered`: without a position the search result as it is; with
      one, only the items within the radius. */
  function RadiusFilter(items: seq<Item>, hasCoords: bool): (r: seq<Item>)
    ensures !hasCoords ==> r == items
    ensures hasCoords ==> forall it :: it in r <==> it in items && WithinRadius(it.distanceKm)
    ensures |r| <= |items|
  {
    if !hasCoords then items else Filter(items, Near)
  }

  /** The two filters may be applied in either order. */
  lemma FiltersCommute(items: seq<Item>, search: string, hasCoords: bool)
    ensures RadiusFilter(SearchFilter(items, search), hasCoords) ==
              SearchFilter(RadiusFilter(items, hasCoords), search)
  {
    SearchIsFilter(items, search);
    SearchIsFilter(RadiusFilter(items, hasCoords), search);
    if hasCoords {
      FilterCommute(items, Matches(Query(search)), Near);
    }
  }

  /** Without a position the radius filter never hides a beach, and
      with one it hides exactly the far ones. */
  lemma RadiusHidesOnlyFarBeaches(items: seq<Item>, it: Item)
    requires it in items
    ensures it in RadiusFilter(items, false)
    ensures it !in RadiusFilter(items, true) <==> !WithinRadius(it.distanceKm)
  {
  }

  /** The cards: the first fifty filtered items. */
  function Cards(filtered: seq<Item>): (cards: seq<Item>)
    ensures |cards| <= MaxCards
    ensures |filtered| <= MaxCards ==> cards == filtered
    ensures |filtered| > MaxCards ==> |cards| == MaxCards
    ensures forall i :: 0 <= i < |cards| ==> cards[i] == filtered[i]
  {
    Take(filtered, MaxCards)
  }

  /** What the list shows. */
  datatype View =
    | Loading
    | LoadFailed(message: string)
    | NoBeaches
    | NoMatches
    | Listing(points: seq<Item>, cards: seq<Item>)

  /** The states in the order the component checks them: loading, error
      (its message, or `Please try again.`), no items, no matches for a
      query or position, and the list with every filtered point on the map
      and the first cards. */
  function ViewOf(isLoading: bool, isError: bool, errorMessage: Option<string>,
                  items: seq<Item>, search: string, hasCoords: bool): (v: View)
    ensures v.Loading? <==> isLoading
    ensures v.LoadFailed? <==> !isLoading && isError
    ensures v.LoadFailed? ==> v.message == errorMessage.GetOr("Please try again.")
    ensures v.NoBeaches? <==> !isLoading && !isError && |items| == 0
    ensures v.Listing? ==> v.points == RadiusFilter(SearchFilter(items, search), hasCoords)
    ensures v.Listing? ==> v.cards == Cards(v.points)
  {
    if isLoading then Loading
    else if isError then LoadFailed(errorMessage.GetOr("Please try again."))
    else if |items| == 0 then NoBeaches
    else
      var filtered := RadiusFilter(SearchFilter(items, search), hasCoords);
      if (Query(search) != "" || hasCoords) && |filtered| == 0 then NoMatches
      else Listing(filtered, Cards(filtered))
  }

  /** A list is never shown empty: once the data has items, either some
      card is listed or the no-matches message is shown. */
  lemma ListingNeverEmpty(isLoading: bool, isError: bool, errorMessage: Option<string>,
                          items: seq<Item>, search: string, hasCoords: bool)
    ensures var v := ViewOf(isLoading, isError, errorMessage, items, search, hasCoords);
            v.Listing? ==> |v.cards| > 0
    ensures var v := ViewOf(isLoading, isError, errorMessage, items, search, hasCoords);
            v.NoMatches? <==> !isLoading && !isError && |items| > 0 &&
                              |RadiusFilter(SearchFilter(items, search), hasCoords)| == 0
  {
  }
}

=== FILE: beaches_route.dfy ===
/** The beaches routes in their two shipped versions: the TypeScript
    source (backend/src/routes/beaches.ts), which always asks the v2 service
    for the latest sample date, and the compiled build
    (backend/dist/routes/beaches.js), which prefers the v1 detail's own
    `sampleDate` and only falls back to v2. Each version runs on its own
    build of the upstream client. */
module BeachesRoute {
  import opened Js
  import opened Hav
  import C = Cache

  /** The v1 listing path and the routes' time-to-live, five minutes. */
  const ListPath: string := "/feature/?format=json"
  const RouteTtl: int := 5 * 60 * 1000

  /** The configured upstreams: the v1 base URL, the two v2 environment
      variables (`None` when unset), and what each URL replies. */
  datatype Upstreams = Upstreams(
    v1Base: string,
    havV2Base: Option<string>,
    havV2BaseUrl: Option<string>,
    v1: string -> Reply<Json>,
    v2: string -> Reply<Results>)

  /** The v2 base a build computes from the environment. */
  function V2BaseOf(build: Build, up: Upstreams): string {
    V2Base(build, up.havV2Base, up.havV2BaseUrl)
  }

  /** `GET /beaches`: the cached v1 listing, passed through untouched. */
  function List(build: Build, c: C.Cache<Json>, now: int, arrivedAt: int, up: Upstreams): (r: V1Result)
    ensures var hit := C.Get(c, Key(ListPath), now).value;
            hit.Some? && Truthy(hit.value) ==> r.outcome == Value(hit.value) && r.fetched.None?
    ensures var hit := C.Get(c, Key(ListPath), now).value;
            !(hit.Some? && Truthy(hit.value)) ==>
              && r.fetched == Some(up.v1Base + ListPath)
              && (r.outcome.Value? <==> up.v1(up.v1Base + ListPath).Received?)
              && (r.outcome.Value? ==> r.outcome.value == up.v1(up.v1Base + ListPath).body)
              && (r.outcome.Value? ==>
                    Key(ListPath) in r.cache.store &&
                    r.cache.store[Key(ListPath)] == C.Entry(r.outcome.value, arrivedAt + 300_000))
              && (r.outcome.Threw? ==> r.cache == C.Get(c, Key(ListPath), now).cache)
              && (up.v1(up.v1Base + ListPath).HttpError? ==>
                    var u := up.v1(up.v1Base + ListPath);
                    r.outcome == Threw(ErrorValue(V1ErrorMessage(build, u.status, u.statusText))))
              && (up.v1(up.v1Base + ListPath).Broken? ==>
                    r.outcome == Threw(ErrorValue(up.v1(up.v1Base + ListPath).message)))
  {
    var r := HavGet(build, c, now, arrivedAt, up.v1Base, ListPath, Some(RouteTtl), up.v1);
    assert r.outcome.Value? && r.fetched.Some? ==>
      r.cache.store[Key(ListPath)] == C.Entry(r.outcome.value, arrivedAt + RouteTtl);
    r
  }

  /** The v1 detail path of an id (`encode` is `encodeURIComponent`). */
  function DetailPath(encode: string -> string, id: string): string {
    "/detail/" + encode(id)
  }

  /** The JSON value of the `latestSampleDate` field: the ISO string or null. */
  function DateJson(latest: Option<string>): Json {
    if latest.Some? then JStr(latest.value) else JNull
  }

  /** `{ ...detail, latestSampleDate }`: the detail's own properties, with
      `latestSampleDate` set last, so it replaces any field of that name. */
  function Merge(detail: Json, latest: Option<string>): (m: Json)
    ensures m.JObj?
    ensures "latestSampleDate" in m.fields && m.fields["latestSampleDate"] == DateJson(latest)
    ensures forall k :: k != "latestSampleDate" ==>
              (k in m.fields <==> k in Spread(detail)) &&
              (k in m.fields ==> m.fields[k] == Spread(detail)[k])
  {
    JObj(Spread(detail)["latestSampleDate" := DateJson(latest)])
  }

  /** A detail request's effects: the cache afterwards, the settled
      response, and the v1 and v2 URLs requested. */
  datatype DetailResult = DetailResult(
    cache: C.Cache<Json>,
    response: Outcome<Json>,
    v1Fetched: Option<string>,
    v2Fetched: Option<string>)

  /** `GET /beaches/:id`, source version: v1 detail and v2 latest date are
      requested together; a v2 failure becomes `null`, a v1 failure fails
      the request. */
  function Detail(c: C.Cache<Json>, now: int, arrivedAt: int, up: Upstreams,
                  encode: string -> string, id: string): (r: DetailResult)
    ensures var v1 := HavGet(Source, c, now, arrivedAt, up.v1Base, DetailPath(encode, id), Some(RouteTtl), up.v1);
            var v2 := GetLatestSampleDate(Source, V2BaseOf(Source, up), encode, id, up.v2);
            && r.cache == v1.cache
            && r.v1Fetched == v1.fetched
            && r.v2Fetched == v2.fetched
            && (v1.outcome.Threw? ==> r.response == Threw(v1.outcome.error))
            && (v1.outcome.Value? && v2.outcome.Threw? ==>
                  r.response == Value(Merge(v1.outcome.value, None)))
            && (v1.outcome.Value? && v2.outcome.Value? ==>
                  r.response == Value(Merge(v1.outcome.value, v2.outcome.value)))
  {
    var v1 := HavGet(Source, c, now, arrivedAt, up.v1Base, DetailPath(encode, id), Some(RouteTtl), up.v1);
    var v2 := GetLatestSampleDate(Source, V2BaseOf(Source, up), encode, id, up.v2);
    var latest := if v2.outcome.Value? then v2.outcome.value else None;
    var response := match v1.outcome
      case Threw(e) => Threw(e)
      case Value(detail) => Value(Merge(detail, latest));
    DetailResult(v1.cache, response, v1.fetched, v2.fetched)
  }

  /** In the source version the v2 request does not depend on the detail:
      whatever v1 answers, the same v2 URL is requested. */
  lemma SourceAlwaysAsksV2(c: C.Cache<Json>, now: int, arrivedAt: int, up: Upstreams,
                           v1': string -> Reply<Json>, encode: string -> string, id: string)
    ensures Detail(c, now, arrivedAt, up, encode, id).v2Fetched
         == Detail(c, now, arrivedAt, up.(v1 := v1'), encode, id).v2Fetched
    ensures V2BaseOf(Source, up) != "" ==>
              Detail(c, now, arrivedAt, up, encode, id).v2Fetched ==
                Some(V2BaseOf(Source, up) + ResultsPath(encode(id)))
  {
  }

  /** A v2 failure never fails the request: when v1 succeeds the response
      succeeds, with `latestSampleDate: null`. */
  lemma SourceV2FailureDegrades(c: C.Cache<Json>, now: int, arrivedAt: int, up: Upstreams,
                                encode: string -> string, id: string)
    requires HavGet(Source, c, now, arrivedAt, up.v1Base, DetailPath(encode, id), Some(RouteTtl), up.v1).outcome.Value?
    requires V2BaseOf(Source, up) == "" || !up.v2(V2BaseOf(Source, up) + ResultsPath(encode(id))).Received?
    ensures var r := Detail(c, now, arrivedAt, up, encode, id).response;
            r.Value? && r.value.JObj? && r.value.fields["latestSampleDate"] == JNull
  {
  }

  /** The largest magnitude, in milliseconds, a `Date` can hold. */
  const MaxTimeMs: real := 8_640_000_000_000_000.0

  /** `ToIntegerOrInfinity` on a finite number: truncation toward zero. */
  function Truncate(x: real): (n: int)
    ensures x >= 0.0 ==> n as real <= x < n as real + 1.0
    ensures x < 0.0 ==> n as real - 1.0 < x <= n as real
  {
    if x >= 0.0 then x.Floor else -((-x).Floor)
  }

  /** `new Date(ms).toISOString()`: a time outside the `Date` range makes
      `toISOString` throw a `RangeError`; otherwise the truncated
      millisecond count is formatted by `iso`. */
  function IsoOfEpoch(ms: real, iso: int -> string): (r: Outcome<string>)
    ensures r.Threw? <==> (ms > MaxTimeMs || ms < -MaxTimeMs)
    ensures r.Value? ==> r.value == iso(Truncate(ms))
  {
    if ms > MaxTimeMs || ms < -MaxTimeMs then Threw(ErrorValue("Invalid time value"))
    else Value(iso(Truncate(ms)))
  }

  /** The v1 detail's own sample time, when it is a finite number. */
  function V1SampleMs(detail: Json): (ms: Option<real>)
    ensures ms.Some? <==> Property(detail, "sampleDate").Some? &&
                          Property(detail, "sampleDate").value.JNum? &&
                          Property(detail, "sampleDate").value.n.Finite?
  {
    match Property(detail, "sampleDate")
    case Some(JNum(Finite(ms))) => Some(ms)
    case _ => None
  }

  /** The compiled build's v1 detail request. */
  function DistV1(c: C.Cache<Json>, now: int, arrivedAt: int, up: Upstreams,
                  encode: string -> string, id: string): V1Result {
    HavGet(Compiled, c, now, arrivedAt, up.v1Base, DetailPath(encode, id), Some(RouteTtl), up.v1)
  }

  /** `GET /beaches/:id`, compiled version, on the compiled client: v1 first
      (its failure fails the request and nothing else is asked); a finite
      `sampleDate` is converted and v2 is not asked; otherwise v2 is asked
      and its failure leaves `latestSampleDate` null. */
  function DetailDist(c: C.Cache<Json>, now: int, arrivedAt: int, up: Upstreams,
                      encode: string -> string, iso: int -> string, id: string): (r: DetailResult)
    ensures var v1 := DistV1(c, now, arrivedAt, up, encode, id);
            && r.cache == v1.cache
            && r.v1Fetched == v1.fetched
            && (v1.outcome.Threw? ==> r.response == Threw(v1.outcome.error) && r.v2Fetched.None?)
    ensures var v1 := DistV1(c, now, arrivedAt, up, encode, id);
            v1.outcome.Value? && V1SampleMs(v1.outcome.value).Some? ==>
              && r.v2Fetched.None?
              && (var ms := V1SampleMs(v1.outcome.value).value;
                  && (r.response.Value? <==> IsoOfEpoch(ms, iso).Value?)
                  && (r.response.Value? ==>
                        r.response.value == Merge(v1.outcome.value, Some(iso(Truncate(ms))))))
    ensures var v1 := DistV1(c, now, arrivedAt, up, encode, id);
            var v2 := GetLatestSampleDate(Compiled, V2BaseOf(Compiled, up), encode, id, up.v2);
            v1.outcome.Value? && V1SampleMs(v1.outcome.value).None? ==>
              && r.v2Fetched == v2.fetched
              && r.response == Value(Merge(v1.outcome.value,
                                           if v2.outcome.Value? then v2.outcome.value else None))
  {
    var v1 := DistV1(c, now, arrivedAt, up, encode, id);
    match v1.outcome
    case Threw(e) => DetailResult(v1.cache, Threw(e), v1.fetched, None)
    case Value(detail) =>
      match V1SampleMs(detail)
      case Some(ms) =>
        var response := match IsoOfEpoch(ms, iso)
          case Threw(e) => Threw(e)
          case Value(date) => Value(Merge(detail, Some(date)));
        DetailResult(v1.cache, response, v1.fetched, None)
      case None =>
        var v2 := GetLatestSampleDate(Compiled, V2BaseOf(Compiled, up), encode, id, up.v2);
        var latest := if v2.outcome.Value? then v2.outcome.value else None;
        DetailResult(v1.cache, Value(Merge(detail, latest)), v1.fetched, v2.fetched)
  }

  /** Without a usable `sampleDate` and with `HAV_V2_BASE` set and
      non-empty, the two versions answer alike: same response, same cache,
      same requests. A v2 failure's differing messages never show, because
      both versions swallow it. */
  lemma VersionsAgreeWithoutSampleDate(c: C.Cache<Json>, now: int, arrivedAt: int, up: Upstreams,
                                       encode: string -> string, iso: int -> string, id: string)
    requires var v1 := HavGet(Source, c, now, arrivedAt, up.v1Base, DetailPath(encode, id), Some(RouteTtl), up.v1);
             v1.outcome.Value? && V1SampleMs(v1.outcome.value).None?
    requires StrTruthy(up.havV2Base)
    ensures DetailDist(c, now, arrivedAt, up, encode, iso, id) == Detail(c, now, arrivedAt, up, encode, id)
  {
    V1BuildsDifferOnlyInMessage(c, now, arrivedAt, up.v1Base, DetailPath(encode, id), Some(RouteTtl), up.v1);
    V2BasesAgree(up.havV2Base, up.havV2BaseUrl);
  }

  /** With neither v2 variable set the versions part ways: the source
      answers `latestSampleDate: null` without asking v2, while the build
      asks the default HaV v2 base and reports the date it finds there. */
  lemma UnsetV2BaseDiverges(c: C.Cache<Json>, now: int, arrivedAt: int, up: Upstreams,
                            encode: string -> string, iso: int -> string, id: string)
    requires var v1 := HavGet(Source, c, now, arrivedAt, up.v1Base, DetailPath(encode, id), Some(RouteTtl), up.v1);
             v1.outcome.Value? && V1SampleMs(v1.outcome.value).None?
    requires up.havV2Base.None? && !StrTruthy(up.havV2BaseUrl)
    ensures var src := Detail(c, now, arrivedAt, up, encode, id);
            src.v2Fetched.None? && src.response.Value? &&
            src.response.value.fields["latestSampleDate"] == JNull
    ensures var dist := DetailDist(c, now, arrivedAt, up, encode, iso, id);
            var url := DefaultV2Base + ResultsPath(encode(id));
            && dist.v2Fetched == Some(url)
            && (up.v2(url).Received? ==>
                  dist.response.Value? &&
                  dist.response.value.fields["latestSampleDate"] == DateJson(LatestTakenAt(up.v2(url).body)))
  {
    V1BuildsDifferOnlyInMessage(c, now, arrivedAt, up.v1Base, DetailPath(encode, id), Some(RouteTtl), up.v1);
  }

  /** A v1 failure fails both versions, leaves the same cache, and the
      build asks nothing of v2; the errors agree exactly when the request
      itself broke, since a non-ok status is worded differently. */
  lemma V1FailureFailsBoth(c: C.Cache<Json>, now: int, arrivedAt: int, up: Upstreams,
                           encode: string -> string, iso: int -> string, id: string)
    requires HavGet(Source, c, now, arrivedAt, up.v1Base, DetailPath(encode, id), Some(RouteTtl), up.v1).outcome.Threw?
    ensures var src := Detail(c, now, arrivedAt, up, encode, id);
            var dist := DetailDist(c, now, arrivedAt, up, encode, iso, id);
            && src.response.Threw? && dist.response.Threw?
            && dist.cache == src.cache
            && dist.v2Fetched.None?
            && (dist.response == src.response <==> !up.v1(up.v1Base + DetailPath(encode, id)).HttpError?)
  {
    V1BuildsDifferOnlyInMessage(c, now, arrivedAt, up.v1Base, DetailPath(encode, id), Some(RouteTtl), up.v1);
  }
}

=== FILE: cache.dfy ===
/** The process-local expiring cache (backend/src/lib/cache.ts): a map from
    key to value and absolute expiry time, expired lazily on read. Time is
    the caller's `now` (what `Date.now()` would return), in milliseconds. */
module Cache {
  import opened Js

  datatype Entry<V> = Entry(value: V, expiry: int)

  /** A cache instance: its store and the default time-to-live its
      constructor was given. */
  datatype Cache<V> = Cache(store: map<string, Entry<V>>, defaultTtl: int)

  /** The default time-to-live of the shared instance: 60 seconds. */
  const SharedDefaultTtl: int := 60_000

  /** `new SimpleCache(defaultTtl)`: an empty store. */
  function New<V>(defaultTtl: int): (c: Cache<V>)
    ensures c.store == map[] && c.defaultTtl == defaultTtl
  {
    Cache(map[], defaultTtl)
  }

  /** The module-level instance every upstream call shares. */
  function Shared<V>(): (c: Cache<V>)
    ensures c.store == map[] && c.defaultTtl == 60_000
  {
    New(SharedDefaultTtl)
  }

  /** An entry is still live at `now` while `now` has not passed its expiry;
      `now == expiry` is live. */
  predicate Live<V>(e: Entry<V>, now: int) {
    now <= e.expiry
  }

  /** The result of `get`: the value on a hit, and the store afterwards
      (a read past expiry deletes the entry). */
  datatype GetResult<V> = GetResult(cache: Cache<V>, value: Option<V>)

  /** `cache.get(key)` at time `now`. */
  function Get<V>(c: Cache<V>, key: string, now: int): (r: GetResult<V>)
    ensures r.value.Some? <==> key in c.store && Live(c.store[key], now)
    ensures r.value.Some? ==> r.value.value == c.store[key].value
    ensures r.cache.defaultTtl == c.defaultTtl
    ensures key in c.store && !Live(c.store[key], now) ==> r.cache.store == c.store - {key}
    ensures !(key in c.store && !Live(c.store[key], now)) ==> r.cache == c
  {
    if key !in c.store then GetResult(c, None)
    else
      var hit := c.store[key];
      if now > hit.expiry then GetResult(c.(store := c.store - {key}), None)
      else GetResult(c, Some(hit.value))
  }

  /** `cache.set(key, value, ttl)` at time `now`; an omitted `ttl` is the
      instance default. */
  function Set<V>(c: Cache<V>, key: string, value: V, ttl: Option<int>, now: int): (c': Cache<V>)
    ensures key in c'.store && c'.store[key].value == value
    ensures ttl.Some? ==> c'.store[key].expiry == now + ttl.value
    ensures ttl.None? ==> c'.store[key].expiry == now + c.defaultTtl
    ensures c'.store.Keys == c.store.Keys + {key}
    ensures forall k :: k in c.store && k != key ==> c'.store[k] == c.store[k]
    ensures c'.defaultTtl == c.defaultTtl
  {
    var t := match ttl case Some(t) => t case None => c.defaultTtl;
    c.(store := c.store[key := Entry(value, now + t)])
  }

  /** A key never set is a miss and the read changes nothing. */
  lemma GetMissing<V>(c: Cache<V>, key: string, now: int)
    requires key !in c.store
    ensures Get(c, key, now) == GetResult(c, None)
  {
  }

  /** After `set(k, v, ttl)` at time `t`, every read up to and including
      `t + ttl` is a hit returning `v`, and leaves the store as it was. */
  lemma SetThenGet<V>(c: Cache<V>, key: string, value: V, ttl: int, t: int, now: int)
    requires now <= t + ttl
    ensures Get(Set(c, key, value, Some(ttl), t), key, now).value == Some(value)
    ensures Get(Set(c, key, value, Some(ttl), t), key, now).cache == Set(c, key, value, Some(ttl), t)
  {
  }

  /** A read after expiry misses and evicts, so the next read misses too,
      whatever its time: an expired entry never comes back. */
  lemma ExpiredStaysGone<V>(c: Cache<V>, key: string, now: int, later: int)
    requires key in c.store && now > c.store[key].expiry
    ensures Get(c, key, now).value.None?
    ensures key !in Get(c, key, now).cache.store
    ensures Get(Get(c, key, now).cache, key, later).value.None?
  {
  }

  /** The second `set` of a key wins, value and expiry both. */
  lemma SetOverwrites<V>(c: Cache<V>, key: string, v1: V, v2: V, ttl1: Option<int>, ttl2: Option<int>, t1: int, t2: int)
    ensures Set(Set(c, key, v1, ttl1, t1), key, v2, ttl2, t2) == Set(c, key, v2, ttl2, t2)
  {
  }

  /** `get` and `set` on one key leave every other key's entry alone. */
  lemma OtherKeysUntouched<V>(c: Cache<V>, key: string, other: string, value: V, ttl: Option<int>, now: int)
    requires other != key
    ensures other in Get(c, key, now).cache.store <==> other in c.store
    ensures other in c.store ==> Get(c, key, now).cache.store[other] == c.store[other]
    ensures other in Set(c, key, value, ttl, now).store <==> other in c.store
    ensures other in c.store ==> Set(c, key, value, ttl, now).store[other] == c.store[other]
  {
  }

  /** On the shared instance an omitted time-to-live means 60 seconds. */
  lemma SharedDefault<V>(c: Cache<V>, key: string, value: V, now: int)
    requires c.defaultTtl == SharedDefaultTtl
    ensures Set(c, key, value, None, now).store[key].expiry == now + 60_000
  {
  }
}

=== FILE: detail_card.dfy ===
/** The stand-alone beach detail view
    (frontend/src/components/BeachDetailPage.tsx): a quality mapper that
    also reads English labels, the name and area fallbacks, the latest
    rating and the capped rating history. */
module DetailCard {
  import opened Js
  import opened Strings
  import opened Arrays
  import opened QualityClass
  import opened BeachTypes
  import FavoritesPage

  /** How many history rows are shown. */
  const HistoryRows: nat := 5

  /** `qualityClass`: a `switch` on the number; otherwise
      `String(q ?? "").toLowerCase()` checked for Swedish or English
      keywords in the order excellent, good, sufficient, poor. */
  function QualityClassOf(q: QualityInput): (k: Kpi)
    ensures q.QNum? ==> RatedAs(q.n, k)
    ensures q.QStr? ==> BestMention(ToLower(q.s), CardKeywords, k)
    ensures q.QAbsent? ==> k == Unknown
  {
    match q
    case QNum(n) =>
      if n == Finite(1.0) then Excellent
      else if n == Finite(2.0) then Good
      else if n == Finite(3.0) then Sufficient
      else if n == Finite(4.0) then Poor
      else Unknown
    case QStr(s) => ByText(ToLower(s))
    case QAbsent =>
      assert ToLower("") == "";
      assert !Contains("", "utmärkt") by { NotContainsChar("", "utmärkt", 0); }
      assert !Contains("", "excellent") by { NotContainsChar("", "excellent", 0); }
      assert !Contains("", "bra") by { NotContainsChar("", "bra", 0); }
      assert !Contains("", "good") by { NotContainsChar("", "good", 0); }
      assert !Contains("", "tillfreds") by { NotContainsChar("", "tillfreds", 0); }
      assert !Contains("", "sufficient") by { NotContainsChar("", "sufficient", 0); }
      assert !Contains("", "dålig") by { NotContainsChar("", "dålig", 0); }
      assert !Contains("", "poor") by { NotContainsChar("", "poor", 0); }
      ByText(ToLower(""))
  }

  function ByText(t: string): (k: Kpi)
    ensures BestMention(t, CardKeywords, k)
  {
    MentionsPair(t, CardKeywords(Excellent));
    MentionsPair(t, CardKeywords(Good));
    MentionsPair(t, CardKeywords(Sufficient));
    MentionsPair(t, CardKeywords(Poor));
    MentionsPair(t, CardKeywords(Unknown));
    if Contains(t, "utmärkt") || Contains(t, "excellent") then Excellent
    else if Contains(t, "bra") || Contains(t, "good") then Good
    else if Contains(t, "tillfreds") || Contains(t, "sufficient") then Sufficient
    else if Contains(t, "dålig") || Contains(t, "poor") then Poor
    else Unknown
  }

  /** On numbers, on a missing value and on texts without the English
      keywords, the card and the pages pick the same class. */
  lemma AgreesWithPagesWithoutEnglish(q: QualityInput)
    requires q.QStr? ==> !Contains(ToLower(q.s), "excellent") && !Contains(ToLower(q.s), "good")
    ensures QualityClassOf(q) == FavoritesPage.QualityClassOf(q)
  {
    match q
    case QNum(n) => RatedAsUnique(n, QualityClassOf(q), FavoritesPage.QualityClassOf(q));
    case QStr(s) =>
      var t := ToLower(s);
      TablesAgreeWithoutEnglish(t, QualityClassOf(q));
      BestMentionUnique(t, PageKeywords, QualityClassOf(q), FavoritesPage.QualityClassOf(q));
    case QAbsent =>
  }

  /** The English label `Good quality` colours the card's pill but leaves
      the pages' pills unknown. */
  lemma EnglishLabelDiverges()
    ensures QualityClassOf(QStr("Good quality")) == Good
    ensures FavoritesPage.QualityClassOf(QStr("Good quality")) == Unknown
  {
    LowerGoodQuality("Good quality");
    GoodQualityLetters("good quality");
    GoodQualityHasGood("good quality");
    GoodQualityKeywords("good quality");
    assert QualityClassOf(QStr("Good quality")) == ByText("good quality");
    assert FavoritesPage.QualityClassOf(QStr("Good quality")) == FavoritesPage.ByText("good quality");
  }

  lemma LowerGoodQuality(s: string)
    requires s == "Good quality"
    ensures ToLower(s) == "good quality"
  {
    assert |ToLower(s)| == 12;
  }

  lemma GoodQualityLetters(t: string)
    requires t == "good quality"
    ensures 'ä' !in t && 'b' !in t && 'f' !in t && 'x' !in t && 'å' !in t && 'p' !in t
  {
  }

  lemma GoodQualityHasGood(t: string)
    requires t == "good quality"
    ensures Contains(t, "good")
  {
    ContainsAt(t, "good", 0);
  }

  /** A text with `good` and without the letters ä, b, f, x, å and p is
      good on the card and unknown on the pages. */
  lemma GoodQualityKeywords(t: string)
    requires 'ä' !in t && 'b' !in t && 'f' !in t && 'x' !in t && 'å' !in t && 'p' !in t
    requires Contains(t, "good")
    ensures ByText(t) == Good
    ensures FavoritesPage.ByText(t) == Unknown
  {
    NoKeywordOfPages(t);
    NotContainsChar(t, "utmärkt", 3);
    NotContainsChar(t, "excellent", 1);
    NotContainsChar(t, "bra", 0);
  }

  /** A text without the letters ä, b, f, å and p names no class on the
      pages. */
  lemma NoKeywordOfPages(t: string)
    requires 'ä' !in t && 'b' !in t && 'f' !in t && 'å' !in t && 'p' !in t
    ensures FavoritesPage.ByText(t) == Unknown
  {
    NotContainsChar(t, "utmärkt", 3);
    NotContainsChar(t, "bra", 0);
    NotContainsChar(t, "tillfreds", 4);
    NotContainsChar(t, "sufficient", 2);
    NotContainsChar(t, "dålig", 1);
    NotContainsChar(t, "poor", 0);
  }

  /** `locationName ?? nutsCode`. */
  function Name(d: Detail): (s: string)
    ensures d.locationName.Some? ==> s == d.locationName.value
    ensures d.locationName.None? ==> s == d.nutsCode
  {
    d.locationName.GetOr(d.nutsCode)
  }

  /** `locationArea ?? "—"`. */
  function Area(d: Detail): (s: string)
    ensures d.locationArea.Some? ==> s == d.locationArea.value
    ensures d.locationArea.None? ==> s == "—"
  {
    d.locationArea.GetOr("—")
  }

  /** The pill: `qualityClass(classification ?? (classificationText ?? ""))`. */
  function Pill(d: Detail): (k: Kpi)
    ensures d.classification.Some? ==> RatedAs(d.classification.value, k)
    ensures d.classification.None? ==> BestMention(ToLower(d.classificationText.GetOr("")), CardKeywords, k)
  {
    QualityClassOf(NumberOrText(d.classification, d.classificationText.GetOr("")))
  }

  /** The pill text: the classification text when non-empty, else
      `Okänd kvalitet`. */
  function PillText(d: Detail): (s: string)
    ensures s != ""
    ensures StrTruthy(d.classificationText) ==> s == d.classificationText.value
    ensures !StrTruthy(d.classificationText) ==> s == "Okänd kvalitet"
  {
    var t := d.classificationText.GetOr("");
    if t != "" then t else "Okänd kvalitet"
  }

  /** `latestRating`: the first entry of a non-empty rating array. */
  function LatestRating(d: Detail): (r: Option<Rating>)
    ensures r.Some? <==> d.qualityRating.Some? && |d.qualityRating.value| > 0
    ensures r.Some? ==> r.value == d.qualityRating.value[0]
  {
    match d.qualityRating
    case Some(rs) => if |rs| > 0 then Some(rs[0]) else None
    case None => None
  }

  /** The history rows: the first five ratings, shown only when the
      array is non-empty. */
  function History(d: Detail): (rows: seq<Rating>)
    ensures |rows| <= HistoryRows
    ensures d.qualityRating.None? ==> rows == []
    ensures d.qualityRating.Some? ==>
              && |rows| == (if |d.qualityRating.value| < HistoryRows then |d.qualityRating.value| else HistoryRows)
              && forall i :: 0 <= i < |rows| ==> rows[i] == d.qualityRating.value[i]
  {
    match d.qualityRating
    case Some(rs) => Take(rs, HistoryRows)
    case None => []
  }

  /** The latest rating heads the history whenever there is one. */
  lemma LatestHeadsHistory(d: Detail)
    ensures LatestRating(d).Some? <==> |History(d)| > 0
    ensures LatestRating(d).Some? ==> History(d)[0] == LatestRating(d).value
  {
  }
}

=== FILE: detail_page.dfy ===
/** The beach detail page (frontend/src/pages/BeachDetailPage.tsx): its
    quality pill mapper, whether the beach is a favorite, what the
    favorite button does, and the fallbacks of the heading labels. Date
    formatting is a parameter. */
module DetailPage {
  import opened Js
  import opened Strings
  import opened QualityClass
  import opened BeachTypes
  import opened Arrays
  import FavoritesPage

  /** `qualityClass`: a `switch` on the number, `includes` checks on a
      lower-cased string, `kpi-unknown` for anything else. */
  function QualityClassOf(q: QualityInput): (k: Kpi)
    ensures q.QNum? ==> RatedAs(q.n, k)
    ensures q.QStr? ==> BestMention(ToLower(q.s), PageKeywords, k)
    ensures q.QAbsent? ==> k == Unknown
  {
    match q
    case QNum(n) =>
      if n == Finite(1.0) then Excellent
      else if n == Finite(2.0) then Good
      else if n == Finite(3.0) then Sufficient
      else if n == Finite(4.0) then Poor
      else Unknown
    case QStr(s) =>
      var t := ToLower(s);
      MentionsPair(t, PageKeywords(Excellent));
      MentionsPair(t, PageKeywords(Good));
      MentionsPair(t, PageKeywords(Sufficient));
      MentionsPair(t, PageKeywords(Poor));
      MentionsPair(t, PageKeywords(Unknown));
      if Contains(t, "utmärkt") then Excellent
      else if Contains(t, "bra") then Good
      else if Contains(t, "tillfreds") || Contains(t, "sufficient") then Sufficient
      else if Contains(t, "dålig") || Contains(t, "poor") then Poor
      else Unknown
    case QAbsent => Unknown
  }

  /** The detail page's `switch` and the favorites page's list lookup
      pick the same class for every input. */
  lemma AgreesWithFavoritesPage(q: QualityInput)
    ensures QualityClassOf(q) == FavoritesPage.QualityClassOf(q)
  {
    match q
    case QNum(n) => RatedAsUnique(n, QualityClassOf(q), FavoritesPage.QualityClassOf(q));
    case QStr(s) => BestMentionUnique(ToLower(s), PageKeywords, QualityClassOf(q), FavoritesPage.QualityClassOf(q));
    case QAbsent =>
  }

  /** A favorite as the client lists it: its document id and beach id. */
  datatype FavoriteRef = FavoriteRef(id: string, beachId: string)

  /** `favorites?.find(f => f.beachId === id)`. */
  function ExistingFavorite(favorites: Option<seq<FavoriteRef>>, beachId: string): (r: Option<FavoriteRef>)
    ensures r.Some? ==> favorites.Some? && r.value in favorites.value && r.value.beachId == beachId
    ensures r.None? <==> favorites.None? ||
                         forall i :: 0 <= i < |favorites.value| ==> favorites.value[i].beachId != beachId
    decreases if favorites.Some? then |favorites.value| else 0
  {
    match favorites
    case None => None
    case Some(fs) =>
      if |fs| == 0 then None
      else if fs[0].beachId == beachId then Some(fs[0])
      else
        var r := ExistingFavorite(Some(fs[1..]), beachId);
        assert forall i :: 1 <= i < |fs| ==> fs[i] == fs[1..][i - 1];
        r
  }

  /** `isFav`: some listed favorite has this beach id. */
  predicate IsFav(favorites: Option<seq<FavoriteRef>>, beachId: string) {
    ExistingFavorite(favorites, beachId).Some?
  }

  lemma IsFavIff(favorites: Option<seq<FavoriteRef>>, beachId: string)
    ensures IsFav(favorites, beachId) <==>
              favorites.Some? && exists i :: 0 <= i < |favorites.value| && favorites.value[i].beachId == beachId
  {
  }

  /** What a click on the favorite button does. */
  datatype Click =
    | GoToLogin
    | RemoveFavorite(favoriteId: string, beachId: string)
    | AddFavorite(beachId: string)

  /** `handleFavoriteClick`: without a token, go to the login page and do
      nothing else; with one, remove the existing favorite or add one. */
  function HandleFavoriteClick(token: Option<string>, favorites: Option<seq<FavoriteRef>>, beachId: string): (c: Click)
    ensures c.GoToLogin? <==> !StrTruthy(token)
    ensures c.RemoveFavorite? <==> StrTruthy(token) && IsFav(favorites, beachId)
    ensures c.AddFavorite? <==> StrTruthy(token) && !IsFav(favorites, beachId)
    ensures c.RemoveFavorite? ==>
              c.beachId == beachId &&
              exists f :: f in favorites.value && f.beachId == beachId && f.id == c.favoriteId
    ensures c.AddFavorite? ==> c.beachId == beachId
  {
    if !StrTruthy(token) then GoToLogin
    else match ExistingFavorite(favorites, beachId)
      case Some(f) => RemoveFavorite(f.id, beachId)
      case None => AddFavorite(beachId)
  }

  /** The refetched list after this beach's favorite is removed. */
  function Without(favorites: seq<FavoriteRef>, beachId: string): seq<FavoriteRef> {
    Filter(favorites, (f: FavoriteRef) => f.beachId != beachId)
  }

  /** Clicking twice with a favorites list that reflects the first click
      undoes it: an add is followed by a remove of the same beach, and a
      remove, once the list is refetched without it, by an add. */
  lemma ClickToggles(token: Option<string>, favorites: seq<FavoriteRef>, beachId: string, newId: string)
    requires StrTruthy(token)
    ensures var first := HandleFavoriteClick(token, Some(favorites), beachId);
            first.AddFavorite? ==>
              HandleFavoriteClick(token, Some(favorites + [FavoriteRef(newId, beachId)]), beachId).RemoveFavorite?
    ensures var first := HandleFavoriteClick(token, Some(favorites), beachId);
            first.RemoveFavorite? ==>
              HandleFavoriteClick(token, Some(Without(favorites, beachId)), beachId).AddFavorite?
  {
    var after := favorites + [FavoriteRef(newId, beachId)];
    assert after[|favorites|].beachId == beachId;
    var rest := Without(favorites, beachId);
    assert forall i :: 0 <= i < |rest| ==> rest[i] in rest;
  }

  /** A favorite's card and the beach's own page show the same pill once
      the details are in: both read the number first, then the text, and
      their fallback texts `Unknown` and `Okänd` name no class. */
  lemma PillMatchesFavoriteCard(beachId: string, d: Detail, formatDate: string -> string)
    ensures FavoritesPage.PillClass(FavoritesPage.Enrich(beachId, Some(d))) == HeadingOf(d, formatDate).pill
  {
    var e := FavoritesPage.Enrich(beachId, Some(d));
    var q := NumberOrText(d.classification, d.classificationText.GetOr("Okänd"));
    assert HeadingOf(d, formatDate).pill == QualityClassOf(q);
    AgreesWithFavoritesPage(q);
    if d.classification.Some? || d.classificationText.Some? {
      assert e.classification == q;
    } else {
      FallbacksNameNoClass(e.classificationText, q);
    }
  }

  /** Both fallback texts give the unknown pill. */
  lemma FallbacksNameNoClass(unknown: string, okand: QualityInput)
    requires unknown == "Unknown" && okand == QStr("Okänd")
    ensures FavoritesPage.QualityClassOf(QStr(unknown)) == Unknown
    ensures FavoritesPage.QualityClassOf(okand) == Unknown
  {
    FavoritesPage.LowerUnknown();
    FavoritesPage.UnknownNamesNoClass("unknown");
    OkandNamesNoClass();
  }

  /** The detail page's fallback text `Okänd` holds no keyword. */
  lemma OkandNamesNoClass()
    ensures FavoritesPage.QualityClassOf(QStr("Okänd")) == Unknown
  {
    LowerOkand();
    OkandNoKeyword("okänd");
  }

  lemma LowerOkand()
    ensures ToLower("Okänd") == "okänd"
  {
    var t := ToLower("Okänd");
    assert t[0] == LowerChar('O') == 'o';
    assert forall i :: 1 <= i < 5 ==> t[i] == "okänd"[i];
  }

  lemma OkandNoKeyword(t: string)
    requires t == "okänd"
    ensures FavoritesPage.ByText(t) == Unknown
  {
    OkandLetters(t);
    NotContainsChar(t, "utmärkt", 0);
    NotContainsChar(t, "bra", 0);
    NotContainsChar(t, "tillfreds", 0);
    NotContainsChar(t, "sufficient", 0);
    NotContainsChar(t, "dålig", 2);
    NotContainsChar(t, "poor", 0);
    FavoritesPage.NoKeywordNoClass(t);
  }

  lemma OkandLetters(t: string)
    requires t == "okänd"
    ensures 'b' !in t && 's' !in t && 'p' !in t && 'u' !in t && 't' !in t && 'l' !in t
  {
  }

  /** The heading of a loaded detail: title, municipality, quality text,
      pill class and the latest-sample label. */
  datatype Heading = Heading(title: string, muni: string, qualityText: string, pill: Kpi, sampleLabel: string)

  /** `locationName ?? "Beach"`, `locationArea ?? ""`,
      `classificationText ?? "Okänd"`, the pill from
      `classification ?? qualityText`, and the formatted
      `latestSampleDate` or `—` when it is missing or empty. */
  function HeadingOf(d: Detail, formatDate: string -> string): (h: Heading)
    ensures h.title == d.locationName.GetOr("Beach")
    ensures h.muni == d.locationArea.GetOr("")
    ensures h.qualityText == d.classificationText.GetOr("Okänd")
    ensures d.classification.Some? ==> RatedAs(d.classification.value, h.pill)
    ensures d.classification.None? ==> BestMention(ToLower(h.qualityText), PageKeywords, h.pill)
    ensures h.sampleLabel == "—" <==> !StrTruthy(d.latestSampleDate) || formatDate(d.latestSampleDate.value) == "—"
    ensures StrTruthy(d.latestSampleDate) ==> h.sampleLabel == formatDate(d.latestSampleDate.value)
  {
    var text := d.classificationText.GetOr("Okänd");
    Heading(d.locationName.GetOr("Beach"), d.locationArea.GetOr(""), text,
            QualityClassOf(NumberOrText(d.classification, text)),
            if StrTruthy(d.latestSampleDate) then formatDate(d.latestSampleDate.value) else "—")
  }
}

=== FILE: favorite_model.dfy ===
/** The favorites collection (backend/src/models/Favorite.ts): one document
    per (user, beach) pair, with an optional note, a manual order and
    timestamps. The database is a sequence of documents in insertion order
    plus the next fresh id; an `ObjectId` is modelled by a natural number. */
module FavoriteModel {
  import opened Js

  /** A stored favorite. The schema declares `userId` an `ObjectId`, so what
      is stored, indexed and compared is the id the owner's string casts
      to, not the string itself. */
  datatype Favorite = Favorite(
    id: nat,
    userId: nat,
    beachId: string,
    note: string,
    order: int,
    createdAt: int,
    updatedAt: int)

  /** Schema defaults for the fields a create may omit. */
  const DefaultNote: string := ""
  const DefaultOrder: int := 0

  /** The MongoDB duplicate-key error code. */
  const DuplicateKeyCode: int := 11000

  datatype Collection = Collection(rows: seq<Favorite>, nextId: nat)

  /** No two documents share an id, and no user has the same beach twice
      (the unique compound index on `userId` and `beachId`). */
  predicate Unique(rows: seq<Favorite>) {
    forall i, j :: 0 <= i < j < |rows| ==>
      rows[i].id != rows[j].id &&
      (rows[i].userId != rows[j].userId || rows[i].beachId != rows[j].beachId)
  }

  /** What the schema and the store guarantee of every document: the
      required beach id is present and every id was handed out already. */
  predicate Valid(c: Collection) {
    && Unique(c.rows)
    && forall i :: 0 <= i < |c.rows| ==> c.rows[i].id < c.nextId && c.rows[i].beachId != ""
  }

  /** Why `Favorite.create` rejects a document. */
  datatype WriteError =
    | DuplicateKey                        // the unique index already holds this (user, beach)
    | ValidationFailed(message: string)   // the owner does not cast, or the beach id is empty

  /** The `code` property of the rejection, as the route reads it. */
  function ErrorCode(e: WriteError): Option<int> {
    match e
    case DuplicateKey => Some(DuplicateKeyCode)
    case ValidationFailed(_) => None
  }

  datatype CreateResult = Inserted(coll: Collection, doc: Favorite) | Rejected(error: WriteError)

  /** Does the owner already have this beach? */
  predicate Holds(rows: seq<Favorite>, owner: nat, beachId: string) {
    exists i :: 0 <= i < |rows| && rows[i].userId == owner && rows[i].beachId == beachId
  }

  /** The `ObjectId` cast, passed in: `parseId(s)` is the id a string casts
      to, or `None` when it is not 24 hexadecimal digits (nor 12 bytes).
      The empty string does not cast either. Two spellings of one id (upper
      and lower case hexadecimal digits) cast to the same id. On strings of
      24 characters the cast is `ObjectId.Parse`; a string of 12 characters
      read as 12 bytes is why it stays a parameter. */
  predicate CastsToObjectId(s: string, parseId: string -> Option<nat>) {
    parseId(s).Some?
  }

  /** The text of the cast error for a value at `path` declared an
      `ObjectId`. */
  function CastText(value: string, path: string): string {
    "Cast to ObjectId failed for value \"" + value + "\" (type string) at path \"" + path + "\""
  }

  /** The error a query throws when a filter value does not cast: the cast
      error with the model named. */
  function CastMessage(value: string, path: string): string {
    CastText(value, path) + " for model \"Favorite\""
  }

  /** The text of the `required` validator's error. */
  function RequiredText(path: string): string {
    "Path `" + path + "` is required."
  }

  /** The validation error's message: the model's name, then each failing
      path with its error, in the order the paths were set, separated by
      a comma. The owner is cast when the document is built, so its error
      comes first. */
  function ValidationMessage(userId: string, beachId: string, parseId: string -> Option<nat>): string {
    var owner := "userId: " + CastText(userId, "userId");
    var beach := "beachId: " + RequiredText("beachId");
    "Favorite validation failed: " +
    if !CastsToObjectId(userId, parseId) && beachId == "" then owner + ", " + beach
    else if !CastsToObjectId(userId, parseId) then owner
    else beach
  }

  /** `Favorite.create({ userId, beachId, note })` at time `now`: validation
      first (a failed `ObjectId` cast of the owner is a validation error
      too), then the unique index on the cast owner and the beach; a new
      document stores the cast owner and gets the next id, the default
      order and both timestamps set to `now`. */
  function Create(c: Collection, userId: string, beachId: string, note: string, now: int,
                  parseId: string -> Option<nat>): (r: CreateResult)
    ensures r.Rejected? && r.error.ValidationFailed? <==> !CastsToObjectId(userId, parseId) || beachId == ""
    ensures r.Rejected? && r.error.ValidationFailed? ==>
              r.error.message == ValidationMessage(userId, beachId, parseId)
    ensures r.Rejected? && r.error == DuplicateKey <==>
              CastsToObjectId(userId, parseId) && beachId != "" && Holds(c.rows, parseId(userId).value, beachId)
    ensures r.Inserted? ==>
              && Some(r.doc.userId) == parseId(userId)
              && r.doc == Favorite(c.nextId, r.doc.userId, beachId, note, DefaultOrder, now, now)
              && r.coll == Collection(c.rows + [r.doc], c.nextId + 1)
  {
    if !CastsToObjectId(userId, parseId) || beachId == "" then
      Rejected(ValidationFailed(ValidationMessage(userId, beachId, parseId)))
    else
      var owner := parseId(userId).value;
      if Holds(c.rows, owner, beachId) then Rejected(DuplicateKey)
      else
        var doc := Favorite(c.nextId, owner, beachId, note, DefaultOrder, now, now);
        Inserted(Collection(c.rows + [doc], c.nextId + 1), doc)
  }

  /** An insert keeps the collection valid. */
  lemma CreatePreservesValid(c: Collection, userId: string, beachId: string, note: string, now: int,
                             parseId: string -> Option<nat>)
    requires Valid(c)
    requires Create(c, userId, beachId, note, now, parseId).Inserted?
    ensures Valid(Create(c, userId, beachId, note, now, parseId).coll)
  {
    var r := Create(c, userId, beachId, note, now, parseId);
    var rows := r.coll.rows;
    forall i, j | 0 <= i < j < |rows|
      ensures rows[i].id != rows[j].id
      ensures rows[i].userId != rows[j].userId || rows[i].beachId != rows[j].beachId
    {
      if j == |rows| - 1 {
        assert rows[i] == c.rows[i];
        if rows[i].userId == rows[j].userId && rows[i].beachId == beachId {
          assert Holds(c.rows, parseId(userId).value, beachId);
        }
      }
    }
  }

  /** The index of the first document satisfying `p`, in insertion order. */
  function FirstMatch(rows: seq<Favorite>, p: Favorite -> bool): (k: Option<nat>)
    ensures k.None? <==> forall i :: 0 <= i < |rows| ==> !p(rows[i])
    ensures k.Some? ==> k.value < |rows| && p(rows[k.value]) &&
                        forall i :: 0 <= i < k.value ==> !p(rows[i])
    decreases |rows|
  {
    if |rows| == 0 then None
    else if p(rows[0]) then Some(0)
    else
      match FirstMatch(rows[1..], p)
      case None => None
      case Some(k) => Some(k + 1)
  }

  /** The sequence without its `k`-th document. */
  function RemoveAt(rows: seq<Favorite>, k: nat): (r: seq<Favorite>)
    requires k < |rows|
    ensures |r| == |rows| - 1
    ensures multiset(r) + multiset{rows[k]} == multiset(rows)
    ensures forall i :: 0 <= i < k ==> r[i] == rows[i]
    ensures forall i :: k <= i < |r| ==> r[i] == rows[i + 1]
  {
    assert rows == rows[..k] + [rows[k]] + rows[k + 1..];
    rows[..k] + rows[k + 1..]
  }

  datatype DeleteResult = DeleteResult(coll: Collection, deleted: Option<Favorite>)

  /** `findOneAndDelete(filter)`: removes and returns the first document
      the filter matches, or nothing. */
  function FindOneAndDelete(c: Collection, p: Favorite -> bool): (r: DeleteResult)
    ensures r.deleted.None? <==> forall i :: 0 <= i < |c.rows| ==> !p(c.rows[i])
    ensures r.deleted.None? ==> r.coll == c
    ensures r.deleted.Some? ==>
              && p(r.deleted.value)
              && r.coll.nextId == c.nextId
              && multiset(r.coll.rows) + multiset{r.deleted.value} == multiset(c.rows)
  {
    match FirstMatch(c.rows, p)
    case None => DeleteResult(c, None)
    case Some(k) => DeleteResult(c.(rows := RemoveAt(c.rows, k)), Some(c.rows[k]))
  }

  /** A removal keeps the collection valid. */
  lemma DeletePreservesValid(c: Collection, p: Favorite -> bool)
    requires Valid(c)
    ensures Valid(FindOneAndDelete(c, p).coll)
  {
    match FirstMatch(c.rows, p)
    case None =>
    case Some(k) =>
      var rows := RemoveAt(c.rows, k);
      forall i, j | 0 <= i < j < |rows|
        ensures rows[i].id != rows[j].id
        ensures rows[i].userId != rows[j].userId || rows[i].beachId != rows[j].beachId
      {
        var i' := if i < k then i else i + 1;
        var j' := if j < k then j else j + 1;
        assert rows[i] == c.rows[i'] && rows[j] == c.rows[j'];
      }
      forall i | 0 <= i < |rows|
        ensures rows[i].id < c.nextId && rows[i].beachId != ""
      {
        var i' := if i < k then i else i + 1;
        assert rows[i] == c.rows[i'];
      }
  }

  /** In a valid collection a filter fixing the id, or fixing the user and
      the beach, matches at most one document, so which match
      `findOneAndDelete` picks does not matter. */
  lemma AtMostOneMatch(c: Collection, i: nat, j: nat)
    requires Valid(c)
    requires i < |c.rows| && j < |c.rows|
    requires c.rows[i].id == c.rows[j].id ||
             (c.rows[i].userId == c.rows[j].userId && c.rows[i].beachId == c.rows[j].beachId)
    ensures i == j
  {
  }
}

=== FILE: favorites_page.dfy ===
/** The favorites page (frontend/src/pages/FavoritesPage.tsx): its quality
    pill mapper, the custom order it keeps in local storage and reconciles
    with the favorites list, the ids it displays, the drag guard, the
    rollback of a failed reorder and the removal of a favorite from the
    order. Local storage, the collator sort of the name and municipality
    modes, `JSON.parse` and dnd-kit's `arrayMove` are parameters. */
module FavoritesPage {
  import opened Js
  import opened Strings
  import opened Arrays
  import opened QualityClass
  import opened BeachTypes

  /* ---------- quality pill ---------- */

  /** The class list `qualityClass` indexes with `q - 1`. */
  const ClassesByCode: seq<Kpi> := [Excellent, Good, Sufficient, Poor]

  /** `[…][q - 1] ?? "kpi-unknown"`: only a `q - 1` that is an integer
      index of the list reads an element. */
  function ByCode(n: Number): (k: Kpi)
    ensures RatedAs(n, k)
  {
    match n
    case Finite(v) =>
      var i := (v - 1.0).Floor;
      if (v - 1.0) == i as real && 0 <= i < |ClassesByCode| then ClassesByCode[i] else Unknown
    case _ => Unknown
  }

  /** The text branch: `includes` checks on the lower-cased text in the
      order excellent, good, sufficient, poor. */
  function ByText(t: string): (k: Kpi)
    ensures BestMention(t, PageKeywords, k)
  {
    MentionsPair(t, PageKeywords(Excellent));
    MentionsPair(t, PageKeywords(Good));
    MentionsPair(t, PageKeywords(Sufficient));
    MentionsPair(t, PageKeywords(Poor));
    MentionsPair(t, PageKeywords(Unknown));
    if Contains(t, "utmärkt") then Excellent
    else if Contains(t, "bra") then Good
    else if Contains(t, "tillfreds") || Contains(t, "sufficient") then Sufficient
    else if Contains(t, "dålig") || Contains(t, "poor") then Poor
    else Unknown
  }

  /** `qualityClass(q)`: a number by its code, anything else through
      `String(q ?? "").toLowerCase()`. */
  function QualityClassOf(q: QualityInput): (k: Kpi)
    ensures q.QNum? ==> RatedAs(q.n, k)
    ensures q.QStr? ==> BestMention(ToLower(q.s), PageKeywords, k)
    ensures q.QAbsent? ==> k == Unknown
  {
    match q
    case QNum(n) => ByCode(n)
    case QStr(s) => ByText(ToLower(s))
    case QAbsent =>
      assert !Contains("", "utmärkt") by { NotContainsChar("", "utmärkt", 0); }
      assert !Contains("", "bra") by { NotContainsChar("", "bra", 0); }
      assert !Contains("", "tillfreds") by { NotContainsChar("", "tillfreds", 0); }
      assert !Contains("", "sufficient") by { NotContainsChar("", "sufficient", 0); }
      assert !Contains("", "dålig") by { NotContainsChar("", "dålig", 0); }
      assert !Contains("", "poor") by { NotContainsChar("", "poor", 0); }
      ByText(ToLower(""))
  }

  /** What the page knows of one favorite beach once its details are in:
      the name (`locationName`, else the beach id), the municipality (else
      empty), the classification (`classification ?? classificationText`)
      and the text the pill shows (else `Unknown`). */
  datatype Entry = Entry(name: string, muni: string, classification: QualityInput, classificationText: string)

  function Enrich(beachId: string, info: Option<Detail>): (e: Entry)
    ensures info.None? ==> e == Entry(beachId, "", QAbsent, "Unknown")
    ensures info.Some? ==>
              && e.name == info.value.locationName.GetOr(beachId)
              && e.muni == info.value.locationArea.GetOr("")
              && e.classificationText == info.value.classificationText.GetOr("Unknown")
              && (info.value.classification.Some? ==> e.classification == QNum(info.value.classification.value))
              && (info.value.classification.None? && info.value.classificationText.Some? ==>
                    e.classification == QStr(info.value.classificationText.value))
              && (e.classification.QAbsent? <==> info.value.classification.None? && info.value.classificationText.None?)
  {
    match info
    case None => Entry(beachId, "", QAbsent, "Unknown")
    case Some(d) =>
      var c := match d.classification
        case Some(n) => QNum(n)
        case None => match d.classificationText
          case Some(t) => QStr(t)
          case None => QAbsent;
      Entry(d.locationName.GetOr(beachId), d.locationArea.GetOr(""), c, d.classificationText.GetOr("Unknown"))
  }

  /** `qualityClass(classification ?? classificationText)`. */
  function PillClass(e: Entry): (k: Kpi)
    ensures e.classification.QAbsent? ==> BestMention(ToLower(e.classificationText), PageKeywords, k)
    ensures !e.classification.QAbsent? ==> k == QualityClassOf(e.classification)
  {
    if e.classification.QAbsent? then QualityClassOf(QStr(e.classificationText))
    else QualityClassOf(e.classification)
  }

  /** A favorite whose details have not arrived shows its beach id, no
      municipality, the text `Unknown` and the unknown pill. */
  lemma NotLoadedEntry(beachId: string)
    ensures Enrich(beachId, None) == Entry(beachId, "", QAbsent, "Unknown")
    ensures PillClass(Enrich(beachId, None)) == Unknown
  {
    var e := Enrich(beachId, None);
    assert e == Entry(beachId, "", QAbsent, "Unknown");
    LowerUnknown();
    UnknownNamesNoClass("unknown");
    assert PillClass(e) == ByText(ToLower("Unknown"));
  }

  /** The fallback text `unknown` holds no keyword. */
  lemma UnknownNamesNoClass(t: string)
    requires t == "unknown"
    ensures ByText(t) == Unknown
  {
    UnknownLetters(t);
    NotContainsChar(t, "utmärkt", 3);
    NotContainsChar(t, "bra", 0);
    NotContainsChar(t, "tillfreds", 4);
    NotContainsChar(t, "sufficient", 0);
    NotContainsChar(t, "dålig", 0);
    NotContainsChar(t, "poor", 0);
    NoKeywordNoClass(t);
  }

  lemma UnknownLetters(t: string)
    requires t == "unknown"
    ensures 'ä' !in t && 'b' !in t && 'f' !in t && 's' !in t && 'd' !in t && 'p' !in t
  {
  }

  /** A text that holds none of the keywords names no class. */
  lemma NoKeywordNoClass(t: string)
    requires !Contains(t, "utmärkt") && !Contains(t, "bra")
    requires !Contains(t, "tillfreds") && !Contains(t, "sufficient")
    requires !Contains(t, "dålig") && !Contains(t, "poor")
    ensures ByText(t) == Unknown
  {
  }

  lemma LowerUnknown()
    ensures ToLower("Unknown") == "unknown"
  {
    var t := ToLower("Unknown");
    assert t[0] == LowerChar('U') == 'u';
    assert forall i :: 1 <= i < 7 ==> t[i] == "unknown"[i];
  }

  /* ---------- custom order ---------- */

  /** The storage key of the sort mode and of the custom order. */
  const SortKey: string := "favoritesSort"
  const OrderKey: string := "favoritesOrder:v1"

  /** The initial sort mode: the stored string, unchecked, else `name`. */
  function InitialSortBy(stored: Option<string>): (s: string)
    ensures stored.Some? ==> s == stored.value
    ensures stored.None? ==> s == "name"
  {
    stored.GetOr("name")
  }

  /** The initial custom order: a truthy stored value is parsed, otherwise
      the order is empty. `parse` stands for `JSON.parse(raw) as string[]`
      read as a list of ids: it gives `None` where `JSON.parse` throws. The
      cast is not checked at run time, so a stored value that is valid JSON
      but not an array of strings has no list to give and lies outside the
      model. */
  function InitialOrder(raw: Option<string>, parse: string -> Option<seq<string>>): (order: seq<string>)
    ensures !StrTruthy(raw) ==> order == []
    ensures StrTruthy(raw) && parse(raw.value).None? ==> order == []
    ensures StrTruthy(raw) && parse(raw.value).Some? ==> order == parse(raw.value).value
  {
    if !StrTruthy(raw) then []
    else parse(raw.value).GetOr([])
  }

  /** `id` is one of the current favorites' beach ids. */
  function In(ids: seq<string>): string -> bool {
    (id: string) => id in ids
  }

  /** `id` is not yet in the order. */
  function NotIn(ids: seq<string>): string -> bool {
    (id: string) => id !in ids
  }

  /** The reconciliation effect: the stored order followed by the favorites
      it does not know yet, then restricted to current favorites. */
  function Reconcile(order: seq<string>, favIds: seq<string>): (r: seq<string>)
    ensures forall id :: id in r ==> id in favIds
    ensures forall id :: id in favIds ==> id in r
  {
    Filter(order + Filter(favIds, NotIn(order)), In(favIds))
  }

  /** The reconciled order is the stored order restricted to current
      favorites, followed by the new favorites in list order. */
  lemma ReconcileSplits(order: seq<string>, favIds: seq<string>)
    ensures Reconcile(order, favIds) == Filter(order, In(favIds)) + Filter(favIds, NotIn(order))
  {
    var newIds := Filter(favIds, NotIn(order));
    FilterConcat(order, newIds, In(favIds));
    FilterKeepsAll(newIds, In(favIds));
  }

  /** Stored ids keep their relative order, and so do the new ones. */
  lemma ReconcileKeepsOrder(order: seq<string>, favIds: seq<string>)
    ensures var r := Reconcile(order, favIds);
            var kept := Filter(order, In(favIds));
            && |kept| <= |r| && r[..|kept|] == kept && Subsequence(kept, order)
            && Subsequence(r[|kept|..], favIds)
  {
    ReconcileSplits(order, favIds);
    var kept := Filter(order, In(favIds));
    var newIds := Filter(favIds, NotIn(order));
    var r := Reconcile(order, favIds);
    assert r[..|kept|] == kept && r[|kept|..] == newIds;
    FilterIsSubsequence(order, In(favIds));
    FilterIsSubsequence(favIds, NotIn(order));
  }

  /** Reconciling a reconciled order changes nothing. */
  lemma ReconcileIdempotent(order: seq<string>, favIds: seq<string>)
    ensures Reconcile(Reconcile(order, favIds), favIds) == Reconcile(order, favIds)
  {
    ReconcileFixed(Reconcile(order, favIds), favIds);
  }

  /** `setOrder` is called only when the reconciled order differs (the
      JSON text of two string arrays is equal exactly when the arrays are),
      and not at all while the favorites are loading. */
  function ReconcileEffect(order: seq<string>, favorites: Option<seq<string>>): (update: Option<seq<string>>)
    ensures favorites.None? ==> update.None?
    ensures favorites.Some? ==>
              (update.None? <==> Reconcile(order, favorites.value) == order)
    ensures update.Some? ==> update.value == Reconcile(order, favorites.value)
  {
    match favorites
    case None => None
    case Some(favIds) =>
      var filtered := Reconcile(order, favIds);
      if filtered != order then Some(filtered) else None
  }

  /** After one update the effect settles: running it again on the new
      order with the same favorites makes no further update. */
  lemma ReconcileSettles(order: seq<string>, favorites: Option<seq<string>>)
    ensures var next := ReconcileEffect(order, favorites).GetOr(order);
            ReconcileEffect(next, favorites).None?
  {
    if favorites.Some? {
      ReconcileIdempotent(order, favorites.value);
    }
  }

  /* ---------- display ---------- */

  /** The two collator-sorted modes. */
  datatype SortField = ByName | ByMunicipality

  /** `displayIds`: nothing while loading; in `custom` mode with a
      non-empty order, the order restricted to current favorites; otherwise
      the favorites sorted by name when the mode is `name` and by
      municipality for any other mode. `arrange` is the collator sort. */
  function DisplayIds(favorites: Option<seq<string>>, sortBy: string, order: seq<string>,
                      arrange: (SortField, seq<string>) -> seq<string>): (ids: seq<string>)
    ensures favorites.None? ==> ids == []
    ensures favorites.Some? && sortBy == "custom" && |order| > 0 ==>
              Subsequence(ids, order) && forall id :: id in ids <==> id in order && id in favorites.value
    ensures favorites.Some? && !(sortBy == "custom" && |order| > 0) ==>
              ids == arrange(if sortBy == "name" then ByName else ByMunicipality, favorites.value)
  {
    match favorites
    case None => []
    case Some(favIds) =>
      if sortBy == "custom" && |order| > 0 then
        FilterIsSubsequence(order, In(favIds));
        Filter(order, In(favIds))
      else arrange(if sortBy == "name" then ByName else ByMunicipality, favIds)
  }

  /** In custom mode a reconciled order is displayed as it is: every
      favorite, in the user's order. */
  lemma CustomModeShowsReconciledOrder(order: seq<string>, favIds: seq<string>,
                                       arrange: (SortField, seq<string>) -> seq<string>)
    requires |favIds| > 0
    ensures var r := Reconcile(order, favIds);
            DisplayIds(Some(favIds), "custom", r, arrange) == r
  {
    var r := Reconcile(order, favIds);
    assert favIds[0] in r;
    FilterKeepsAll(r, In(favIds));
  }

  /** Custom mode with an empty order falls back to the municipality
      sort, not the name sort. */
  lemma EmptyCustomOrderSortsByMunicipality(favIds: seq<string>,
                                            arrange: (SortField, seq<string>) -> seq<string>)
    ensures DisplayIds(Some(favIds), "custom", [], arrange) == arrange(ByMunicipality, favIds)
  {
  }

  /* ---------- drag and drop ---------- */

  /** A drop: the dragged id and the id under the pointer, if any. */
  datatype DragEvent = DragEvent(active: string, over: Option<string>)

  /** `onDragEnd`: `None` when a guard returns early, otherwise the new
      order `arrayMove(order, oldIndex, newIndex)` it sets. */
  function DragEnd(sortBy: string, order: seq<string>, e: DragEvent,
                   move: (seq<string>, nat, nat) -> seq<string>): (next: Option<seq<string>>)
    ensures next.Some? <==>
              && sortBy == "custom" && e.over.Some? && e.active != e.over.value
              && e.active in order && e.over.value in order
    ensures next.Some? ==>
              var from, to := IndexOf(order, e.active), IndexOf(order, e.over.value);
              && 0 <= from < |order| && order[from] == e.active
              && 0 <= to < |order| && order[to] == e.over.value
              && next.value == move(order, from, to)
  {
    if sortBy != "custom" then None
    else if e.over.None? || e.active == e.over.value then None
    else
      var oldIndex, newIndex := IndexOf(order, e.active), IndexOf(order, e.over.value);
      if oldIndex == -1 || newIndex == -1 then None
      else Some(move(order, oldIndex, newIndex))
  }

  /** The order after a drop and the reorder request it sends: the new
      order when the request succeeds, the pre-drag order when it fails. */
  function AfterPersist(order: seq<string>, e: DragEvent, sortBy: string,
                        move: (seq<string>, nat, nat) -> seq<string>, persisted: bool): (r: seq<string>)
    ensures DragEnd(sortBy, order, e, move).None? ==> r == order
    ensures !persisted ==> r == order
    ensures persisted && DragEnd(sortBy, order, e, move).Some? ==> r == DragEnd(sortBy, order, e, move).value
  {
    match DragEnd(sortBy, order, e, move)
    case None => order
    case Some(next) => if persisted then next else order
  }

  /* ---------- removal ---------- */

  /** `x !== id`. */
  function Other(id: string): string -> bool {
    (x: string) => x != id
  }

  /** After a favorite is removed, its id leaves the order and every other
      id keeps its place and its count. */
  function RemoveFromOrder(order: seq<string>, id: string): (r: seq<string>)
    ensures id !in r
    ensures forall x :: x != id ==> multiset(r)[x] == multiset(order)[x]
    ensures Subsequence(r, order)
  {
    FilterIsSubsequence(order, Other(id));
    FilterCounts(order, Other(id));
    Filter(order, Other(id))
  }

  /** Removing an id from a reconciled order gives what reconciliation
      would give once the favorite is gone, so the next reconciliation
      after the refetch changes nothing. */
  lemma RemoveMatchesReconcile(order: seq<string>, favIds: seq<string>, id: string)
    ensures var r := RemoveFromOrder(Reconcile(order, favIds), id);
            Reconcile(r, Filter(favIds, Other(id))) == r
  {
    var full := Reconcile(order, favIds);
    var r := RemoveFromOrder(full, id);
    var left := Filter(favIds, Other(id));
    assert forall x :: x in r <==> x in full && x != id;
    assert forall x :: x in left <==> x in favIds && x != id;
    ReconcileFixed(r, left);
  }

  /** An order holding exactly the current favorites is already
      reconciled. */
  lemma ReconcileFixed(r: seq<string>, favIds: seq<string>)
    requires forall x :: x in r <==> x in favIds
    ensures Reconcile(r, favIds) == r
  {
    FilterDropsAll(favIds, NotIn(r));
    FilterKeepsAll(r, In(favIds));
    assert r + [] == r;
  }
}

=== FILE: favorites_route.dfy ===
/** The favorites routes of the TypeScript source
    (backend/src/routes/favorites.ts): list, add and delete-by-id, all on
    behalf of the authenticated user whose id the token carries. A request
    either settles with a response or throws; a thrown error reaches the
    error handler as Express 5 forwards a rejected async handler.
    `Handled` records the collection afterwards as well. Every
    query and write casts the user id to an `ObjectId` (`parseId`): a token
    subject that does not cast makes each route throw, and two subjects
    that cast to the same id are the same owner. */
module FavoritesRoute {
  import opened Js
  import opened FavoriteModel
  import ObjectId

  /** The longest note the body schema accepts. */
  const NoteMaxLength: nat := 500

  /** The fields the body schema keeps; any other field is dropped. */
  datatype CreateBody = CreateBody(beachId: string, note: Option<string>)

  /** What a response carries: a stored document, a list of them,
      `{ ok: true }`, `{ error: code }`, or `{ error: "InvalidBody",
      details }` with the schema's report on the rejected body. */
  datatype Body =
    | Doc(fav: Favorite)
    | Docs(favs: seq<Favorite>)
    | Acknowledged
    | Failure(error: string)
    | InvalidBody(details: Json)

  datatype Response = Response(status: nat, body: Body)

  datatype Handled = Handled(coll: Collection, reply: Outcome<Response>)

  predicate BeachIdAccepted(fields: map<string, Json>) {
    "beachId" in fields && fields["beachId"].JStr? && |fields["beachId"].s| >= 1
  }

  predicate NoteAccepted(fields: map<string, Json>) {
    "note" !in fields || (fields["note"].JStr? && |fields["note"].s| <= NoteMaxLength)
  }

  /** `zCreate.safeParse(body)`: an object whose `beachId` is a non-empty
      string and whose `note`, if present, is a string of at most 500
      characters. */
  function ParseCreate(body: Json): (r: Option<CreateBody>)
    ensures r.Some? <==> body.JObj? && BeachIdAccepted(body.fields) && NoteAccepted(body.fields)
    ensures r.Some? ==> r.value.beachId == body.fields["beachId"].s && r.value.beachId != ""
    ensures r.Some? ==> (r.value.note.Some? <==> "note" in body.fields)
    ensures r.Some? && r.value.note.Some? ==>
              r.value.note.value == body.fields["note"].s && |r.value.note.value| <= NoteMaxLength
  {
    match body
    case JObj(fs) =>
      if BeachIdAccepted(fs) && NoteAccepted(fs) then
        Some(CreateBody(fs["beachId"].s, if "note" in fs then Some(fs["note"].s) else None))
      else None
    case _ => None
  }

  /** Fields other than `beachId` and `note` play no part in the parse: a
      body cannot choose the owner, the order or the id. */
  lemma ParseIgnoresOtherFields(fields: map<string, Json>, key: string, value: Json)
    requires key != "beachId" && key != "note"
    ensures ParseCreate(JObj(fields[key := value])) == ParseCreate(JObj(fields))
  {
    var fs' := fields[key := value];
    assert "beachId" in fs' <==> "beachId" in fields;
    assert "note" in fs' <==> "note" in fields;
  }

  /** The message of the validation error `POST /favorites` rethrows for an
      owner that does not cast (the body schema has already ruled out an
      empty beach id). */
  function OwnerRejected(userId: string): string {
    "Favorite validation failed: userId: " + CastText(userId, "userId")
  }

  /** With a beach id present, only the owner's path fails validation. */
  lemma OwnerOnlyMessage(userId: string, beachId: string, parseId: string -> Option<nat>)
    requires beachId != ""
    ensures !CastsToObjectId(userId, parseId) ==> ValidationMessage(userId, beachId, parseId) == OwnerRejected(userId)
  {
  }

  /** `POST /favorites`: validate (a rejected body is 400 `InvalidBody`
      with the flattened schema error, `flatten`, passed in, as details),
      create with `note ?? ""`, and answer 201 with the document; a duplicate is 409 `AlreadyFavorited`; any
      other write error (an owner that is not an `ObjectId`) is rethrown. */
  function Add(c: Collection, userId: string, body: Json, flatten: Json -> Json, now: int,
               parseId: string -> Option<nat>): (h: Handled)
    ensures ParseCreate(body).None? ==> h == Handled(c, Value(Response(400, InvalidBody(flatten(body)))))
    ensures ParseCreate(body).Some? ==>
              var p := ParseCreate(body).value;
              && (h.reply.Value? && h.reply.value.status == 201 <==>
                    CastsToObjectId(userId, parseId) && !Holds(c.rows, parseId(userId).value, p.beachId))
              && (h.reply.Value? && h.reply.value.status == 201 ==>
                    && h.reply.value.body.Doc?
                    && var doc := h.reply.value.body.fav;
                       && Some(doc.userId) == parseId(userId)
                       && doc == Favorite(c.nextId, doc.userId, p.beachId, p.note.GetOr(DefaultNote), DefaultOrder, now, now)
                       && h.coll.rows == c.rows + [doc])
              && (h.reply == Value(Response(409, Failure("AlreadyFavorited"))) <==>
                    CastsToObjectId(userId, parseId) && Holds(c.rows, parseId(userId).value, p.beachId))
              && (h.reply.Threw? <==> !CastsToObjectId(userId, parseId))
              && (h.reply.Threw? ==> h.reply.error == ErrorValue(OwnerRejected(userId)))
    ensures !(h.reply.Value? && h.reply.value.status == 201) ==> h.coll == c
  {
    match ParseCreate(body)
    case None => Handled(c, Value(Response(400, InvalidBody(flatten(body)))))
    case Some(p) =>
      match Create(c, userId, p.beachId, p.note.GetOr(DefaultNote), now, parseId)
      case Inserted(c', doc) => Handled(c', Value(Response(201, Doc(doc))))
      case Rejected(e) =>
        if ErrorCode(e) == Some(DuplicateKeyCode) then
          Handled(c, Value(Response(409, Failure("AlreadyFavorited"))))
        else
          OwnerOnlyMessage(userId, p.beachId, parseId);
          Handled(c, Threw(ErrorValue(e.message)))
  }

  /** `sort({ order: 1, createdAt: -1 })`: `a` may come before `b`. */
  predicate ListedBefore(a: Favorite, b: Favorite) {
    a.order < b.order || (a.order == b.order && a.createdAt >= b.createdAt)
  }

  predicate SortedForListing(xs: seq<Favorite>) {
    forall i, j :: 0 <= i < j < |xs| ==> ListedBefore(xs[i], xs[j])
  }

  function InsertListed(x: Favorite, ys: seq<Favorite>): (r: seq<Favorite>)
    requires SortedForListing(ys)
    ensures |r| == |ys| + 1
    ensures SortedForListing(r)
    ensures multiset(r) == multiset(ys) + multiset{x}
    ensures r[0] == x || (|ys| > 0 && r[0] == ys[0])
    decreases |ys|
  {
    if |ys| == 0 then [x]
    else if ListedBefore(x, ys[0]) then [x] + ys
    else
      var rest := InsertListed(x, ys[1..]);
      assert ListedBefore(ys[0], rest[0]);
      assert forall k :: 0 <= k < |rest| ==> ListedBefore(ys[0], rest[k]) by {
        forall k | 0 < k < |rest| ensures ListedBefore(ys[0], rest[k]) {
          assert ListedBefore(rest[0], rest[k]);
        }
      }
      assert ys == [ys[0]] + ys[1..];
      [ys[0]] + rest
  }

  /** The database's sort, as an insertion sort; documents equal on both
      keys may come out in any order in the database, so the contract of
      `List` states only order and contents. */
  function SortForListing(xs: seq<Favorite>): (ys: seq<Favorite>)
    ensures SortedForListing(ys)
    ensures multiset(ys) == multiset(xs)
    decreases |xs|
  {
    if |xs| == 0 then []
    else
      assert xs == [xs[0]] + xs[1..];
      InsertListed(xs[0], SortForListing(xs[1..]))
  }

  /** `find({ userId })` once the user id has cast to `owner`: the owner's
      documents, in insertion order. */
  function OwnedBy(rows: seq<Favorite>, owner: nat): (r: seq<Favorite>)
    ensures forall f: Favorite :: multiset(r)[f] == if f.userId == owner then multiset(rows)[f] else 0
    decreases |rows|
  {
    if |rows| == 0 then []
    else
      assert rows == [rows[0]] + rows[1..];
      var rest := OwnedBy(rows[1..], owner);
      if rows[0].userId == owner then [rows[0]] + rest else rest
  }

  /** `GET /favorites`: every document of the user and no other, ordered by
      `order` ascending and, within equal `order`, newest first; a user id
      that does not cast makes the query throw. */
  function List(c: Collection, userId: string, parseId: string -> Option<nat>): (r: Outcome<Response>)
    ensures r.Threw? <==> !CastsToObjectId(userId, parseId)
    ensures r.Threw? ==> r.error == ErrorValue(CastMessage(userId, "userId"))
    ensures r.Value? ==> r.value.status == 200 && r.value.body.Docs?
    ensures r.Value? ==> SortedForListing(r.value.body.favs)
    ensures r.Value? ==> forall f: Favorite ::
              multiset(r.value.body.favs)[f] == if Some(f.userId) == parseId(userId) then multiset(c.rows)[f] else 0
  {
    if !CastsToObjectId(userId, parseId) then Threw(ErrorValue(CastMessage(userId, "userId")))
    else Value(Response(200, Docs(SortForListing(OwnedBy(c.rows, parseId(userId).value)))))
  }

  /** The delete filter `{ _id: id, userId }` once both have cast. */
  function IdFilter(id: nat, owner: nat): Favorite -> bool {
    (f: Favorite) => f.id == id && f.userId == owner
  }

  /** `DELETE /favorites/:id`: the filter's path id and then its user id
      are cast to `ObjectId`s (a failed cast throws), and only a document
      that has this id AND belongs to the user is deleted; otherwise 404. */
  function DeleteById(c: Collection, userId: string, rawId: string, parseId: string -> Option<nat>): (h: Handled)
    ensures parseId(rawId).None? ==> h == Handled(c, Threw(ErrorValue(CastMessage(rawId, "_id"))))
    ensures parseId(rawId).Some? && !CastsToObjectId(userId, parseId) ==>
              h == Handled(c, Threw(ErrorValue(CastMessage(userId, "userId"))))
    ensures parseId(rawId).Some? && CastsToObjectId(userId, parseId) ==>
              var id := parseId(rawId).value;
              var owner := parseId(userId).value;
              && (h.reply == Value(Response(200, Acknowledged)) <==>
                    exists i :: 0 <= i < |c.rows| && c.rows[i].id == id && c.rows[i].userId == owner)
              && (h.reply != Value(Response(200, Acknowledged)) ==>
                    h == Handled(c, Value(Response(404, Failure("NotFound")))))
              && (h.reply == Value(Response(200, Acknowledged)) ==>
                    exists f: Favorite :: f.id == id && f.userId == owner &&
                      multiset(h.coll.rows) + multiset{f} == multiset(c.rows))
    ensures forall f: Favorite :: Some(f.userId) != parseId(userId) ==>
              multiset(h.coll.rows)[f] == multiset(c.rows)[f]
    ensures h.coll.nextId == c.nextId
  {
    match parseId(rawId)
    case None => Handled(c, Threw(ErrorValue(CastMessage(rawId, "_id"))))
    case Some(id) =>
      if !CastsToObjectId(userId, parseId) then Handled(c, Threw(ErrorValue(CastMessage(userId, "userId"))))
      else DeleteMatching(c, IdFilter(id, parseId(userId).value))
  }

  /** `findOneAndDelete(filter)` answered as both delete routes answer it:
      `{ ok: true }` when a document went, 404 `NotFound` otherwise. */
  function DeleteMatching(c: Collection, p: Favorite -> bool): (h: Handled)
    ensures h.reply == Value(Response(200, Acknowledged)) <==> exists i :: 0 <= i < |c.rows| && p(c.rows[i])
    ensures h.reply != Value(Response(200, Acknowledged)) ==>
              h == Handled(c, Value(Response(404, Failure("NotFound"))))
    ensures h.reply == Value(Response(200, Acknowledged)) ==>
              exists f: Favorite :: p(f) && multiset(h.coll.rows) + multiset{f} == multiset(c.rows)
    ensures forall f: Favorite :: !p(f) ==> multiset(h.coll.rows)[f] == multiset(c.rows)[f]
    ensures h.coll.nextId == c.nextId
  {
    var d := FindOneAndDelete(c, p);
    match d.deleted
    case None => Handled(c, Value(Response(404, Failure("NotFound"))))
    case Some(f) => Handled(d.coll, Value(Response(200, Acknowledged)))
  }

  /** Every route keeps the collection valid. */
  lemma RoutesPreserveValid(c: Collection, userId: string, body: Json, flatten: Json -> Json, now: int,
                            rawId: string, parseId: string -> Option<nat>)
    requires Valid(c)
    ensures Valid(Add(c, userId, body, flatten, now, parseId).coll)
    ensures Valid(DeleteById(c, userId, rawId, parseId).coll)
  {
    if ParseCreate(body).Some? {
      var p := ParseCreate(body).value;
      if Create(c, userId, p.beachId, p.note.GetOr(DefaultNote), now, parseId).Inserted? {
        CreatePreservesValid(c, userId, p.beachId, p.note.GetOr(DefaultNote), now, parseId);
      }
    }
    if parseId(rawId).Some? && CastsToObjectId(userId, parseId) {
      DeletePreservesValid(c, IdFilter(parseId(rawId).value, parseId(userId).value));
    }
  }

  /** Favoriting the same beach twice: the first request creates, the
      second is 409 `AlreadyFavorited` and changes nothing. */
  lemma AddTwiceConflicts(c: Collection, userId: string, body: Json, flatten: Json -> Json, now: int, later: int,
                          parseId: string -> Option<nat>)
    requires Add(c, userId, body, flatten, now, parseId).reply.Value?
    requires Add(c, userId, body, flatten, now, parseId).reply.value.status == 201
    ensures var c' := Add(c, userId, body, flatten, now, parseId).coll;
            Add(c', userId, body, flatten, later, parseId) == Handled(c', Value(Response(409, Failure("AlreadyFavorited"))))
  {
    var c' := Add(c, userId, body, flatten, now, parseId).coll;
    var p := ParseCreate(body).value;
    var owner := parseId(userId).value;
    assert c'.rows[|c'.rows| - 1].userId == owner && c'.rows[|c'.rows| - 1].beachId == p.beachId;
    assert Holds(c'.rows, owner, p.beachId);
  }

  /** A created favorite is in the creator's list and in the list of no
      one whose id casts to another owner. */
  lemma AddedIsListed(c: Collection, userId: string, other: string, body: Json, flatten: Json -> Json, now: int,
                      parseId: string -> Option<nat>)
    requires Add(c, userId, body, flatten, now, parseId).reply.Value?
    requires Add(c, userId, body, flatten, now, parseId).reply.value.status == 201
    requires parseId(other) != parseId(userId)
    ensures var h := Add(c, userId, body, flatten, now, parseId);
            && List(h.coll, userId, parseId).Value?
            && h.reply.value.body.fav in List(h.coll, userId, parseId).value.body.favs
            && (List(h.coll, other, parseId).Value? ==>
                  h.reply.value.body.fav !in List(h.coll, other, parseId).value.body.favs)
  {
    var h := Add(c, userId, body, flatten, now, parseId);
    var doc := h.reply.value.body.fav;
    assert multiset(h.coll.rows)[doc] > 0;
    assert multiset(List(h.coll, userId, parseId).value.body.favs)[doc] > 0;
    if List(h.coll, other, parseId).Value? {
      assert multiset(List(h.coll, other, parseId).value.body.favs)[doc] == 0;
    }
  }

  /** Adding a favorite and deleting it by the id it was given leaves the
      user's documents as they were. */
  lemma AddThenDeleteRestores(c: Collection, userId: string, body: Json, flatten: Json -> Json, now: int,
                              rawId: string, parseId: string -> Option<nat>)
    requires Valid(c)
    requires Add(c, userId, body, flatten, now, parseId).reply.Value?
    requires Add(c, userId, body, flatten, now, parseId).reply.value.status == 201
    requires parseId(rawId) == Some(Add(c, userId, body, flatten, now, parseId).reply.value.body.fav.id)
    ensures var c' := Add(c, userId, body, flatten, now, parseId).coll;
            var h := DeleteById(c', userId, rawId, parseId);
            h.reply == Value(Response(200, Acknowledged)) && h.coll.rows == c.rows
  {
    var c' := Add(c, userId, body, flatten, now, parseId).coll;
    var doc := Add(c, userId, body, flatten, now, parseId).reply.value.body.fav;
    var p := IdFilter(doc.id, doc.userId);
    assert c'.rows == c.rows + [doc];
    assert forall i :: 0 <= i < |c.rows| ==> !p(c'.rows[i]) by {
      forall i | 0 <= i < |c.rows| ensures !p(c'.rows[i]) {
        assert c'.rows[i] == c.rows[i];
      }
    }
    assert p(c'.rows[|c.rows|]);
    var k := FirstMatch(c'.rows, p);
    assert k == Some(|c.rows|);
    assert RemoveAt(c'.rows, |c.rows|) == c.rows;
  }

  /** A second delete of the same id finds nothing. */
  lemma DeleteTwiceNotFound(c: Collection, userId: string, rawId: string, parseId: string -> Option<nat>)
    requires Valid(c)
    requires DeleteById(c, userId, rawId, parseId).reply == Value(Response(200, Acknowledged))
    ensures var c' := DeleteById(c, userId, rawId, parseId).coll;
            DeleteById(c', userId, rawId, parseId) == Handled(c', Value(Response(404, Failure("NotFound"))))
  {
    var id := parseId(rawId).value;
    var p := IdFilter(id, parseId(userId).value);
    var k := FirstMatch(c.rows, p).value;
    var c' := DeleteById(c, userId, rawId, parseId).coll;
    assert c'.rows == RemoveAt(c.rows, k);
    forall i | 0 <= i < |c'.rows|
      ensures !p(c'.rows[i])
    {
      var i' := if i < k then i else i + 1;
      assert c'.rows[i] == c.rows[i'];
    }
  }

  /** A token subject that is not an `ObjectId` gets no answer from any
      favorites route but an error: listing, adding a well-formed body and
      deleting by a well-formed id all throw, and nothing changes. */
  lemma MalformedSubjectThrows(c: Collection, userId: string, body: Json, flatten: Json -> Json, now: int,
                               rawId: string, parseId: string -> Option<nat>)
    requires !CastsToObjectId(userId, parseId)
    ensures List(c, userId, parseId).Threw?
    ensures ParseCreate(body).Some? ==> Add(c, userId, body, flatten, now, parseId) == Handled(c, Threw(ErrorValue(OwnerRejected(userId))))
    ensures DeleteById(c, userId, rawId, parseId).reply.Threw? && DeleteById(c, userId, rawId, parseId).coll == c
  {
  }

  /** The owner is the id the subject casts to, not its spelling: two
      subjects that cast to the same id (say one in upper-case and one in
      lower-case hexadecimal digits) see the same list, delete the same
      documents and share the unique index, so once one of them has added
      a beach the other's add of it is 409 `AlreadyFavorited`. */
  lemma OwnerIsTheCastId(c: Collection, a: string, b: string, body: Json, flatten: Json -> Json, now: int, later: int,
                         rawId: string, parseId: string -> Option<nat>)
    requires parseId(a).Some? && parseId(a) == parseId(b)
    ensures List(c, a, parseId) == List(c, b, parseId)
    ensures DeleteById(c, a, rawId, parseId) == DeleteById(c, b, rawId, parseId)
    ensures Add(c, a, body, flatten, now, parseId) == Add(c, b, body, flatten, now, parseId)
    ensures var h := Add(c, a, body, flatten, now, parseId);
            h.reply.Value? && h.reply.value.status == 201 ==>
              Add(h.coll, b, body, flatten, later, parseId) == Handled(h.coll, Value(Response(409, Failure("AlreadyFavorited"))))
  {
    var h := Add(c, a, body, flatten, now, parseId);
    if h.reply.Value? && h.reply.value.status == 201 {
      AddTwiceConflicts(c, b, body, flatten, now, later, parseId);
    }
  }

  /** The subject a login signs, `String(user._id)`, casts back to the
      user's id wherever the cast agrees with the hexadecimal form: the
      list is that user's documents, and an add never throws and files the
      new document under that user. */
  lemma SignedSubjectIsOwner(c: Collection, id: nat, body: Json, flatten: Json -> Json, now: int,
                             parseId: string -> Option<nat>)
    requires id < ObjectId.Bound
    requires forall s :: |s| == ObjectId.Width ==> parseId(s) == ObjectId.Parse(s)
    ensures parseId(ObjectId.ToString(id)) == Some(id)
    ensures var r := List(c, ObjectId.ToString(id), parseId);
            r.Value? && forall f: Favorite ::
              multiset(r.value.body.favs)[f] == if f.userId == id then multiset(c.rows)[f] else 0
    ensures var h := Add(c, ObjectId.ToString(id), body, flatten, now, parseId);
            && !h.reply.Threw?
            && (h.reply.Value? && h.reply.value.status == 201 ==> h.reply.value.body.fav.userId == id)
  {
    ObjectId.ToStringRoundTrip(id);
  }
}

=== FILE: favorites_route_dist.dfy ===
/** The favorites routes of the compiled build
    (backend/dist/routes/favorites.js). Listing and adding behave as in the
    source; delete-by-id checks the path id before it reaches the database,
    and a second delete route removes a favorite by its beach id. */
module FavoritesRouteDist {
  import opened Js
  import opened FavoriteModel
  import opened FavoritesRoute

  /** `DELETE /favorites/:id`: an empty id is 400 `MissingId`, an id that
      is not an `ObjectId` is 400 `InvalidId`; then as in the source, so
      the only throw left is the cast of the user id. */
  function DeleteByIdChecked(c: Collection, userId: string, rawId: string,
                             parseId: string -> Option<nat>): (h: Handled)
    ensures rawId == "" ==> h == Handled(c, Value(Response(400, Failure("MissingId"))))
    ensures rawId != "" && parseId(rawId).None? ==>
              h == Handled(c, Value(Response(400, Failure("InvalidId"))))
    ensures h.reply.Threw? <==> rawId != "" && parseId(rawId).Some? && !CastsToObjectId(userId, parseId)
    ensures h.reply.Threw? ==> h == Handled(c, Threw(ErrorValue(CastMessage(userId, "userId"))))
    ensures rawId != "" && parseId(rawId).Some? && CastsToObjectId(userId, parseId) ==>
              var id := parseId(rawId).value;
              var owner := parseId(userId).value;
              && (h.reply == Value(Response(200, Acknowledged)) <==>
                    exists i :: 0 <= i < |c.rows| && c.rows[i].id == id && c.rows[i].userId == owner)
              && (h.reply != Value(Response(200, Acknowledged)) ==>
                    h == Handled(c, Value(Response(404, Failure("NotFound")))))
    ensures forall f: Favorite :: Some(f.userId) != parseId(userId) ==>
              multiset(h.coll.rows)[f] == multiset(c.rows)[f]
  {
    if rawId == "" then Handled(c, Value(Response(400, Failure("MissingId"))))
    else match parseId(rawId)
      case None => Handled(c, Value(Response(400, Failure("InvalidId"))))
      case Some(id) =>
        if !CastsToObjectId(userId, parseId) then Handled(c, Threw(ErrorValue(CastMessage(userId, "userId"))))
        else DeleteMatching(c, IdFilter(id, parseId(userId).value))
  }

  /** For a well-formed id the build and the source answer alike; for a
      malformed one the build answers 400 where the source throws. */
  lemma CheckedDeleteAgrees(c: Collection, userId: string, rawId: string, parseId: string -> Option<nat>)
    requires rawId != ""
    ensures parseId(rawId).Some? ==>
              DeleteByIdChecked(c, userId, rawId, parseId) == DeleteById(c, userId, rawId, parseId)
    ensures parseId(rawId).None? ==>
              DeleteById(c, userId, rawId, parseId).reply.Threw? &&
              DeleteByIdChecked(c, userId, rawId, parseId).reply == Value(Response(400, Failure("InvalidId")))
  {
  }

  /** The delete filter `{ beachId, userId }` once the user id has cast. */
  function BeachFilter(beachId: string, owner: nat): Favorite -> bool {
    (f: Favorite) => f.beachId == beachId && f.userId == owner
  }

  /** `DELETE /favorites/by-beach/:beachId`: removes the user's favorite of
      that beach, or 404 `NotFound` when the user has none; a user id that
      does not cast throws. */
  function DeleteByBeach(c: Collection, userId: string, beachId: string, parseId: string -> Option<nat>): (h: Handled)
    ensures !CastsToObjectId(userId, parseId) ==> h == Handled(c, Threw(ErrorValue(CastMessage(userId, "userId"))))
    ensures h.reply == Value(Response(200, Acknowledged)) <==>
              CastsToObjectId(userId, parseId) && Holds(c.rows, parseId(userId).value, beachId)
    ensures CastsToObjectId(userId, parseId) && h.reply != Value(Response(200, Acknowledged)) ==>
              h == Handled(c, Value(Response(404, Failure("NotFound"))))
    ensures h.reply == Value(Response(200, Acknowledged)) ==>
              exists f: Favorite :: f.beachId == beachId && Some(f.userId) == parseId(userId) &&
                multiset(h.coll.rows) + multiset{f} == multiset(c.rows)
    ensures forall f: Favorite :: Some(f.userId) != parseId(userId) || f.beachId != beachId ==>
              multiset(h.coll.rows)[f] == multiset(c.rows)[f]
  {
    if !CastsToObjectId(userId, parseId) then Handled(c, Threw(ErrorValue(CastMessage(userId, "userId"))))
    else
      var owner := parseId(userId).value;
      var h := DeleteMatching(c, BeachFilter(beachId, owner));
      assert h.reply == Value(Response(200, Acknowledged)) ==> Holds(c.rows, owner, beachId);
      h
  }

  /** After deleting by beach the user no longer holds the beach, so it
      can be favorited again (a user id that does not cast changes
      nothing). */
  lemma DeleteByBeachFrees(c: Collection, userId: string, beachId: string, parseId: string -> Option<nat>)
    requires Valid(c)
    ensures Valid(DeleteByBeach(c, userId, beachId, parseId).coll)
    ensures CastsToObjectId(userId, parseId) ==>
              !Holds(DeleteByBeach(c, userId, beachId, parseId).coll.rows, parseId(userId).value, beachId)
  {
    if !CastsToObjectId(userId, parseId) { return; }
    var owner := parseId(userId).value;
    var p := BeachFilter(beachId, owner);
    DeletePreservesValid(c, p);
    match FirstMatch(c.rows, p)
    case None =>
    case Some(k) =>
      var rows := DeleteByBeach(c, userId, beachId, parseId).coll.rows;
      assert rows == RemoveAt(c.rows, k);
      forall i | 0 <= i < |rows|
        ensures !(rows[i].userId == owner && rows[i].beachId == beachId)
      {
        var i' := if i < k then i else i + 1;
        assert rows[i] == c.rows[i'];
      }
  }

  /** The build's routes keep the collection valid. */
  lemma DistRoutesPreserveValid(c: Collection, userId: string, rawId: string,
                                parseId: string -> Option<nat>, beachId: string)
    requires Valid(c)
    ensures Valid(DeleteByIdChecked(c, userId, rawId, parseId).coll)
    ensures Valid(DeleteByBeach(c, userId, beachId, parseId).coll)
  {
    if CastsToObjectId(userId, parseId) {
      DeletePreservesValid(c, BeachFilter(beachId, parseId(userId).value));
      if rawId != "" && parseId(rawId).Some? {
        DeletePreservesValid(c, IdFilter(parseId(rawId).value, parseId(userId).value));
      }
    }
  }
}

=== FILE: hav.dfy ===
/** The upstream client in its two shipped versions, the TypeScript source
    (backend/src/lib/hav.ts) and the compiled build (backend/dist/lib/hav.js):
    the cached v1 fetcher, the uncached v2 fetcher and the latest-sample-date
    selection. The versions differ in their error messages and in how the
    v2 base is configured. The network is a function from URL to reply;
    `Date.now()` is a parameter. */
module Hav {
  import opened Js
  import opened Strings
  import C = Cache

  /** What one request to an upstream URL yields. `HttpError` is a response
      whose status is not ok, with the text its body reads as (`""` when
      even that fails); `Broken` is a network failure or a success response
      whose body is not valid JSON, with the error's message. */
  datatype Reply<T> =
    | Received(body: T)
    | HttpError(status: nat, statusText: string, text: string)
    | Broken(message: string)

  /** Which version of the client runs. */
  datatype Build = Source | Compiled

  /** `havGet`'s default time-to-live: five minutes. */
  const DefaultTtl: int := 5 * 60 * 1000

  /** The prefix of every v1 cache key. */
  const KeyPrefix: string := "hav:v1:"

  /** The cache key of a v1 path, `key(`v1:${path}`)`. */
  function Key(path: string): (k: string)
    ensures StartsWith(k, KeyPrefix) && k[|KeyPrefix|..] == path
  {
    "hav:" + ("v1:" + path)
  }

  /** Different paths never share a cache entry. */
  lemma KeyInjective(p: string, q: string)
    requires Key(p) == Key(q)
    ensures p == q
  {
    assert p == Key(p)[|KeyPrefix|..];
  }

  /** The state and answer after one `havGet`: the cache afterwards, the
      settled promise, and the URL fetched (`None` on a cache hit). */
  datatype V1Result = V1Result(cache: C.Cache<Json>, outcome: Outcome<Json>, fetched: Option<string>)

  /** The message `havGet` throws for a non-ok response. */
  function V1ErrorMessage(build: Build, status: nat, statusText: string): string {
    match build
    case Source => "HaV API error: " + NatToString(status) + " " + statusText
    case Compiled => "HaV v1 error " + NatToString(status) + " " + statusText
  }

  /** The two versions never throw the same message for a non-ok v1 reply:
      the fifth character is `A` in one and `v` in the other. */
  lemma V1ErrorMessagesDiffer(status: nat, statusText: string, status': nat, statusText': string)
    ensures V1ErrorMessage(Source, status, statusText) != V1ErrorMessage(Compiled, status', statusText')
  {
    var s := V1ErrorMessage(Source, status, statusText);
    var d := V1ErrorMessage(Compiled, status', statusText');
    PrefixChar("HaV API error: ", NatToString(status) + " " + statusText, 4, 'A');
    PrefixChar("HaV v1 error ", NatToString(status') + " " + statusText', 4, 'v');
    assert s == "HaV API error: " + (NatToString(status) + " " + statusText);
    assert d == "HaV v1 error " + (NatToString(status') + " " + statusText');
  }

  /** The character at `i` of a literal prefix survives the concatenation. */
  lemma PrefixChar(p: string, rest: string, i: nat, ch: char)
    requires i < |p| && p[i] == ch
    ensures (p + rest)[i] == ch
  {
  }

  /** `havGet(path, ttl)`: a truthy cached value is returned without a
      request; otherwise `base + path` is fetched, and only a successful
      JSON body is stored, under `Key(path)`, for `ttl` (default five
      minutes) from the moment the reply arrived (`arrivedAt`). */
  function HavGet(build: Build, c: C.Cache<Json>, now: int, arrivedAt: int, base: string, path: string,
                  ttl: Option<int>, upstream: string -> Reply<Json>): (r: V1Result)
    ensures var hit := C.Get(c, Key(path), now).value;
            hit.Some? && Truthy(hit.value) ==>
              r == V1Result(c, Value(hit.value), None)
    ensures var hit := C.Get(c, Key(path), now).value;
            !(hit.Some? && Truthy(hit.value)) ==>
              && r.fetched == Some(base + path)
              && (upstream(base + path).Received? ==>
                    && r.outcome == Value(upstream(base + path).body)
                    && r.cache.store == C.Get(c, Key(path), now).cache.store[Key(path) :=
                         C.Entry(upstream(base + path).body, arrivedAt + ttl.GetOr(DefaultTtl))])
              && (!upstream(base + path).Received? ==>
                    && r.outcome.Threw?
                    && r.cache == C.Get(c, Key(path), now).cache)
              && (upstream(base + path).HttpError? ==>
                    r.outcome.error == ErrorValue(V1ErrorMessage(build,
                      upstream(base + path).status, upstream(base + path).statusText)))
              && (upstream(base + path).Broken? ==>
                    r.outcome.error == ErrorValue(upstream(base + path).message))
  {
    var k := Key(path);
    var g := C.Get(c, k, now);
    if g.value.Some? && Truthy(g.value.value) then V1Result(g.cache, Value(g.value.value), None)
    else
      var url := base + path;
      match upstream(url)
      case Received(data) =>
        V1Result(C.Set(g.cache, k, data, Some(ttl.GetOr(DefaultTtl)), arrivedAt), Value(data), Some(url))
      case HttpError(status, statusText, _) =>
        V1Result(g.cache, Threw(ErrorValue(V1ErrorMessage(build, status, statusText))), Some(url))
      case Broken(message) =>
        V1Result(g.cache, Threw(ErrorValue(message)), Some(url))
  }

  /** A falsy cached value (`null`, `0`, `""`, `false`) is treated as a miss:
      the upstream is asked again. */
  lemma FalsyCachedValueRefetched(build: Build, c: C.Cache<Json>, now: int, arrivedAt: int, base: string, path: string,
                                  ttl: Option<int>, upstream: string -> Reply<Json>)
    requires Key(path) in c.store && C.Live(c.store[Key(path)], now)
    requires !Truthy(c.store[Key(path)].value)
    ensures HavGet(build, c, now, arrivedAt, base, path, ttl, upstream).fetched == Some(base + path)
  {
  }

  /** On a cold cache, a successful truthy reply is stored, and the same
      request before expiry is answered from the cache with the same
      payload and no second request. */
  lemma SecondCallHitsCache(build: Build, c: C.Cache<Json>, now: int, arrivedAt: int, later: int, base: string, path: string,
                            ttl: Option<int>, upstream: string -> Reply<Json>, upstream': string -> Reply<Json>)
    requires Key(path) !in c.store
    requires upstream(base + path).Received? && Truthy(upstream(base + path).body)
    requires later <= arrivedAt + ttl.GetOr(DefaultTtl)
    ensures var first := HavGet(build, c, now, arrivedAt, base, path, ttl, upstream);
            var second := HavGet(build, first.cache, later, later, base, path, ttl, upstream');
            first.outcome.Value? && second.fetched.None? && second.outcome == first.outcome
  {
    var first := HavGet(build, c, now, arrivedAt, base, path, ttl, upstream);
    assert first.cache.store[Key(path)] ==
      C.Entry(upstream(base + path).body, arrivedAt + ttl.GetOr(DefaultTtl));
  }

  /** Both versions fetch alike and cache alike; their settled promises
      differ exactly when the upstream was asked and answered with a non-ok
      status, whose message each version words its own way. */
  lemma V1BuildsDifferOnlyInMessage(c: C.Cache<Json>, now: int, arrivedAt: int, base: string, path: string,
                                    ttl: Option<int>, upstream: string -> Reply<Json>)
    ensures var s := HavGet(Source, c, now, arrivedAt, base, path, ttl, upstream);
            var d := HavGet(Compiled, c, now, arrivedAt, base, path, ttl, upstream);
            && s.cache == d.cache && s.fetched == d.fetched
            && (s.outcome.Value? <==> d.outcome.Value?)
            && (s.outcome != d.outcome <==> s.fetched.Some? && upstream(base + path).HttpError?)
  {
    var u := upstream(base + path);
    if u.HttpError? {
      V1ErrorMessagesDiffer(u.status, u.statusText, u.status, u.statusText);
    }
  }

  /** The compiled build's v2 base when `HAV_V2_BASE` is unset. */
  const DefaultV2Base: string := "https://api.havochvatten.se/bathingwaters/v2"

  /** The v2 base URL: `HAV_V2_BASE || HAV_V2_BASE_URL || ""` in the source,
      `HAV_V2_BASE ?? DefaultV2Base` in the build, which keeps a set but
      empty `HAV_V2_BASE` and never reads `HAV_V2_BASE_URL`. */
  function V2Base(build: Build, havV2Base: Option<string>, havV2BaseUrl: Option<string>): (base: string)
    ensures build.Source? ==> base == Setting(havV2Base, havV2BaseUrl)
    ensures build.Compiled? && havV2Base.Some? ==> base == havV2Base.value
    ensures build.Compiled? && havV2Base.None? ==> base == DefaultV2Base
  {
    match build
    case Source => Setting(havV2Base, havV2BaseUrl)
    case Compiled => havV2Base.GetOr(DefaultV2Base)
  }

  /** The versions compute the same v2 base exactly when `HAV_V2_BASE` is
      set and non-empty, when it is unset while the source falls back to a
      `HAV_V2_BASE_URL` equal to the build's default, or when it is empty
      and no fallback is set (an empty base in both). */
  lemma V2BasesAgree(havV2Base: Option<string>, havV2BaseUrl: Option<string>)
    ensures V2Base(Source, havV2Base, havV2BaseUrl) == V2Base(Compiled, havV2Base, havV2BaseUrl) <==>
              || StrTruthy(havV2Base)
              || (havV2Base.None? && havV2BaseUrl == Some(DefaultV2Base))
              || (havV2Base == Some("") && !StrTruthy(havV2BaseUrl))
  {
    if havV2Base == Some("") {
      assert V2Base(Compiled, havV2Base, havV2BaseUrl) == "";
      if StrTruthy(havV2BaseUrl) {
        assert V2Base(Source, havV2Base, havV2BaseUrl) == havV2BaseUrl.value != "";
      }
    } else if havV2Base.None? && havV2BaseUrl != Some(DefaultV2Base) {
      assert V2Base(Compiled, havV2Base, havV2BaseUrl) == DefaultV2Base;
      DefaultV2BaseNonEmpty();
    }
  }

  lemma DefaultV2BaseNonEmpty()
    ensures DefaultV2Base != ""
  {
    assert DefaultV2Base[0] == 'h';
  }

  /** One v2 call: the settled promise and the URL fetched, if any. */
  datatype V2Result<T> = V2Result(outcome: Outcome<T>, fetched: Option<string>)

  const V2NotConfigured: string := "HAV_V2_BASE not configured"

  /** The message `havV2Get` throws for a non-ok response; only the source
      appends the body's text. */
  function V2ErrorMessage(build: Build, status: nat, statusText: string, text: string): string {
    match build
    case Source => "HaV v2 error " + NatToString(status) + " " + statusText + ": " + text
    case Compiled => "HaV v2 error " + NatToString(status) + " " + statusText
  }

  /** Whether `havV2Get` refuses before any request: only the source checks
      for an empty base. */
  predicate Unconfigured(build: Build, base: string) {
    build.Source? && base == ""
  }

  /** `havV2Get(path)`: the source throws before any request when no base
      is configured, the build fetches whatever base it has (an empty one
      makes `fetch` fail on the bare path); never cached. */
  function HavV2Get<T>(build: Build, base: string, path: string, upstream: string -> Reply<T>): (r: V2Result<T>)
    ensures Unconfigured(build, base) ==> r == V2Result(Threw(ErrorValue(V2NotConfigured)), None)
    ensures !Unconfigured(build, base) ==> r.fetched == Some(base + path)
    ensures !Unconfigured(build, base) ==> (r.outcome.Value? <==> upstream(base + path).Received?)
    ensures r.outcome.Value? ==> r.outcome.value == upstream(base + path).body
    ensures !Unconfigured(build, base) && upstream(base + path).HttpError? ==>
              r.outcome.error == ErrorValue(V2ErrorMessage(build,
                upstream(base + path).status, upstream(base + path).statusText, upstream(base + path).text))
  {
    if Unconfigured(build, base) then V2Result(Threw(ErrorValue(V2NotConfigured)), None)
    else
      var url := base + path;
      match upstream(url)
      case Received(data) => V2Result(Value(data), Some(url))
      case HttpError(status, statusText, text) =>
        V2Result(Threw(ErrorValue(V2ErrorMessage(build, status, statusText, text))), Some(url))
      case Broken(message) => V2Result(Threw(ErrorValue(message)), Some(url))
  }

  /** The monitoring-results document, as far as the selection reads it. */
  datatype MonitoringResult = MonitoringResult(takenAt: Option<string>)
  datatype Results = Results(results: Option<seq<MonitoringResult>>)

  /** `(results ?? []).map(r => r.takenAt).filter(d => !!d)`. */
  function Dates(rs: seq<MonitoringResult>): (ds: seq<string>)
    ensures forall i :: 0 <= i < |ds| ==> ds[i] != ""
    ensures forall d :: d in ds <==> exists i :: 0 <= i < |rs| && rs[i].takenAt == Some(d) && d != ""
    decreases |rs|
  {
    if |rs| == 0 then []
    else
      var rest := Dates(rs[1..]);
      assert forall i :: 1 <= i < |rs| ==> rs[i] == rs[1..][i - 1];
      if StrTruthy(rs[0].takenAt) then [rs[0].takenAt.value] + rest else rest
  }

  /** `ys` is ordered by the comparator `(a, b) => a < b ? 1 : a > b ? -1 : 0`,
      that is, greatest first. */
  predicate SortedDescending(ys: seq<string>) {
    forall i, j :: 0 <= i < j < |ys| ==> Le(ys[j], ys[i])
  }

  function InsertDescending(x: string, ys: seq<string>): (r: seq<string>)
    requires SortedDescending(ys)
    ensures SortedDescending(r)
    ensures multiset(r) == multiset(ys) + multiset{x}
    decreases |ys|
  {
    if |ys| == 0 then [x]
    else if Le(ys[0], x) then
      assert forall j :: 0 <= j < |ys| ==> Le(ys[j], x) by {
        forall j | 0 <= j < |ys| ensures Le(ys[j], x) {
          LeTotalOrder(ys[j], ys[0], x);
        }
      }
      [x] + ys
    else
      var rest := InsertDescending(x, ys[1..]);
      assert Le(x, ys[0]) by { LeTotalOrder(x, ys[0], x); }
      assert forall k :: 0 <= k < |rest| ==> Le(rest[k], ys[0]) by {
        forall k | 0 <= k < |rest| ensures Le(rest[k], ys[0]) {
          assert rest[k] in multiset(rest);
          assert rest[k] == x || rest[k] in ys[1..];
        }
      }
      assert ys == [ys[0]] + ys[1..];
      [ys[0]] + rest
  }

  /** The array sort the selection performs. Any correct sort gives the same
      array, because equal strings are indistinguishable. */
  function SortDescending(xs: seq<string>): (ys: seq<string>)
    ensures SortedDescending(ys)
    ensures multiset(ys) == multiset(xs)
    decreases |xs|
  {
    if |xs| == 0 then []
    else
      assert xs == [xs[0]] + xs[1..];
      InsertDescending(xs[0], SortDescending(xs[1..]))
  }

  /** `getLatestSampleDate`'s selection: the first element after sorting,
      or `null` when no non-empty `takenAt` is left. */
  function LatestTakenAt(doc: Results): (latest: Option<string>)
    ensures var rs := doc.results.GetOr([]);
            latest.None? <==> forall i :: 0 <= i < |rs| ==> !StrTruthy(rs[i].takenAt)
    ensures var rs := doc.results.GetOr([]);
            latest.Some? ==>
              (latest.value != "" && exists i :: 0 <= i < |rs| && rs[i].takenAt == latest)
    ensures var rs := doc.results.GetOr([]);
            latest.Some? ==> forall i :: 0 <= i < |rs| && StrTruthy(rs[i].takenAt) ==>
              Le(rs[i].takenAt.value, latest.value)
  {
    var rs := doc.results.GetOr([]);
    var ds := Dates(rs);
    var sorted := SortDescending(ds);
    if |sorted| == 0 then
      assert |ds| == 0;
      None
    else
      assert sorted[0] in multiset(ds);
      assert sorted[0] in ds;
      HeadIsGreatest(ds, sorted);
      Some(sorted[0])
  }

  /** The head of a descending sort of `ds` is at least every element. */
  lemma HeadIsGreatest(ds: seq<string>, sorted: seq<string>)
    requires SortedDescending(sorted) && multiset(sorted) == multiset(ds) && |sorted| > 0
    ensures forall d :: d in ds ==> Le(d, sorted[0])
  {
    forall d | d in ds
      ensures Le(d, sorted[0])
    {
      assert d in multiset(sorted);
      var k :| 0 <= k < |sorted| && sorted[k] == d;
      if k > 0 {
        assert Le(sorted[k], sorted[0]);
      } else {
        LeTotalOrder(d, d, d);
      }
    }
  }

  /** The v2 path of an id's monitoring results. */
  function ResultsPath(encodedId: string): string {
    "/bathing-waters/" + encodedId + "/results"
  }

  /** `getLatestSampleDate(id)`: one v2 request for the id's results, whose
      failures propagate; `encode` is `encodeURIComponent`. */
  function GetLatestSampleDate(build: Build, v2Base: string, encode: string -> string, id: string,
                               upstream: string -> Reply<Results>): (r: V2Result<Option<string>>)
    ensures r.fetched == HavV2Get(build, v2Base, ResultsPath(encode(id)), upstream).fetched
    ensures r.outcome.Value? <==> HavV2Get(build, v2Base, ResultsPath(encode(id)), upstream).outcome.Value?
    ensures r.outcome.Value? ==>
              r.outcome.value == LatestTakenAt(upstream(v2Base + ResultsPath(encode(id))).body)
  {
    var call := HavV2Get(build, v2Base, ResultsPath(encode(id)), upstream);
    match call.outcome
    case Value(doc) => V2Result(Value(LatestTakenAt(doc)), call.fetched)
    case Threw(e) => V2Result(Threw(e), call.fetched)
  }
}

=== FILE: js.dfy ===
/** The slice of JavaScript value semantics the rest of the model leans on:
    numbers with their non-finite values, JSON values, truthiness, thrown
    values, settled promises, decimal rendering of non-negative integers and
    the own enumerable properties an object spread copies. */
module Js {

  /** A JavaScript number. JSON text can only produce `Finite` values (or an
      infinity, for literals out of double range); the others arise from
      arithmetic. Finite values are kept exact: rounding to binary64 is not
      modelled. */
  datatype Number = Finite(value: real) | NaN | Infinity(negative: bool)

  /** `undefined`/`null` versus a present value. */
  datatype Option<+T> = None | Some(value: T) {
    /** `x ?? d`. */
    function GetOr(d: T): T {
      if Some? then value else d
    }
  }

  /** A parsed JSON document. Object key order is not modelled. */
  datatype Json =
    | JNull
    | JBool(b: bool)
    | JNum(n: Number)
    | JStr(s: string)
    | JArr(items: seq<Json>)
    | JObj(fields: map<string, Json>)

  /** What a `throw` or a rejected promise carries: an `Error` instance with
      its message, or some other value. */
  datatype Thrown = ErrorValue(message: string) | OtherValue(value: Json)

  /** A settled promise / a call that either returns or throws. */
  datatype Outcome<+T> = Value(value: T) | Threw(error: Thrown)

  /** `!!n` for a number: zero and NaN are falsy. */
  predicate NumberTruthy(n: Number) {
    match n
    case Finite(r) => r != 0.0
    case NaN => false
    case Infinity(_) => true
  }

  /** `!!j`: `null`, `false`, `0`, `NaN` and `""` are falsy; every array and
      object, even an empty one, is truthy. */
  predicate Truthy(j: Json) {
    match j
    case JNull => false
    case JBool(b) => b
    case JNum(n) => NumberTruthy(n)
    case JStr(s) => s != ""
    case JArr(_) => true
    case JObj(_) => true
  }

  /** `!!s` for an optional string (`undefined`/`null` are `None`). */
  predicate StrTruthy(s: Option<string>) {
    s.Some? && s.value != ""
  }

  /** A setting read as `process.env.A || process.env.B || ""`: the first
      variable that is set and non-empty, else the empty string. */
  function Setting(a: Option<string>, b: Option<string>): (s: string)
    ensures StrTruthy(a) ==> s == a.value
    ensures !StrTruthy(a) && StrTruthy(b) ==> s == b.value
    ensures !StrTruthy(a) && !StrTruthy(b) ==> s == ""
  {
    if StrTruthy(a) then a.value
    else if StrTruthy(b) then b.value
    else ""
  }

  /** The decimal digit for `d`. */
  function Digit(d: nat): (c: char)
    requires d < 10
    ensures '0' <= c <= '9'
    ensures c as int - '0' as int == d
  {
    ('0' as int + d) as char
  }

  /** `String(n)` for a non-negative integer: shortest decimal rendering. */
  function NatToString(n: nat): (s: string)
    ensures |s| >= 1
    ensures n >= 10 ==> |s| >= 2
    ensures forall i :: 0 <= i < |s| ==> '0' <= s[i] <= '9'
    decreases n
  {
    if n < 10 then [Digit(n)] else NatToString(n / 10) + [Digit(n % 10)]
  }

  /** Distinct integers render as distinct strings, so array indices give
      distinct property keys. */
  lemma {:induction false} NatToStringInjective(n: nat, m: nat)
    requires NatToString(n) == NatToString(m)
    ensures n == m
    decreases n
  {
    var s := NatToString(n);
    if n < 10 && m < 10 {
      assert s[0] == Digit(n) && s[0] == Digit(m);
    } else if n >= 10 && m >= 10 {
      var a, b := NatToString(n / 10), NatToString(m / 10);
      assert s == a + [Digit(n % 10)] && s == b + [Digit(m % 10)];
      assert Digit(n % 10) == s[|s| - 1] == Digit(m % 10);
      assert a == s[..|s| - 1] == b;
      NatToStringInjective(n / 10, m / 10);
    }
  }

  /** No smaller index renders like `n`. */
  lemma RenderFresh(n: nat)
    ensures forall i :: 0 <= i < n ==> NatToString(i) != NatToString(n)
  {
    forall i | 0 <= i < n
      ensures NatToString(i) != NatToString(n)
    {
      if NatToString(i) == NatToString(n) {
        NatToStringInjective(i, n);
      }
    }
  }

  /** The own property `name` of a value, as `value?.[name]` reads it for
      the names this model uses (none is an array index or `length`):
      only objects have such properties. */
  function Property(j: Json, name: string): (r: Option<Json>)
    ensures r.Some? <==> j.JObj? && name in j.fields
    ensures r.Some? ==> r.value == j.fields[name]
  {
    match j
    case JObj(fs) => if name in fs then Some(fs[name]) else None
    case _ => None
  }

  /** The properties `{ ...j }` copies: an object's own fields, an array's or
      a string's indices; primitives contribute nothing. */
  function Spread(j: Json): (r: map<string, Json>)
    ensures j.JObj? ==> r == j.fields
    ensures j.JNull? || j.JBool? || j.JNum? ==> r == map[]
    ensures j.JArr? ==> |r| == |j.items|
    ensures j.JStr? ==> |r| == |j.s|
    ensures j.JArr? ==> forall i :: 0 <= i < |j.items| ==>
              NatToString(i) in r && r[NatToString(i)] == j.items[i]
    ensures j.JStr? ==> forall i :: 0 <= i < |j.s| ==>
              NatToString(i) in r && r[NatToString(i)] == JStr([j.s[i]])
  {
    match j
    case JObj(fs) => fs
    case JArr(xs) => IndexMapSpec(xs); IndexMap(xs)
    case JStr(s) =>
      var xs := seq(|s|, i requires 0 <= i < |s| => JStr([s[i]]));
      IndexMapSpec(xs);
      IndexMap(xs)
    case _ => map[]
  }

  /** The map from each index's decimal key to its element. */
  function IndexMap(xs: seq<Json>): map<string, Json>
    decreases |xs|
  {
    if |xs| == 0 then map[] else IndexMap(xs[..|xs| - 1])[NatToString(|xs| - 1) := xs[|xs| - 1]]
  }

  /** The decimal keys of the indices below `n`. */
  function IndexKeys(n: nat): set<string>
  {
    if n == 0 then {} else IndexKeys(n - 1) + {NatToString(n - 1)}
  }

  lemma {:induction false} IndexKeysFresh(n: nat, m: nat)
    requires n <= m
    ensures NatToString(m) !in IndexKeys(n)
  {
    if n > 0 {
      IndexKeysFresh(n - 1, m);
      if NatToString(n - 1) == NatToString(m) {
        NatToStringInjective(n - 1, m);
      }
    }
  }

  /** The keys of `IndexMap(xs)` are the decimal indices of `xs`. */
  lemma {:induction false} IndexMapKeys(xs: seq<Json>)
    ensures IndexMap(xs).Keys == IndexKeys(|xs|)
    ensures |IndexMap(xs)| == |xs|
    decreases |xs|
  {
    if |xs| > 0 {
      var n := |xs| - 1;
      IndexMapKeys(xs[..n]);
      IndexKeysFresh(n, n);
    }
  }

  /** Index `i` of `xs` is stored under its decimal key. */
  lemma {:induction false} IndexMapAt(xs: seq<Json>, i: nat)
    requires i < |xs|
    ensures NatToString(i) in IndexMap(xs) && IndexMap(xs)[NatToString(i)] == xs[i]
    decreases |xs|
  {
    var n := |xs| - 1;
    if i < n {
      IndexMapAt(xs[..n], i);
      if NatToString(i) == NatToString(n) {
        NatToStringInjective(i, n);
      }
      assert xs[..n][i] == xs[i];
    }
  }

  lemma IndexMapSpec(xs: seq<Json>)
    ensures IndexMap(xs).Keys == IndexKeys(|xs|)
    ensures |IndexMap(xs)| == |xs|
    ensures forall i :: 0 <= i < |xs| ==> NatToString(i) in IndexMap(xs) && IndexMap(xs)[NatToString(i)] == xs[i]
  {
    IndexMapKeys(xs);
    forall i | 0 <= i < |xs|
      ensures NatToString(i) in IndexMap(xs) && IndexMap(xs)[NatToString(i)] == xs[i]
    {
      IndexMapAt(xs, i);
    }
  }
}

=== FILE: object_id.dfy ===
/** The text form of a MongoDB `ObjectId`. `String(id)` writes the id's
    twelve bytes as 24 lower-case hexadecimal digits, and a string of 24
    hexadecimal digits of either case casts back to the id. An id is
    modelled by a natural number; one of twelve bytes is below 16^24. */
module ObjectId {
  import opened Js

  /** The number of hexadecimal digits of an id. */
  const Width: nat := 24

  function Pow16(k: nat): (p: nat)
    ensures p >= 1
  {
    if k == 0 then 1 else 16 * Pow16(k - 1)
  }

  /** Every id of twelve bytes is below this bound, 2^96. */
  const Bound: nat := Pow16(Width)

  /** The lower-case hexadecimal digit of a value below 16. */
  function HexDigit(d: nat): char
    requires d < 16
  {
    if d < 10 then ('0' as int + d) as char else ('a' as int + d - 10) as char
  }

  /** The value of a hexadecimal digit of either case. */
  function DigitValue(ch: char): (r: Option<nat>)
    ensures r.Some? ==> r.value < 16
    ensures r.Some? <==> '0' <= ch <= '9' || 'a' <= ch <= 'f' || 'A' <= ch <= 'F'
  {
    if '0' <= ch <= '9' then Some(ch as int - '0' as int)
    else if 'a' <= ch <= 'f' then Some(ch as int - 'a' as int + 10)
    else if 'A' <= ch <= 'F' then Some(ch as int - 'A' as int + 10)
    else None
  }

  predicate IsLowerHex(ch: char) {
    '0' <= ch <= '9' || 'a' <= ch <= 'f'
  }

  /** The `w` lowest hexadecimal digits of `n`, most significant first. */
  function Hex(n: nat, w: nat): (s: string)
    ensures |s| == w
    ensures forall i :: 0 <= i < |s| ==> IsLowerHex(s[i])
  {
    if w == 0 then "" else Hex(n / 16, w - 1) + [HexDigit(n % 16)]
  }

  /** The value of a string of hexadecimal digits, or `None` when some
      character is not one. */
  function ParseHex(s: string): (r: Option<nat>)
    ensures r.Some? ==> r.value < Pow16(|s|)
    ensures r.Some? <==> forall i :: 0 <= i < |s| ==> DigitValue(s[i]).Some?
  {
    if |s| == 0 then Some(0)
    else
      var hi, d := ParseHex(s[..|s| - 1]), DigitValue(s[|s| - 1]);
      assert forall i :: 0 <= i < |s| - 1 ==> s[..|s| - 1][i] == s[i];
      if hi.Some? && d.Some? then Some(16 * hi.value + d.value) else None
  }

  /** `String(id)`: the id's twelve bytes as 24 lower-case digits. */
  function ToString(id: nat): (s: string)
    ensures |s| == Width
    ensures forall i :: 0 <= i < |s| ==> IsLowerHex(s[i])
  {
    Hex(id, Width)
  }

  /** The cast of a hexadecimal string: exactly 24 digits of either case. */
  function Parse(s: string): (r: Option<nat>)
    ensures r.Some? <==> |s| == Width && forall i :: 0 <= i < |s| ==> DigitValue(s[i]).Some?
    ensures r.Some? ==> r.value < Bound
  {
    if |s| == Width then ParseHex(s) else None
  }

  /** Reading back the digits of a value that fits gives the value. */
  lemma {:induction false} ParseHexOfHex(n: nat, w: nat)
    requires n < Pow16(w)
    ensures ParseHex(Hex(n, w)) == Some(n)
  {
    if w > 0 {
      var s := Hex(n, w);
      assert s[..|s| - 1] == Hex(n / 16, w - 1);
      assert n / 16 < Pow16(w - 1);
      ParseHexOfHex(n / 16, w - 1);
      assert DigitValue(s[|s| - 1]) == Some(n % 16);
    }
  }

  /** `String(id)` casts back to the id. */
  lemma ToStringRoundTrip(id: nat)
    requires id < Bound
    ensures Parse(ToString(id)) == Some(id)
  {
    ParseHexOfHex(id, Width);
  }

  /** Distinct ids are written differently. */
  lemma ToStringInjective(a: nat, b: nat)
    requires a < Bound && b < Bound
    requires ToString(a) == ToString(b)
    ensures a == b
  {
    ToStringRoundTrip(a);
    ToStringRoundTrip(b);
  }

  /** Every cast string is the written form of its id, up to letter case:
      the digits agree once lower-cased. */
  lemma {:induction false} ParseHexDigits(s: string, n: nat)
    requires ParseHex(s) == Some(n)
    ensures Hex(n, |s|) == LowerHex(s)
  {
    if |s| > 0 {
      var hi := ParseHex(s[..|s| - 1]).value;
      ParseHexDigits(s[..|s| - 1], hi);
      assert n / 16 == hi && n % 16 == DigitValue(s[|s| - 1]).value;
      assert LowerHex(s) == LowerHex(s[..|s| - 1]) + [LowerDigit(s[|s| - 1])];
    }
  }

  /** A hexadecimal digit in lower case. */
  function LowerDigit(ch: char): (d: char)
    ensures 'A' <= ch <= 'F' ==> d as int == ch as int + 32
    ensures !('A' <= ch <= 'F') ==> d == ch
  {
    if 'A' <= ch <= 'F' then (ch as int + 32) as char else ch
  }

  /** The digits of a string in lower case. */
  function LowerHex(s: string): (r: string)
    ensures |r| == |s|
    ensures forall i :: 0 <= i < |s| ==> r[i] == LowerDigit(s[i])
  {
    seq(|s|, i requires 0 <= i < |s| => LowerDigit(s[i]))
  }

  /** Two strings cast to the same id exactly when they spell the same
      digits up to letter case. */
  lemma SameIdIffSameDigits(a: string, b: string)
    requires Parse(a).Some? && Parse(b).Some?
    ensures Parse(a) == Parse(b) <==> LowerHex(a) == LowerHex(b)
  {
    ParseHexDigits(a, Parse(a).value);
    ParseHexDigits(b, Parse(b).value);
    if LowerHex(a) == LowerHex(b) {
      ParseHexOfHex(Parse(a).value, Width);
      ParseHexOfHex(Parse(b).value, Width);
    }
  }
}

=== FILE: quality.dfy ===
/** The label of a HaV classification code (frontend/src/utils/quality.ts):
    codes 1-4 in Swedish or English, anything else "Okänd" / "Unknown". */
module Quality {
  import opened Js

  /** The two label languages; Swedish is the default. */
  datatype Lang = Sv | En

  /** The label table, by code. */
  function Label(code: nat, lang: Lang): string
    requires 1 <= code <= 4
  {
    match (code, lang)
    case (1, Sv) => "Utmärkt kvalitet"
    case (1, En) => "Excellent quality"
    case (2, Sv) => "Bra kvalitet"
    case (2, En) => "Good quality"
    case (3, Sv) => "Tillfredsställande kvalitet"
    case (3, En) => "Sufficient quality"
    case (4, Sv) => "Dålig kvalitet"
    case (_, En) => "Poor quality"
    case (_, Sv) => "Dålig kvalitet"
  }

  /** The label of a code outside the table. */
  function UnknownLabel(lang: Lang): string {
    if lang == Sv then "Okänd" else "Unknown"
  }

  /** The table entry `map[code]` reads: a number whose property key is
      `"1"` … `"4"`, that is one of the integers 1-4. */
  function TableCode(code: Number): (k: Option<nat>)
    ensures k.Some? <==> code in {Finite(1.0), Finite(2.0), Finite(3.0), Finite(4.0)}
    ensures k.Some? ==> 1 <= k.value <= 4 && code == Finite(k.value as real)
  {
    match code
    case Finite(v) =>
      if v == 1.0 then Some(1)
      else if v == 2.0 then Some(2)
      else if v == 3.0 then Some(3)
      else if v == 4.0 then Some(4)
      else None
    case _ => None
  }

  /** `getQualityLabel(code, lang)`. */
  function GetQualityLabel(code: Number, lang: Lang): (s: string)
    ensures s != ""
    ensures TableCode(code).Some? ==> s == Label(TableCode(code).value, lang)
    ensures TableCode(code).None? ==> s == UnknownLabel(lang)
  {
    match TableCode(code)
    case Some(c) => Label(c, lang)
    case None => UnknownLabel(lang)
  }

  /** `getQualityLabel(code)`: the language defaults to Swedish. */
  function GetQualityLabelDefault(code: Number): (s: string)
    ensures TableCode(code).Some? ==> s == Label(TableCode(code).value, Sv)
    ensures TableCode(code).None? ==> s == "Okänd"
  {
    GetQualityLabel(code, Sv)
  }

  /** The code a label names, if it is one of the four labels of `lang`. */
  function CodeOfLabel(text: string, lang: Lang): (code: Option<nat>)
    ensures code.Some? ==> 1 <= code.value <= 4 && Label(code.value, lang) == text
    ensures code.None? ==> forall c: nat :: 1 <= c <= 4 ==> Label(c, lang) != text
  {
    if text == Label(1, lang) then Some(1)
    else if text == Label(2, lang) then Some(2)
    else if text == Label(3, lang) then Some(3)
    else if text == Label(4, lang) then Some(4)
    else None
  }

  /** A label names its code back: distinct codes have distinct labels,
      and the fallback label names none of them. */
  lemma LabelRoundTrip(code: Number, lang: Lang)
    ensures CodeOfLabel(GetQualityLabel(code, lang), lang) == TableCode(code)
  {
    var text := GetQualityLabel(code, lang);
    match TableCode(code)
    case Some(c) =>
      assert Label(c, lang) == text;
      LabelsDistinct(c, lang);
    case None =>
      assert forall c: nat :: 1 <= c <= 4 ==> Label(c, lang) != UnknownLabel(lang) by {
        assert Label(1, lang)[0] != UnknownLabel(lang)[0] || |Label(1, lang)| != |UnknownLabel(lang)|;
      }
  }

  lemma LabelsDistinct(c: nat, lang: Lang)
    requires 1 <= c <= 4
    ensures forall d: nat :: 1 <= d <= 4 && Label(d, lang) == Label(c, lang) ==> d == c
  {
    assert |Label(1, lang)| != |Label(2, lang)|;
  }
}

=== FILE: quality_class.dfy ===
/** The colour classes the three quality pills of the frontend choose
    between (`kpi-excellent` … `kpi-unknown`), the value each mapper is
    given, and the declarative reading all three mappers are held to: a
    classification number 1-4 names its class directly, and a text names the
    best-ranked class one of whose keywords occurs in it. */
module QualityClass {
  import opened Js
  import opened Strings

  /** A pill colour; its CSS class name is `ClassName`. */
  datatype Kpi = Excellent | Good | Sufficient | Poor | Unknown

  function ClassName(k: Kpi): string {
    match k
    case Excellent => "kpi-excellent"
    case Good => "kpi-good"
    case Sufficient => "kpi-sufficient"
    case Poor => "kpi-poor"
    case Unknown => "kpi-unknown"
  }

  /** The classification code of a class (HaV codes 1-4); `Unknown` ranks
      last. */
  function Rank(k: Kpi): (n: nat)
    ensures 1 <= n <= 5
    ensures n == 1 <==> k == Excellent
    ensures n == 2 <==> k == Good
    ensures n == 3 <==> k == Sufficient
    ensures n == 4 <==> k == Poor
    ensures n == 5 <==> k == Unknown
  {
    match k
    case Excellent => 1
    case Good => 2
    case Sufficient => 3
    case Poor => 4
    case Unknown => 5
  }

  /** What a mapper receives: `number | string | undefined`. */
  datatype QualityInput = QNum(n: Number) | QStr(s: string) | QAbsent

  /** `classification ?? text` for a detail's optional classification
      number and a text that is always there. */
  function NumberOrText(classification: Option<Number>, text: string): (q: QualityInput)
    ensures q.QAbsent? == false
    ensures classification.Some? <==> q.QNum?
    ensures q.QNum? ==> q.n == classification.value
    ensures q.QStr? ==> q.s == text
  {
    match classification
    case Some(n) => QNum(n)
    case None => QStr(text)
  }

  /** A number names class `k` when it is exactly `k`'s code; any other
      number (a fraction, 0, 5, NaN, an infinity) names `Unknown`. */
  predicate RatedAs(n: Number, k: Kpi) {
    if k == Unknown then forall c: Kpi :: c != Unknown ==> n != Finite(Rank(c) as real)
    else n == Finite(Rank(k) as real)
  }

  /** Some keyword of `words` occurs in `t`. */
  predicate Mentions(t: string, words: seq<string>)
    decreases |words|
  {
    |words| > 0 && (Contains(t, words[0]) || Mentions(t, words[1..]))
  }

  /** `k` is the best-ranked class whose keywords (`table`) occur in the
      lower-cased text `t`, or `Unknown` when none occurs. */
  predicate BestMention(t: string, table: Kpi -> seq<string>, k: Kpi) {
    && (k == Unknown <==> forall c: Kpi :: c != Unknown ==> !Mentions(t, table(c)))
    && (k != Unknown ==> Mentions(t, table(k)))
    && (forall c: Kpi :: c != Unknown && Mentions(t, table(c)) ==> Rank(k) <= Rank(c))
  }

  /** The keywords the two page mappers look for. */
  function PageKeywords(k: Kpi): seq<string> {
    match k
    case Excellent => ["utmärkt"]
    case Good => ["bra"]
    case Sufficient => ["tillfreds", "sufficient"]
    case Poor => ["dålig", "poor"]
    case Unknown => []
  }

  /** The keywords of the detail-card mapper: also English `excellent`
      and `good`. */
  function CardKeywords(k: Kpi): seq<string> {
    match k
    case Excellent => ["utmärkt", "excellent"]
    case Good => ["bra", "good"]
    case Sufficient => ["tillfreds", "sufficient"]
    case Poor => ["dålig", "poor"]
    case Unknown => []
  }

  /** A number names exactly one class. */
  lemma RatedAsUnique(n: Number, k: Kpi, k': Kpi)
    requires RatedAs(n, k) && RatedAs(n, k')
    ensures k == k'
  {
    if k != Unknown && k' != Unknown {
      assert Rank(k) as real == Rank(k') as real;
    }
  }

  /** A text has exactly one best-mentioned class. */
  lemma BestMentionUnique(t: string, table: Kpi -> seq<string>, k: Kpi, k': Kpi)
    requires BestMention(t, table, k) && BestMention(t, table, k')
    ensures k == k'
  {
    if k != Unknown && k' != Unknown {
      assert Rank(k) <= Rank(k') && Rank(k') <= Rank(k);
    }
  }

  /** Where the texts contain neither English keyword, the two tables
      mention the same classes, so they pick the same class. */
  lemma TablesAgreeWithoutEnglish(t: string, k: Kpi)
    requires !Contains(t, "excellent") && !Contains(t, "good")
    ensures BestMention(t, PageKeywords, k) <==> BestMention(t, CardKeywords, k)
  {
    forall c: Kpi ensures Mentions(t, PageKeywords(c)) <==> Mentions(t, CardKeywords(c)) {
      MentionsPair(t, PageKeywords(c));
      MentionsPair(t, CardKeywords(c));
    }
  }

  /** A table entry of one or two keywords is mentioned when one of them
      occurs. */
  lemma MentionsPair(t: string, words: seq<string>)
    requires |words| <= 2
    ensures |words| == 0 ==> !Mentions(t, words)
    ensures |words| == 1 ==> (Mentions(t, words) <==> Contains(t, words[0]))
    ensures |words| == 2 ==> (Mentions(t, words) <==> Contains(t, words[0]) || Contains(t, words[1]))
  {
    if |words| > 0 {
      assert |words[1..]| > 0 ==> words[1..][1..] == [];
    }
  }
}

=== FILE: strings.dfy ===
/** JavaScript string operations the application relies on, over
    `string` (a sequence of `char`): `<`, `includes`, `startsWith`,
    `toLowerCase`, `trim` and `split` on a one-character separator. */
module Strings {

  /** `a < b` on strings: the first differing character decides, and a
      proper prefix is smaller. */
  predicate Lt(a: string, b: string)
    decreases |a|
  {
    if |a| == 0 then |b| > 0
    else if |b| == 0 then false
    else if a[0] == b[0] then Lt(a[1..], b[1..])
    else a[0] < b[0]
  }

  /** `a <= b` in the same order. */
  predicate Le(a: string, b: string) {
    a == b || Lt(a, b)
  }

  lemma {:induction false} LtIrreflexive(a: string)
    ensures !Lt(a, a)
    decreases |a|
  {
    if |a| > 0 {
      LtIrreflexive(a[1..]);
    }
  }

  lemma {:induction false} LtTransitive(a: string, b: string, c: string)
    requires Lt(a, b) && Lt(b, c)
    ensures Lt(a, c)
    decreases |a|
  {
    if |a| > 0 && |b| > 0 && |c| > 0 && a[0] == b[0] && b[0] == c[0] {
      LtTransitive(a[1..], b[1..], c[1..]);
    }
  }

  /** Any two different strings are ordered one way or the other. */
  lemma {:induction false} LtTotal(a: string, b: string)
    requires a != b
    ensures Lt(a, b) || Lt(b, a)
    decreases |a|
  {
    if |a| > 0 && |b| > 0 && a[0] == b[0] {
      assert a == [a[0]] + a[1..] && b == [b[0]] + b[1..];
      LtTotal(a[1..], b[1..]);
    }
  }

  lemma LtAsymmetric(a: string, b: string)
    requires Lt(a, b)
    ensures !Lt(b, a)
  {
    if Lt(b, a) {
      LtTransitive(a, b, a);
      LtIrreflexive(a);
    }
  }

  /** `Le` is a total order. */
  lemma LeTotalOrder(a: string, b: string, c: string)
    ensures Le(a, a)
    ensures Le(a, b) && Le(b, a) ==> a == b
    ensures Le(a, b) && Le(b, c) ==> Le(a, c)
    ensures Le(a, b) || Le(b, a)
  {
    if a != b {
      LtTotal(a, b);
      if Lt(a, b) {
        LtAsymmetric(a, b);
      }
    }
    if Lt(a, b) && Lt(b, c) {
      LtTransitive(a, b, c);
    }
  }

  /** `h.startsWith(n)`. */
  predicate StartsWith(h: string, n: string) {
    |n| <= |h| && h[..|n|] == n
  }

  /** `h.includes(n)`: `n` occurs in `h` at some offset. */
  predicate Contains(h: string, n: string)
    decreases |h|
  {
    StartsWith(h, n) || (|h| > 0 && Contains(h[1..], n))
  }

  /** `n` occurs in `h` at offset `i`. */
  predicate OccursAt(h: string, n: string, i: nat) {
    i + |n| <= |h| && h[i..i + |n|] == n
  }

  /** `Contains` holds exactly when `n` occurs at some offset. */
  lemma {:induction false} ContainsIffOccurs(h: string, n: string)
    ensures Contains(h, n) <==> exists i: nat :: OccursAt(h, n, i)
    decreases |h|
  {
    if |h| > 0 {
      ContainsIffOccurs(h[1..], n);
      if exists i: nat :: OccursAt(h, n, i) {
        var i: nat :| OccursAt(h, n, i);
        if i > 0 {
          assert OccursAt(h[1..], n, i - 1) by {
            assert h[1..][i - 1..i - 1 + |n|] == h[i..i + |n|];
          }
        }
      }
      if Contains(h[1..], n) {
        var i: nat :| OccursAt(h[1..], n, i);
        assert OccursAt(h, n, i + 1) by {
          assert h[i + 1..i + 1 + |n|] == h[1..][i..i + |n|];
        }
      }
    }
    if StartsWith(h, n) {
      assert OccursAt(h, n, 0);
    }
  }

  /** An occurrence at offset `i` makes `Contains` true. */
  lemma {:induction false} ContainsAt(h: string, n: string, i: nat)
    requires i + |n| <= |h| && h[i..i + |n|] == n
    ensures Contains(h, n)
    decreases i
  {
    if i > 0 {
      assert h[1..][i - 1..i - 1 + |n|] == n;
      ContainsAt(h[1..], n, i - 1);
    }
  }

  /** A needle holding a character the haystack lacks does not occur. */
  lemma {:induction false} NotContainsChar(h: string, n: string, k: nat)
    requires k < |n| && n[k] !in h
    ensures !Contains(h, n)
    decreases |h|
  {
    if |h| > 0 {
      NotContainsChar(h[1..], n, k);
    }
  }

  /** The characters `String.prototype.trim` removes: the ECMAScript
      WhiteSpace and LineTerminator code points. */
  predicate IsWhitespace(c: char) {
    || c == '\U{9}' || c == '\U{A}' || c == '\U{B}' || c == '\U{C}' || c == '\U{D}'
    || c == ' ' || c == '\U{A0}' || c == '\U{1680}'
    || ('\U{2000}' <= c <= '\U{200A}')
    || c == '\U{2028}' || c == '\U{2029}' || c == '\U{202F}' || c == '\U{205F}'
    || c == '\U{3000}' || c == '\U{FEFF}'
  }

  /** `r` is `s` with only whitespace cut from either end. */
  predicate CutFromEnds(s: string, r: string) {
    exists i, j :: 0 <= i <= j <= |s| && r == s[i..j]
      && (forall k :: 0 <= k < i ==> IsWhitespace(s[k]))
      && (forall k :: j <= k < |s| ==> IsWhitespace(s[k]))
  }

  /** `s.trim()`: drop leading and trailing whitespace. */
  function Trim(s: string): (r: string)
    ensures CutFromEnds(s, r)
    ensures |r| > 0 ==> !IsWhitespace(r[0]) && !IsWhitespace(r[|r| - 1])
    ensures (forall k :: 0 <= k < |s| ==> IsWhitespace(s[k])) <==> r == ""
  {
    var t := TrimStart(s);
    var r := TrimEnd(t);
    CutShape(s, t, r);
    r
  }

  /** A suffix `t` of `s` after leading whitespace, cut to a prefix `r`
      before trailing whitespace, is `s` trimmed at both ends. */
  lemma {:induction false} CutShape(s: string, t: string, r: string)
    requires |t| <= |s| && t == s[|s| - |t|..]
    requires forall k :: 0 <= k < |s| - |t| ==> IsWhitespace(s[k])
    requires |t| > 0 ==> !IsWhitespace(t[0])
    requires |r| <= |t| && r == t[..|r|]
    requires forall k :: |r| <= k < |t| ==> IsWhitespace(t[k])
    requires |r| > 0 ==> !IsWhitespace(r[|r| - 1])
    ensures CutFromEnds(s, r)
    ensures |r| > 0 ==> !IsWhitespace(r[0]) && !IsWhitespace(r[|r| - 1])
    ensures (forall k :: 0 <= k < |s| ==> IsWhitespace(s[k])) <==> r == ""
  {
    var i := |s| - |t|;
    var j := i + |r|;
    assert forall k :: 0 <= k < |r| ==> r[k] == t[k] == s[i + k];
    assert r == s[i..j];
    forall k | j <= k < |s|
      ensures IsWhitespace(s[k])
    {
      assert s[k] == t[k - i];
    }
    assert CutFromEnds(s, r);
    if |r| > 0 {
      assert r[0] == t[0] == s[i];
    }
  }

  function TrimStart(s: string): (r: string)
    ensures |r| <= |s| && r == s[|s| - |r|..]
    ensures forall k :: 0 <= k < |s| - |r| ==> IsWhitespace(s[k])
    ensures |r| > 0 ==> !IsWhitespace(r[0])
    decreases |s|
  {
    if |s| > 0 && IsWhitespace(s[0]) then TrimStart(s[1..]) else s
  }

  function TrimEnd(s: string): (r: string)
    ensures |r| <= |s| && r == s[..|r|]
    ensures forall k :: |r| <= k < |s| ==> IsWhitespace(s[k])
    ensures |r| > 0 ==> !IsWhitespace(r[|r| - 1])
    decreases |s|
  {
    if |s| > 0 && IsWhitespace(s[|s| - 1]) then TrimEnd(s[..|s| - 1]) else s
  }

  /** Trimming twice is trimming once. */
  lemma TrimIdempotent(s: string)
    ensures Trim(Trim(s)) == Trim(s)
  {
    var r := Trim(s);
    TrimNoop(r);
  }

  /** A string without surrounding whitespace is its own trim. */
  lemma TrimNoop(s: string)
    requires |s| > 0 ==> !IsWhitespace(s[0]) && !IsWhitespace(s[|s| - 1])
    ensures Trim(s) == s
  {
    assert TrimStart(s) == s;
    assert TrimEnd(s) == s;
  }

  /** `c.toLowerCase()` for ASCII and Latin-1 letters: `A`-`Z` and
      `À`-`Þ` (except `×`) map to the letter 32 code points higher. */
  function LowerChar(c: char): (d: char)
    ensures 'A' <= c <= 'Z' ==> d as int == c as int + 32
    ensures !('A' <= c <= 'Z') && !('À' <= c <= 'Þ' && c != '×') ==> d == c
  {
    if 'A' <= c <= 'Z' || ('À' <= c <= 'Þ' && c != '×') then
      (c as int + 32) as char
    else c
  }

  /** `s.toLowerCase()`, character by character. */
  function ToLower(s: string): (r: string)
    ensures |r| == |s|
    ensures forall i :: 0 <= i < |s| ==> r[i] == LowerChar(s[i])
    decreases |s|
  {
    if |s| == 0 then "" else [LowerChar(s[0])] + ToLower(s[1..])
  }

  /** A text with no upper-case letter is its own lower-case form. */
  lemma ToLowerNoop(s: string)
    requires forall i :: 0 <= i < |s| ==> !('A' <= s[i] <= 'Z') && !('À' <= s[i] <= 'Þ')
    ensures ToLower(s) == s
  {
  }

  /** Lower-casing twice is lower-casing once. */
  lemma ToLowerIdempotent(s: string)
    ensures ToLower(ToLower(s)) == ToLower(s)
  {
    var t := ToLower(s);
    assert forall i :: 0 <= i < |t| ==> LowerChar(t[i]) == t[i];
  }

  /** Lowering leaves whitespace in place, so lowering and trimming commute:
      `s.trim().toLowerCase() == s.toLowerCase().trim()`. */
  lemma {:induction false} LowerTrimCommute(s: string)
    ensures ToLower(Trim(s)) == Trim(ToLower(s))
  {
    assert forall c :: IsWhitespace(LowerChar(c)) <==> IsWhitespace(c);
    TrimStartLower(s);
    var t := TrimStart(s);
    TrimEndLower(t);
  }

  lemma {:induction false} TrimStartLower(s: string)
    ensures ToLower(TrimStart(s)) == TrimStart(ToLower(s))
    decreases |s|
  {
    if |s| > 0 {
      assert ToLower(s)[1..] == ToLower(s[1..]);
      LowerKeepsWhitespace(s[0]);
      TrimStartLower(s[1..]);
    }
  }

  lemma {:induction false} TrimEndLower(s: string)
    ensures ToLower(TrimEnd(s)) == TrimEnd(ToLower(s))
    decreases |s|
  {
    if |s| > 0 {
      var n := |s| - 1;
      var l := ToLower(s);
      LowerPrefix(s, n);
      LowerKeepsWhitespace(s[n]);
      TrimEndLower(s[..n]);
      assert l[n] == LowerChar(s[n]) && |l| == |s|;
      if IsWhitespace(s[n]) {
        assert TrimEnd(s) == TrimEnd(s[..n]);
        assert TrimEnd(l) == TrimEnd(l[..n]);
      } else {
        assert TrimEnd(s) == s;
        assert TrimEnd(l) == l;
      }
    }
  }

  /** Lowering commutes with taking a prefix. */
  lemma {:induction false} LowerPrefix(s: string, n: nat)
    requires n <= |s|
    ensures ToLower(s)[..n] == ToLower(s[..n])
  {
  }

  lemma LowerKeepsWhitespace(c: char)
    ensures IsWhitespace(LowerChar(c)) <==> IsWhitespace(c)
  {
  }

  /** `s.split(sep)` for a one-character separator: the maximal pieces
      between separators, in order, including empty ones. */
  function Split(s: string, sep: char): (parts: seq<string>)
    ensures |parts| >= 1
    ensures forall i :: 0 <= i < |parts| ==> sep !in parts[i]
    decreases |s|
  {
    if |s| == 0 then [""]
    else
      var rest := Split(s[1..], sep);
      if s[0] == sep then [""] + rest
      else [[s[0]] + rest[0]] + rest[1..]
  }

  /** `parts.join(sep)`. */
  function Join(parts: seq<string>, sep: char): string
    requires |parts| >= 1
    decreases |parts|
  {
    if |parts| == 1 then parts[0] else parts[0] + [sep] + Join(parts[1..], sep)
  }

  /** Joining the pieces back gives the original string. */
  lemma {:induction false} JoinSplit(s: string, sep: char)
    ensures Join(Split(s, sep), sep) == s
    decreases |s|
  {
    if |s| > 0 {
      var rest := Split(s[1..], sep);
      JoinSplit(s[1..], sep);
      if s[0] == sep {
        assert Split(s, sep)[1..] == rest;
      } else {
        var parts := Split(s, sep);
        if |rest| == 1 {
          assert parts == [[s[0]] + rest[0]];
        } else {
          assert parts[1..] == rest[1..];
          assert Join(rest, sep) == rest[0] + [sep] + Join(rest[1..], sep);
        }
      }
    }
  }

  /** Splitting a join of separator-free pieces gives the pieces back. */
  lemma {:induction false} SplitJoin(parts: seq<string>, sep: char)
    requires |parts| >= 1
    requires forall i :: 0 <= i < |parts| ==> sep !in parts[i]
    ensures Split(Join(parts, sep), sep) == parts
    decreases |parts|, |parts[0]|
  {
    var p := parts[0];
    if |p| > 0 {
      var parts' := [p[1..]] + parts[1..];
      assert forall i :: 0 <= i < |parts'| ==> sep !in parts'[i] by {
        forall i | 0 <= i < |parts'| ensures sep !in parts'[i] {
          if i == 0 {
            assert forall c :: c in p[1..] ==> c in p;
          } else {
            assert parts'[i] == parts[i];
          }
        }
      }
      SplitJoin(parts', sep);
      assert p[0] != sep by { assert p[0] in p; }
      JoinHead(parts, parts', sep);
    } else if |parts| > 1 {
      SplitJoin(parts[1..], sep);
      assert Join(parts, sep) == [sep] + Join(parts[1..], sep);
      assert Join(parts, sep)[1..] == Join(parts[1..], sep);
      assert parts == [""] + parts[1..];
    }
  }

  /** Moving the first character of the first piece out of the join. */
  lemma JoinHead(parts: seq<string>, parts': seq<string>, sep: char)
    requires |parts| >= 1 && |parts[0]| > 0
    requires parts' == [parts[0][1..]] + parts[1..]
    requires Split(Join(parts', sep), sep) == parts'
    requires parts[0][0] != sep
    ensures Split(Join(parts, sep), sep) == parts
  {
    var p := parts[0];
    var j := Join(parts, sep);
    JoinFirstChar(parts, parts', sep);
    assert j[1..] == Join(parts', sep);
    assert [p[0]] + p[1..] == p;
    assert parts == [[p[0]] + parts'[0]] + parts'[1..];
  }

  /** The join starts with the first character of the first piece,
      followed by the join with that character removed. */
  lemma JoinFirstChar(parts: seq<string>, parts': seq<string>, sep: char)
    requires |parts| >= 1 && |parts[0]| > 0
    requires parts' == [parts[0][1..]] + parts[1..]
    ensures Join(parts, sep) == [parts[0][0]] + Join(parts', sep)
  {
    var p := parts[0];
    if |parts| == 1 {
      assert Join(parts, sep) == p && Join(parts', sep) == p[1..];
    } else {
      assert parts'[1..] == parts[1..];
      assert Join(parts, sep) == p + [sep] + Join(parts[1..], sep);
      assert Join(parts', sep) == p[1..] + [sep] + Join(parts[1..], sep);
    }
  }
}

=== FILE: use_beach_details.dfy ===
/** The batch detail hook (frontend/src/api/useBeachDetails.ts): one
    query per id, and from their states a map from id to loaded detail
    plus the loading and error flags. The queries' states are an input;
    fetching and caching are left out. */
module UseBeachDetails {
  import opened Js
  import opened Arrays
  import opened BeachTypes

  /** The part of a query result the hook reads. */
  datatype Query = Query(data: Option<Detail>, isLoading: bool, isError: bool)

  /** Query `i` contributes: its id is non-empty and it has data. */
  predicate Fills(ids: seq<string>, queries: seq<Query>, i: nat)
    requires i < |ids| && i < |queries|
  {
    ids[i] != "" && queries[i].data.Some?
  }

  /** The last index below `n` whose query contributes data for `id`,
      the one whose `byId.set` survives. */
  function LastFill(ids: seq<string>, queries: seq<Query>, id: string, n: nat): (r: Option<nat>)
    requires n <= |ids| == |queries|
    ensures r.Some? ==> r.value < n && Fills(ids, queries, r.value) && ids[r.value] == id
    ensures r.Some? ==> forall j :: r.value < j < n ==> !(Fills(ids, queries, j) && ids[j] == id)
    ensures r.None? ==> forall j :: 0 <= j < n ==> !(Fills(ids, queries, j) && ids[j] == id)
    decreases n
  {
    if n == 0 then None
    else if Fills(ids, queries, n - 1) && ids[n - 1] == id then Some(n - 1)
    else LastFill(ids, queries, id, n - 1)
  }

  /** `useBeachDetails(ids)`: the `forEach` that fills `byId`, and the two
      `some` flags. Without ids there are no queries. */
  method BeachDetails(ids: Option<seq<string>>, queries: seq<Query>)
    returns (byId: map<string, Detail>, isLoading: bool, isError: bool)
    requires |queries| == |ids.GetOr([])|
    ensures ids.None? ==> byId == map[] && !isLoading && !isError
    ensures forall id :: id in byId <==> LastFill(ids.GetOr([]), queries, id, |queries|).Some?
    ensures forall id :: id in byId ==>
              byId[id] == queries[LastFill(ids.GetOr([]), queries, id, |queries|).value].data.value
    ensures isLoading <==> exists i :: 0 <= i < |queries| && queries[i].isLoading
    ensures isError <==> exists i :: 0 <= i < |queries| && queries[i].isError
  {
    var xs := ids.GetOr([]);
    byId := map[];
    var i := 0;
    while i < |queries|
      invariant 0 <= i <= |queries|
      invariant forall id :: id in byId <==> LastFill(xs, queries, id, i).Some?
      invariant forall id :: id in byId ==> byId[id] == queries[LastFill(xs, queries, id, i).value].data.value
    {
      if xs[i] != "" && queries[i].data.Some? {
        byId := byId[xs[i] := queries[i].data.value];
      }
      i := i + 1;
    }
    isLoading := Any(queries, (q: Query) => q.isLoading);
    isError := Any(queries, (q: Query) => q.isError);
    AnyIffExists(queries, (q: Query) => q.isLoading);
    AnyIffExists(queries, (q: Query) => q.isError);
  }

  /** Every id in the map is one of the requested ids, non-empty, and its
      detail is the data of a query for that id. */
  lemma {:induction false} FilledFromRequested(ids: seq<string>, queries: seq<Query>, id: string, n: nat)
    requires n <= |ids| == |queries|
    requires LastFill(ids, queries, id, n).Some?
    ensures id in ids[..n] && id != ""
    ensures exists i :: 0 <= i < n && ids[i] == id && queries[i].data.Some?
  {
    var i := LastFill(ids, queries, id, n).value;
    assert ids[..n][i] == id;
  }

  /** Of two queries for the same id that both hold data, the later one
      is the one kept. */
  lemma LaterDuplicateWins(ids: seq<string>, queries: seq<Query>, i: nat, j: nat)
    requires |ids| == |queries| && i < j < |ids|
    requires ids[i] == ids[j] && Fills(ids, queries, i) && Fills(ids, queries, j)
    ensures LastFill(ids, queries, ids[i], |ids|).Some?
    ensures LastFill(ids, queries, ids[i], |ids|).value >= j
  {
  }
}
